=== FILE: README.md ===
# jodycalc in Dafny

A model of Jody Bruchon's line calculator in its two versions: `jodycalc.c`, the full one, and `calc.c`, the earlier one. Each version reads one line of text and evaluates it strictly left to right, without operator precedence. An error makes the line worth 0.

- **jodycalc.c** works on `long` values.
  - Blanks are the space and the tab.
  - Operators are `+ - * / % ^`, plus parenthesised groups.
  - Comparison tokens (`==`, `!=`, `<>`, `><`, `>=`, `=>`, `<=`, `=<`, `>`, `<`) compare the left value with the value of the rest of the line and give exactly 1 or 0.
  - A line that starts with a variable may assign it with `=`. The variable list is append-only.
- **calc.c** works on `int` values.
  - Only the space is a blank.
  - Operators are `+ - * / ^` (no `%`), plus groups.
  - `get_var` and `set_var` are stubs, so any variable makes the line worth 0.

The model is functional. Its modules:

- `Common`: option type, C-string view of a line, character classes, maximal runs, and `Strip`, which drops blanks.
- `CArith`: C's truncating `/` and `%` over unbounded integers, `(long)pow` on integers, and the sign flag.
- `VarTable`: the variable list of jodycalc.c. It is a sequence of nodes in list order; names are compared through their first 16 characters, as `strncmp`/`strncpy` with `MAX_VAR_NAME` do.
- `JodyCalc` and `Calc`: the two versions.
  - `readtok` is a pure function `ReadTok(line, pos)`. It returns a `Scan`: the token type, the token text, and the position readtok returns (-1 stops the caller).
  - `expression` is the mutually recursive `Evaluate`/`Run`. It threads the local variables of one call as a `Frame` (`neg`, `lset`, `lvar`, `lvname`, `lvalue`, `op`, `result`).
  - jodycalc.c also threads the variable list and returns an `Outcome` (value, list).
  - Groups are read by `Group`. It collects token texts up to the first `)` token.
- `Chains`: operator chains as a user writes them (`-12 + x * 3`): a first term and a list of links `op term`, with a run of blanks around every operator. The property modules compare the evaluators with a reference left fold over such chains.
- `JodyCalcProps`, `JodyCalcGroups` and `CalcProps`: the properties.

Behaviour the model keeps because the code has it:

- A group ends at the first `)`, with no depth counter, so `((1+2)*3)` is worth 0 (JodyCalcGroups.NestedGroup).
- Blanks after the last token read as an unknown character, so `1 + 2 ` is worth 0 (JodyCalcProps.TrailingBlanks, CalcProps.TrailingSpaces).
- The sign flag is set by the last `+` or `-` written, and only a minus negates.
- An operator left pending at the end of the line is dropped, so `1 +` is worth 1 (JodyCalcGroups.DanglingOperator, CalcProps.DanglingOperator).
- In calc.c a group used as the first operand sets the left value but resets the result to 0. So `(5)` alone is worth 0, while `(2+3)*4` is worth 20.

Lines are modelled as shorter than `MAX_LINE` (120 for jodycalc.c, 80 for calc.c) and free of NUL, as the read loop delivers them. That makes the `MAX_LINE` branches of readtok unreachable. Every recursive call of the evaluator is on a strictly shorter line:

- the rest of the line after a comparison or `=`;
- the blank-free text of a group.

## Model

| member | source | states |
|---|---|---|
| Common.Span | jodycalc.c:220-236 | The digit and letter loops of readtok stop at the end of a maximal run: every character before the end is in the class, and the one at the end is not (or the line ends there). |
| Common.DecimalRoundTrip | jodycalc.c:415-417 | Reading back, in base 10, the numeral of any natural number gives that number. |
| CArith.TDiv | jodycalc.c:274 | C division truncates toward zero (section 6.5.5 of ISO C99). The remainder it leaves is smaller than the divisor in magnitude, and never has the opposite sign of the dividend. |
| CArith.TRem | jodycalc.c:278 | C `%` is the remainder of the truncating quotient: `a == (a / b) * b + a % b`, smaller than the divisor in magnitude, with the sign of the dividend. |
| CArith.TDivNonNegative | jodycalc.c:274 | On non-negative operands C's quotient and remainder are the Euclidean ones. |
| CArith.CPow | jodycalc.c:279 | `(long)pow(l, r)` on integers has these cases: 1 for r = 0; l times the power for r - 1 when r > 0; for r < 0, 0 unless abs(l) is 1, 1 for l = 1, and for l = -1 the power of -1, which alternates with the parity of r. |
| CArith.Signed | jodycalc.c:439 | A minus sign negates the operand, a plus or no sign leaves it as it is, and a sign never changes the operand's magnitude. |
| VarTable.Key | jodycalc.c:90 | `strncmp`/`strncpy` with MAX_VAR_NAME see a prefix of the name: the whole name when it has at most 16 characters, and exactly its first 16 characters when it is longer. |
| VarTable.FindFrom | jodycalc.c:85-96 | The find_var walk from a node on: the node found carries the name and no earlier node does; when nothing is found, no node carries the name. |
| VarTable.Find | jodycalc.c:85-96 | find_var from the head of the list returns the first node that carries the name, or nothing exactly when no node does. |
| VarTable.FirstMatch | jodycalc.c:89-91 | A node that carries the name, with no earlier node carrying it, is the one find_var returns. |
| VarTable.Get | jodycalc.c:100-109 | get_var succeeds exactly when some node carries the name, and then returns a value stored under that name. |
| VarTable.Set | jodycalc.c:113-141 | After set_var, get_var returns the new value. An existing node is overwritten in place and every other node is kept; an absent name is appended as one tail node. Old nodes keep their place and names, and unique names stay unique. |
| VarTable.SetOther | jodycalc.c:113-141 | Assigning one variable leaves the value of every other variable as it was. |
| VarTable.SetTwice | jodycalc.c:123-127 | A second assignment to a name leaves the list as if only the second had happened. |
| VarTable.SameKey | jodycalc.c:90 | Two names that agree on their first 16 characters are one variable, for lookup and for assignment. |
| Chains.SignAfter | jodycalc.c:372-383 | After a run of signs the flag holds the last sign written: minus exactly when it is `-`, plus exactly when it is `+`. No sign leaves the flag alone. |
| JodyCalc.ReadTok | jodycalc.c:143-262 | readtok skips blanks and reads one token. The token is invalid (empty, position -1) exactly when the line is exhausted or the first non-blank character starts no token. Otherwise the text is what stands between the blanks and the returned position. Digit and letter runs are maximal; operators and parentheses are one character; a lone `=` is the assignment token. Position -1 with a valid type happens only for a lone `!`. |
| JodyCalc.ReadAt | jodycalc.c:172-261 | The same classification from the first non-blank character: each token type, its text and its end, and invalid exactly for a character that starts no token. |
| JodyCalc.ReadRelational | jodycalc.c:172-218 | `!`, `=`, `<` and `>` give a comparison or the assignment token. A two-character spelling is consumed only when the second character extends it. A lone `!` runs to the next space and returns -1. |
| JodyCalc.DoOperation | jodycalc.c:266-285 | `+ - *` are exact. `/` truncates toward zero and `%` is its remainder. Division or remainder by zero gives 0, `^` is the integer power, and an unknown operator gives 0. |
| JodyCalc.CompareValue | jodycalc.c:330-352 | A comparison is exactly 1 or 0, and 1 exactly when its relation holds; `<>`/`><` mean `!=`, `=>` means `>=` and `=<` means `<=`. The spellings `>>` and `<<` give 0. |
| JodyCalc.Settle | jodycalc.c:436-456 | The final evaluation step fails exactly when a left value is set and no operator is pending. Otherwise it clears the sign, leaves the left value equal to the result, and either fixes the signed operand as the left value or applies the pending operation to it, clearing the operator. |
| JodyCalc.OperatorFrame | jodycalc.c:366-390 | An operator is accepted exactly when the line's first variable is not unbound and either a value is placed with no operator pending or the operator is `+` or `-`. After a value it becomes pending; otherwise it sets the sign flag. |
| JodyCalc.VariableFrame | jodycalc.c:422-435 | A variable is an error exactly when it follows a placed value with no operator, or follows an operator and is unbound. As the line's first operand it records its name, bound or not. Otherwise it is placed like a number of its value. |
| JodyCalc.GroupShape | jodycalc.c:392-410 | When a group closes, it closes at the first `)` character after its `(`, and the text it hands on is what stands before that `)`, without blanks. Whether it closes is stated by JodyCalcGroups.NeverCloses and JodyCalcGroups.GroupOfChain. |
| JodyCalc.Group | jodycalc.c:396-410 | The subexpression loop: a closed group ends after its `(` and within the line. |
| JodyCalc.GroupText | jodycalc.c:411-412 | The text of a closed group is again a line, strictly shorter than the rest of the line, and holds no `=` unless the line does. |
| JodyCalc.Evaluate | jodycalc.c:289-481 | An evaluation leaves the variable list untouched when the line holds no `=`. Otherwise it keeps every old node in place under its name and keeps names unique. Its values are stated by JodyCalcProps.EvaluateChain, JodyCalcProps.CompareChain, JodyCalcProps.AssignVariable and the group lemmas. |
| JodyCalc.Run | jodycalc.c:303-311 | The token loop changes the variable list only as evaluations do. |
| JodyCalc.Dispatch | jodycalc.c:321-476 | The switch on the token type changes the variable list only as evaluations do. |
| JodyCalc.Continue | jodycalc.c:443-456 | Going on after an operand, or stopping with 0, changes the variable list only as evaluations do. |
| JodyCalc.Step | jodycalc.c:366-435 | One token against the parse state, with the error exits as if-and-only-ifs: a number fails exactly when a value is already placed with no operator after it, and otherwise places its signed decimal value, combined with the left value by the pending operator when there is one; a variable fails exactly in that case too, or when it follows an operator and is unbound; an operator fails exactly when the first variable was unbound or when it is neither `+` nor `-` and no value is placed with no operator after it, and an operator after a placed value becomes the pending one. |
| JodyCalc.Relational | jodycalc.c:322-364 | A comparison or an assignment changes the variable list only by keeping old nodes in place, and keeps names unique. |
| JodyCalc.Parenthesised | jodycalc.c:392-413 | Evaluating a group and going on after it changes the variable list only as evaluations do. |
| JodyCalcProps.ReadsNumber | jodycalc.c:220-227 | After blanks, a maximal run of digits is one number token, and readtok returns the position after it. |
| JodyCalcProps.ReadsName | jodycalc.c:229-236 | After blanks, a maximal run of `a`-`z` is one variable token. |
| JodyCalcProps.ReadsOperator | jodycalc.c:238-244 | After blanks, each of `+ - * / % ^` is a token of one character. |
| JodyCalcProps.ReadsParen | jodycalc.c:246-255 | After blanks, `(` and `)` are tokens of one character. |
| JodyCalcProps.ReadsCompare | jodycalc.c:172-209 | After blanks, every comparison spelling is read as one token with its own text. A lone `<` or `>` needs a character after it that does not extend it. |
| JodyCalcProps.ReadsEqual | jodycalc.c:212-218 | An `=` not followed by `=`, `<` or `>` is the assignment token. |
| JodyCalcProps.ReadsBang | jodycalc.c:175-184 | A `!` not followed by `=` is a comparison running to the next space, with position -1. |
| JodyCalcProps.ReadsInvalid | jodycalc.c:257-258 | After blanks, a character that starts no token, or the end of the line, is invalid with position -1. |
| JodyCalcProps.SignSteps | jodycalc.c:372-383 | Signs where an operand is expected only set the sign flag, to the last sign written. |
| JodyCalcProps.OperandStep | jodycalc.c:415-456 | A bound operand where one is expected is placed: it becomes the left value, or the pending operation is applied to it. An unbound one is an error after an operator; as the first operand it leaves 0 and marks the variable unbound. |
| JodyCalcProps.TermSteps | jodycalc.c:372-456 | A term, signs then operand, is placed with the last sign applied to its value. |
| JodyCalcProps.LinkSteps | jodycalc.c:436-451 | After a placed value, one link `op term` leaves `do_operation(value, term, op)` placed, or fails when the term's variable is unbound. |
| JodyCalcProps.LinksSteps | jodycalc.c:436-451 | After a placed value, the links leave their left fold with do_operation placed, or fail when the fold meets an unbound variable. |
| JodyCalcProps.UnboundLinks | jodycalc.c:366-371 | After an unbound first variable, the first operator stops the line. |
| JodyCalcProps.ChainSteps | jodycalc.c:304-456 | The tokens of a whole chain leave the chain's reference value as left value and result. They fail exactly when a longer chain meets an unbound variable; a lone unbound variable leaves 0. |
| JodyCalcProps.RunSteps | jodycalc.c:304-479 | The token loop over number, variable and operator tokens stops with 0 when a step fails. Otherwise it goes on where the tokens end, with the frame they leave. |
| JodyCalcProps.ChainRead | jodycalc.c:157-244 | readtok splits a chain into its tokens: one per sign, one per operand and one per operator. |
| JodyCalcProps.ChainReadAt | jodycalc.c:157-244 | The same for a chain that stands anywhere in a line after blanks: its tokens end where its text ends. |
| JodyCalcProps.EvaluateChain | jodycalc.c:289-481 | A line holding a chain is worth the chain's left fold with do_operation, without precedence, or 0 when a variable in it is unbound. The variable list is left as it was. |
| JodyCalcProps.TrailingBlanks | jodycalc.c:157-164 | Blanks after a chain make the line worth 0, and the variable list is left as it was. |
| JodyCalcProps.NoLeftValue | jodycalc.c:372-388 | A line that starts with an operator other than a sign is worth 0. |
| JodyCalcProps.RunCompare | jodycalc.c:322-353 | At a comparison with a left value set, the loop returns the comparison of the left value with the value of the rest of the line, together with the list that evaluation leaves. |
| JodyCalcProps.CompareChain | jodycalc.c:322-353 | A chain followed by a comparison compares the chain's value with the rest of the line's value. A lone unbound variable compares as 0, and an unbound variable in a longer chain makes the line worth 0. |
| JodyCalcProps.RunAssign | jodycalc.c:354-364 | At `=`, after the line's first variable, the value of the rest of the line is stored under that variable and returned. |
| JodyCalcProps.FirstName | jodycalc.c:422-429 | The first variable of a line is recorded as the target of a later `=`, bound or not. |
| JodyCalcProps.AssignVariable | jodycalc.c:354-364 | `name = rest` is worth the value of `rest`. It leaves the list that `rest` leaves, with `name` set to that value by set_var. |
| JodyCalcGroups.ClosedGroup | jodycalc.c:411-413 | A closed group's text is evaluated on its own, and the loop goes on after the `)` with that value placed as an operand. |
| JodyCalcGroups.GroupAtEnd | jodycalc.c:392-413 | A group that ends the line, where an operand is expected, places the signed value of its text, with the list that evaluation leaves. It is worth 0 when it does not close. |
| JodyCalcGroups.EvaluateGroup | jodycalc.c:392-413 | A line that is one group is worth 0 when the group does not close; when it closes, it is worth what its text is worth on its own, and leaves the same list. |
| JodyCalcGroups.EmptyGroup | jodycalc.c:406-408 | `()` is worth 0. |
| JodyCalcGroups.NeverCloses | jodycalc.c:397-401 | Tokens with no `)` after them never close a group. |
| JodyCalcGroups.Unclosed | jodycalc.c:396-401 | A `(` with no `)` after it makes the line worth 0. |
| JodyCalcGroups.StrayClose | jodycalc.c:459-461 | A `)` outside a group makes the line worth 0. |
| JodyCalcGroups.OpenOnly | jodycalc.c:396-412 | A group text that holds a `(` but no `)` is worth 0. |
| JodyCalcGroups.NestedGroup | jodycalc.c:396-410 | `((x))` is worth 0: the outer group ends at the first `)`, and the second `)` stands outside any group. |
| JodyCalcGroups.RunOperator | jodycalc.c:389 | After a placed value, an operator becomes the pending operation. |
| JodyCalcGroups.DanglingOperator | jodycalc.c:478-480 | A chain followed by an operator that ends the line is worth the chain's value: the loop runs out of line and returns the result so far. |
| JodyCalcGroups.GroupOperand | jodycalc.c:445-451 | A group that ends the line after a pending operator is worth 0 when it does not close. When it closes it is the right operand: a sign written before the group applies to its value, and the operation is applied to the left value and that signed value. |
| JodyCalcGroups.RunOperatorGroup | jodycalc.c:389-451 | An operator followed by a group that ends the line gives 0 when the group does not close. When it closes, the operation is applied to the left value and the group's value. |
| JodyCalcGroups.ChainThenGroup | jodycalc.c:445-451 | `chain op (x)` is worth 0 when the chain holds an unbound variable or the group does not close. Otherwise it is worth do_operation applied to the chain's value and the value of `x`, with the list `x` leaves. |
| JodyCalcGroups.UnboundChainThenOperator | jodycalc.c:366-371 | A chain holding an unbound variable, followed by an operator, makes the line worth 0. |
| JodyCalcGroups.TokensClose | jodycalc.c:396-410 | Chain tokens read from a group's start, followed by blanks and a `)`, make the group close. |
| JodyCalcGroups.GroupOfChain | jodycalc.c:396-410 | A group whose text is a chain between blanks does close, just after the `)`, and hands on the chain without blanks. |
| JodyCalcGroups.EvaluateChainGroup | jodycalc.c:392-413 | A line that is one group holding a chain is worth the chain's left fold with do_operation (0 when a variable in it is unbound), and leaves the variable list as it was. |
| JodyCalcGroups.ChainOpChainGroup | jodycalc.c:436-451 | `chain op (chain2)` is worth do_operation applied to the two chains' values, with the list left as it was. It is worth 0 when the first chain holds an unbound variable. |
| Calc.ReadTok | calc.c:75-136 | At or past the end of the line, readtok leaves the type TOK_NULL and returns TOK_EOL (127) as the position. Otherwise it skips spaces. It gives TOK_NULL with -1 exactly when the next character starts no token, such as a tab, `%` or the end of the line. Digit and letter runs are maximal, and operators and parentheses are one character. |
| Calc.ReadAt | calc.c:95-135 | From the first non-space character: each token type with its text and end, and TOK_NULL exactly for a character that starts no token. |
| Calc.DoOperation | calc.c:139-158 | `+ - *` are exact and `/` truncates toward zero; division by zero gives 0. `^` is the integer power, and any other operator (including `%`) gives 0. |
| Calc.GroupShape | calc.c:236-250 | When a group closes, it closes at the first `)` after its `(`, and hands on what stands before it without spaces. Whether it closes is stated by CalcProps.GroupOfChain. |
| Calc.Group | calc.c:236-250 | The subexpression loop: a closed group ends after its `(` and within the line. |
| Calc.GroupText | calc.c:246-251 | The text of a closed group is again a line, strictly shorter than the rest of the line. |
| CalcProps.ReadsNumber | calc.c:95-102 | After spaces, a maximal run of digits is one number token. |
| CalcProps.ReadsName | calc.c:104-111 | After spaces, a maximal run of `a`-`z` is one variable token. |
| CalcProps.ReadsOperator | calc.c:113-119 | After spaces, each of `+ - * / ^` is a token of one character. |
| CalcProps.ReadsParen | calc.c:121-130 | After spaces, `(` and `)` are tokens of one character. |
| CalcProps.ReadsNothing | calc.c:132-135 | After spaces, a character that starts no token, or the end of the line, gives TOK_NULL with -1. |
| CalcProps.SignStep | calc.c:215-226 | Where an operand is expected, `+` and `-` set the sign flag. |
| CalcProps.MisplacedOperator | calc.c:227-229 | Where an operand is expected, any operator other than a sign makes the line worth 0. |
| CalcProps.OperatorStep | calc.c:231 | After a placed value, an operator becomes the pending operation. |
| CalcProps.ParenStep | calc.c:233-251 | A `(` whose group does not close makes the line worth 0. Otherwise the group's text is evaluated on its own, and its value is an operand that ends after the `)`. |
| CalcProps.OperandPlaced | calc.c:186-206 | A number where an operand is expected is placed under the last sign: it becomes the left value and the result, or the pending operation is applied to it. |
| CalcProps.OperandUnexpected | calc.c:207-211 | A number or group after a placed value, with no operator between them, makes the line worth 0. |
| CalcProps.SignsRun | calc.c:215-226 | A run of signs where an operand is expected leaves the last sign written in the flag. |
| CalcProps.TermRun | calc.c:181-226 | A term where an operand is expected places the signed value of its number, and a variable makes the line worth 0. |
| CalcProps.LinkRun | calc.c:195-206 | After a placed value, a link `op term` places `do_operation(value, term, op)`, or makes the line worth 0 when the term is a variable. |
| CalcProps.LinksRun | calc.c:195-206 | After a placed value, the links place their left fold with do_operation, or make the line worth 0 when a term is a variable. |
| CalcProps.ChainRun | calc.c:172-206 | A chain where the first operand is expected places its reference value, or makes the line worth 0 when it holds a variable. |
| CalcProps.EvaluateChain | calc.c:161-290 | A line holding a chain is worth the chain's left fold with do_operation, without precedence, and 0 when it holds a variable. |
| CalcProps.TrailingSpaces | calc.c:89-93 | Spaces after a chain make the line worth 0. |
| CalcProps.NoLeftValue | calc.c:227-229 | A line that starts with an operator other than a sign is worth 0. |
| CalcProps.StrayClose | calc.c:275-277 | A `)` outside a group makes the line worth 0. |
| CalcProps.Unclosed | calc.c:236-245 | A `(` with no `)` anywhere after it makes the line worth 0: the group reaches the end of the line without closing. |
| CalcProps.UnknownCharacter | calc.c:278-280 | A character that starts no token, a tab among them, makes the line worth 0. |
| CalcProps.VariableStops | calc.c:178-180 | A variable makes the line worth 0 wherever it stands. |
| CalcProps.NumberAfterValue | calc.c:207-211 | A number right after a placed value makes the line worth 0. |
| CalcProps.MissingOperator | calc.c:207-211 | A chain followed by a number with no operator between them is worth 0. |
| CalcProps.DanglingOperator | calc.c:286-289 | A chain followed by an operator that ends the line is worth the chain's value (0 when it holds a variable). |
| Common.ClosesAtParen | calc.c:236-250 | When a group whose text holds no `)` closes, it ends just after the `)` that follows that text, and hands on the text without blanks; the same loop is jodycalc.c:396-410, with tabs as blanks too. |
| CalcProps.GroupRun | calc.c:233-251 | A group `(x)` is worth 0 when it does not close. Otherwise it is an operand, ending after the `)`, whose value is that of `x` without spaces. |
| CalcProps.GroupAlone | calc.c:252-258 | A line that is one group is worth 0, whatever the group holds: as the first operand a group resets the result. |
| CalcProps.FirstOperandLinks | calc.c:252-258 | A group's value as the first operand, followed by links up to the end of the line, gives the left fold of the links from that value. |
| CalcProps.GroupThenLinks | calc.c:252-268 | `(x) op term ...` is worth 0 when the group does not close. When it closes, it is worth the left fold of the links from the value of `x`. |
| CalcProps.OperatorGroupRun | calc.c:259-268 | After a value, an operator and a group that ends the line give 0 when the group does not close. When it closes, they give do_operation applied to the value and the group's value. |
| CalcProps.ChainThenGroup | calc.c:259-268 | `chain op (x)` is worth 0 when the chain holds a variable or the group does not close. Otherwise it is worth do_operation applied to the chain's value and the value of `x`. |
| Chains.StripChain | calc.c:246-248 | Concatenating a chain's token texts, as the group loop does, gives the chain written without blanks, for the space of calc.c and for the space and tab of jodycalc.c:406-408 alike. |
| CalcProps.ChainClose | calc.c:236-248 | The tokens of a chain inside a group never end it: the group closes from before the chain exactly when it closes from after it. |
| CalcProps.GroupOfChain | calc.c:236-250 | A group whose text is a chain between spaces does close, just after the `)`, and hands on the chain without spaces. |
| CalcProps.ChainGroupThenLinks | calc.c:252-268 | `(chain) op term ...` is worth the left fold of the links from the inner chain's value (taken as 0 when it holds a variable). |
| CalcProps.ChainOpChainGroup | calc.c:259-268 | `chain op (chain2)` is worth do_operation applied to the two chains' values, the second taken as 0 when it holds a variable. It is worth 0 when the first chain holds a variable. |

The stubs `get_var` and `set_var` of calc.c are `Calc.GetVar` and `Calc.SetVar`. They return -1 and are never called by `expression`, whose variable case is `CalcProps.VariableStops`.

`expression` of calc.c (calc.c:162-290) is `Calc.Evaluate`, with its token loop `Calc.Run` and the shared operand code `Calc.Operand`. These three compute and carry no contract of their own. Their values are stated by CalcProps.EvaluateChain (chains), CalcProps.VariableStops (variables), CalcProps.GroupAlone and CalcProps.ChainGroupThenLinks (a group as the first operand), CalcProps.ChainOpChainGroup (a group as a right operand), and the step lemmas above them.

## Left out

- The read loop and command dispatch (`main`, `do_help`, `quit`/`help`): this is I/O around the evaluator.
- Diagnostics printed to stderr or stdout, and the warnings for too many signs, overflow and unparsable numbers. Errors appear only as the value 0.
- Integer width. Values are unbounded, so the overflow of `long` and `int` arithmetic and the saturation of `strtol`/`atoi` on long digit runs are not modelled. A digit token always parses, so the `tok == num_check` branch never fires.
- CArith.CPow: gives `(long)pow(l, r)` its exact integer meaning. The floating-point rounding of `pow` for large results, and the undefined cast of an infinite result for `0 ^ negative`, are not modelled; that case gives 0.
- JodyCalc.DoOperation: `%` by zero is undefined in C. The model gives 0, the same as `/` by zero.
- The `MAX_LINE` branches of readtok and the `strncat` bound on group text: lines are shorter than `MAX_LINE` and hold no NUL, which makes these paths unreachable.
- The over-read of `lvname` in the "no such variable" diagnostics (jodycalc.c:309, 369, 472). A variable name of 16 or more characters, as in `abcdefghijklmnopq = 7`, is copied into `lvname` with `strncpy` and no terminator (jodycalc.c:425). Its value is modelled: VarTable.Key and VarTable.SameKey compare only the first 16 characters, as jodycalc.c:90 and 134 do. Only the text of the message is left out, like all diagnostics.
- The look-ahead mode of readtok, selected by a NULL token-type argument, which `expression` never uses.
- A lone `!` inside a group: the source re-reads the line from position -1, which is out of bounds. The model ends the group as unclosed, worth 0.
- `malloc` failure and `exit` in set_var.
- The DEBUG token-name table and its prints.
- `find_var` of calc.c (calc.c:49): dead code. Nothing calls it, since the stubs get_var and set_var (calc.c:63-73) just return -1.
- The variable list is a value passed into and out of every evaluation, not a global.
- JodyCalcProps.EvaluateChain, CalcProps.EvaluateChain and the chain lemmas built on them: stated for chains with the same run of blanks around every operator. Every operator gets the same blanks on both sides; lines written with uneven spacing are covered only by the evaluator itself.

=== FILE: calc.dfy ===
/** calc.c: the earlier calculator. `int` values, only the space is a blank,
    operators `+ - * / ^` without `%`, no comparisons and no assignment;
    variable support is stubbed out, so a variable makes a line worth 0. */
module Calc {
  import opened Common
  import opened CArith

  /** Maximum input line length */
  const MAX_LINE: nat := 80

  /** The type code readtok returns as a position when it starts at or past
      the end of the line. */
  const TOK_EOL: int := 127

  predicate ValidLine(line: string)
  {
    |line| < MAX_LINE && NoNul(line)
  }

  /** IS_SPACE: the space only */
  predicate IsBlank(c: char)
  {
    c == ' '
  }

  /** IS_OP: no `%` in this version */
  predicate IsOp(c: char)
  {
    c == '+' || c == '/' || c == '*' || c == '-' || c == '^'
  }

  predicate StartsToken(c: char)
  {
    IsDigit(c) || IsLower(c) || IsOp(c) || c == '(' || c == ')'
  }

  /** Token types (TOK_EOL is never set as a type by this tokenizer). */
  datatype Kind = Null | Num | Var | Op | Paren | EndParen

  datatype Scan = Scan(kind: Kind, text: string, next: int)

  /** readtok: skip spaces, then classify and extract one token. At or past
      the end of the line the type stays TOK_NULL and the position returned
      is TOK_EOL; an unknown character gives TOK_NULL and -1. */
  function ReadTok(line: string, pos: nat): (s: Scan)
    requires ValidLine(line)
    ensures pos >= |line| ==> s == Scan(Null, "", TOK_EOL)
    ensures pos < |line| ==> s.next == -1 || pos < s.next <= |line|
    ensures s.kind == Null <==> s.next == -1 || s.next == TOK_EOL
    ensures s.kind == Null ==> s.text == ""
    ensures pos < |line| ==>
      (s.kind == Null <==> !StartsToken(At(line, Span(line, pos, IsBlank))))
    ensures s.kind != Null ==> Consumed(line, pos, s.text, s.next, IsBlank)
    ensures s.kind != Null ==> forall i | 0 <= i < |s.text| :: !IsBlank(s.text[i])
    ensures s.kind != Null && s.kind != EndParen ==> ')' !in s.text
    ensures s.kind == Num ==> AllDigits(s.text) && !IsDigit(At(line, s.next))
    ensures s.kind == Var ==> AllLower(s.text) && !IsLower(At(line, s.next))
    ensures s.kind == Op ==> |s.text| == 1 && IsOp(s.text[0])
    ensures s.kind == Paren ==> s.text == "("
    ensures s.kind == EndParen ==> s.text == ")"
  {
    if |line| == 0 || pos > |line| then Scan(Null, "", TOK_EOL)
    else if pos == |line| then Scan(Null, "", TOK_EOL)
    else
      var p := Span(line, pos, IsBlank);
      var s := ReadAt(line, p);
      assert s.kind != Null ==> line[s.next - |s.text|..s.next] == s.text;
      s
  }

  /** The token starting at `p`, the first non-blank position. */
  function ReadAt(line: string, p: nat): (s: Scan)
    requires ValidLine(line) && p <= |line| && !IsBlank(At(line, p))
    ensures s.kind == Null <==> s.next == -1
    ensures s.kind == Null <==> !StartsToken(At(line, p))
    ensures s.kind == Null ==> s.text == ""
    ensures s.kind != Null ==> p < s.next <= |line|
    ensures s.kind != Null ==> s.next == p + |s.text| && line[p..s.next] == s.text
    ensures s.kind != Null ==> forall i | 0 <= i < |s.text| :: !IsBlank(s.text[i])
    ensures s.kind != Null && s.kind != EndParen ==> ')' !in s.text
    ensures s.kind == Num ==> AllDigits(s.text) && !IsDigit(At(line, s.next))
    ensures s.kind == Var ==> AllLower(s.text) && !IsLower(At(line, s.next))
    ensures s.kind == Op ==> |s.text| == 1 && IsOp(s.text[0])
    ensures s.kind == Paren ==> s.text == "("
    ensures s.kind == EndParen ==> s.text == ")"
  {
    var c := At(line, p);
    if IsDigit(c) then
      Scan(Num, SpanText(line, p, IsDigit), Span(line, p, IsDigit))
    else if IsLower(c) then
      Scan(Var, SpanText(line, p, IsLower), Span(line, p, IsLower))
    else if IsOp(c) then
      Scan(Op, [c], p + 1)
    else if c == '(' then
      Scan(Paren, "(", p + 1)
    else if c == ')' then
      Scan(EndParen, ")", p + 1)
    else
      Scan(Null, "", -1)
  }

  /** do_operation: `+ - *`, truncating `/` with division by zero reported
      and giving 0, `^`; any other operator gives 0. */
  function DoOperation(l: int, r: int, op: char): (v: int)
    ensures op == '+' ==> v == l + r
    ensures op == '-' ==> v == l - r
    ensures op == '*' ==> v == l * r
    ensures op == '/' && r != 0 ==>
      Abs(l - v * r) < Abs(r) && (l - v * r == 0 || (l - v * r < 0 <==> l < 0))
    ensures op == '/' && r == 0 ==> v == 0
    ensures op == '^' ==> v == CPow(l, r)
    ensures !IsOp(op) ==> v == 0
  {
    if op == '/' then (if r == 0 then 0 else TDiv(l, r))
    else if op == '+' then l + r
    else if op == '-' then l - r
    else if op == '*' then l * r
    else if op == '^' then CPow(l, r)
    else 0
  }

  /** get_var: a stub that always fails. */
  function GetVar(name: string): int
  {
    -1
  }

  /** set_var: a stub that always fails. */
  function SetVar(name: string, value: int): int
  {
    -1
  }

  /** The local variables of one `expression` call. */
  datatype Frame = Frame(neg: Sign, lset: bool, lvalue: int, op: Option<char>, result: int)

  const Start: Frame := Frame(NoSign, false, 0, None, 0)

  /** The tokens of a parenthesised group up to the first `)` token, their
      texts concatenated; Unclosed when a TOK_NULL comes first (an unknown
      character, or the end of the line). */
  function Group(line: string, pos: nat): (g: Closing)
    requires ValidLine(line) && pos <= |line|
    ensures g.Closed? ==> pos < g.end <= |line|
    decreases |line| - pos
  {
    var s := ReadTok(line, pos);
    if s.kind == Null then Unclosed
    else if s.text == ")" then
      Closed([], s.next)
    else
      match Group(line, s.next)
      case Unclosed => Unclosed
      case Closed(inner, e) =>
        Closed(s.text + inner, e)
  }

  /** Where a group closes: at the first `)` character from `pos` on, and
      its text is what stands before that `)` with the blanks dropped. */
  lemma {:induction false} GroupShape(line: string, pos: nat)
    requires ValidLine(line) && pos <= |line|
    ensures ClosesAtFirst(line, pos, Group(line, pos), IsBlank)
    decreases |line| - pos
  {
    var s := ReadTok(line, pos);
    if s.kind != Null {
      if s.text == ")" {
        GroupClose(line, pos, s.next, IsBlank);
      } else {
        GroupShape(line, s.next);
        GroupStepCloses(line, pos, s.text, s.next, Group(line, s.next), Group(line, pos), IsBlank);
      }
    }
  }

  /** A group text closing at `end` is again a line, shorter than the rest
      of the line. */
  lemma ClosedLine(line: string, pos: nat, text: string, end: nat)
    requires ValidLine(line) && pos < end <= |line|
    requires text == Strip(line[pos..end - 1], IsBlank)
    ensures ValidLine(text) && |text| < |line| - pos
  {
    assert '\0' !in line[pos..end - 1];
    StripKeeps(line[pos..end - 1], IsBlank, '\0');
  }

  /** The text of a closed group is again a line, shorter than the rest of
      the line it came from. */
  lemma {:induction false} GroupText(line: string, pos: nat)
    requires ValidLine(line) && pos <= |line|
    ensures Group(line, pos).Closed? ==>
      ValidLine(Group(line, pos).text) && |Group(line, pos).text| < |line| - pos
  {
    var g := Group(line, pos);
    if g.Closed? {
      GroupShape(line, pos);
      ClosedLine(line, pos, g.text, g.end);
    }
  }

  /** expression: evaluate one line. */
  function Evaluate(line: string): int
    requires ValidLine(line)
    decreases |line|, 1, 0, 0
  {
    if |line| == 0 then 0 else Run(line, 0, Start)
  }

  /** The token loop of `expression`, from position `pos` on. */
  function Run(line: string, pos: nat, f: Frame): int
    requires ValidLine(line) && pos <= |line|
    decreases |line|, 0, |line| - pos, 2
  {
    if pos == |line| then f.result
    else
      var s := ReadTok(line, pos);
      match s.kind
      case Var => 0
      case Num => Operand(line, s.next, DecimalValue(s.text), false, f)
      case Op =>
        if !f.lset || f.op.Some? then
          if s.text[0] == '+' then Run(line, s.next, f.(neg := Plus))
          else if s.text[0] == '-' then Run(line, s.next, f.(neg := Minus))
          else 0
        else
          Run(line, s.next, f.(op := Some(s.text[0])))
      case Paren =>
        (match Group(line, s.next)
         case Unclosed => 0
         case Closed(sub, after) =>
           GroupText(line, s.next);
           Operand(line, after, Evaluate(sub), true, f))
      case EndParen => 0
      case Null => 0
  }

  /** A number, or a group's value, ending at `next`: as the first operand
      it becomes the left value (a group also resets `result` to 0); after
      an operator it is combined with the left value, and the combination is
      returned when the line ends there. */
  function Operand(line: string, next: nat, v: int, group: bool, f: Frame): int
    requires ValidLine(line) && 0 < next <= |line|
    decreases |line|, 0, |line| - next, 3
  {
    var r := Signed(f.neg, v);
    if !f.lset then
      Run(line, next, f.(lvalue := r, neg := NoSign, result := if group then 0 else r, lset := true))
    else if f.op.Some? then
      var w := DoOperation(f.lvalue, r, f.op.value);
      if next < |line| then Run(line, next, f.(lvalue := w, op := None, neg := NoSign, result := w))
      else w
    else
      0
  }
}

=== FILE: calc_props.dfy ===
/** Properties of the calc.c model: what readtok reads at a position, the
    evaluation of operator chains against a reference left fold, the places
    where a line is worth 0, and parenthesised groups. */
module CalcProps {
  import opened Common
  import opened CArith
  import opened Chains
  import opened Calc

  /** Only spaces stand in `line[a..b]`. */
  predicate Spaces(line: string, a: nat, b: nat)
  {
    b <= |line| && forall i | a <= i < b :: IsBlank(line[i])
  }

  predicate AllSpaces(sep: string)
  {
    forall i | 0 <= i < |sep| :: IsBlank(sep[i])
  }

  /** `line[p..]` starts with `x`, and only spaces stand between `pos` and `p`. */
  predicate After(line: string, pos: nat, p: nat, x: string)
  {
    ValidLine(line) && pos <= p && Spaces(line, pos, p) && HasAt(line, p, x)
  }

  /** Spaces written into a line are spaces of the line. */
  lemma SpacesAt(line: string, pos: nat, sep: string)
    requires HasAt(line, pos, sep) && AllSpaces(sep)
    ensures Spaces(line, pos, pos + |sep|)
  {
    HasAtClass(line, pos, sep, IsBlank);
  }

  // ----- The tokenizer, position by position -----

  /** After spaces, a maximal run of digits is one number token. */
  lemma ReadsNumber(line: string, pos: nat, p: nat, e: nat)
    requires ValidLine(line) && pos <= p < e <= |line| && Spaces(line, pos, p)
    requires forall i | p <= i < e :: IsDigit(line[i])
    requires !IsDigit(At(line, e))
    ensures ReadTok(line, pos) == Scan(Num, line[p..e], e)
  {
    SpanIs(line, pos, p, IsBlank);
    SpanIs(line, p, e, IsDigit);
  }

  /** After spaces, a maximal run of lower-case letters is one variable token. */
  lemma ReadsName(line: string, pos: nat, p: nat, e: nat)
    requires ValidLine(line) && pos <= p < e <= |line| && Spaces(line, pos, p)
    requires forall i | p <= i < e :: IsLower(line[i])
    requires !IsLower(At(line, e))
    ensures ReadTok(line, pos) == Scan(Var, line[p..e], e)
  {
    SpanIs(line, pos, p, IsBlank);
    SpanIs(line, p, e, IsLower);
  }

  /** After spaces, an operator character is a token on its own. */
  lemma ReadsOperator(line: string, pos: nat, p: nat)
    requires ValidLine(line) && pos <= p < |line| && Spaces(line, pos, p) && IsOp(line[p])
    ensures ReadTok(line, pos) == Scan(Op, [line[p]], p + 1)
  {
    SpanIs(line, pos, p, IsBlank);
  }

  /** After spaces, `(` and `)` are tokens on their own. */
  lemma ReadsParen(line: string, pos: nat, p: nat)
    requires ValidLine(line) && pos <= p < |line| && Spaces(line, pos, p)
    requires line[p] == '(' || line[p] == ')'
    ensures ReadTok(line, pos) == Scan(if line[p] == '(' then Paren else EndParen, [line[p]], p + 1)
  {
    SpanIs(line, pos, p, IsBlank);
  }

  /** Before the end of the line, spaces followed by a character that starts
      no token, or by the end of the line itself, read as TOK_NULL with
      position -1: spaces at the end of a line are an unknown character. */
  lemma ReadsNothing(line: string, pos: nat, p: nat)
    requires ValidLine(line) && pos < |line| && pos <= p <= |line| && Spaces(line, pos, p)
    requires !IsBlank(At(line, p)) && !StartsToken(At(line, p))
    ensures ReadTok(line, pos) == Scan(Null, "", -1)
  {
    SpanIs(line, pos, p, IsBlank);
  }

  // ----- Reference semantics of operator chains -----

  predicate WellFormedLinks(links: seq<Link>)
  {
    forall i | 0 <= i < |links| :: IsOp(links[i].op) && WellFormedTerm(links[i].term)
  }

  /** The value an operand stands for, before signs: variables have none,
      since variable support is stubbed out. */
  function OperandValue(x: Operand): Option<int>
    requires WellFormedOperand(x)
  {
    match x
    case Lit(digits) => Some(DecimalValue(digits))
    case Name(_) => None
  }

  /** The value of a term: its operand under the last sign written. */
  function TermValue(x: Term): Option<int>
    requires WellFormedTerm(x)
  {
    match OperandValue(x.operand)
    case None => None
    case Some(v) => Some(Signed(SignAfter(x.signs, NoSign), v))
  }

  /** A chain without precedence: a left fold with do_operation, None as
      soon as a variable is met. */
  function Fold(acc: int, links: seq<Link>): Option<int>
    requires WellFormedLinks(links)
    decreases |links|
  {
    if links == [] then Some(acc)
    else
      match TermValue(links[0].term)
      case None => None
      case Some(v) => Fold(DoOperation(acc, v, links[0].op), links[1..])
  }

  function ChainValue(head: Term, links: seq<Link>): Option<int>
    requires WellFormedTerm(head) && WellFormedLinks(links)
  {
    match TermValue(head)
    case None => None
    case Some(v) => Fold(v, links)
  }

  /** The number the calculator prints for a reference value: errors are 0. */
  function OrZero(v: Option<int>): int
  {
    match v
    case None => 0
    case Some(n) => n
  }

  // ----- Evaluator states -----

  /** The state once value `v` is placed and nothing is pending. */
  function Holding(v: int): Frame
  {
    Frame(NoSign, true, v, None, v)
  }

  /** The evaluator expects an operand: the first one of the line, or the
      right operand of a pending operator. */
  predicate Expecting(f: Frame)
  {
    f.neg == NoSign && ((!f.lset && f.op.None?) || (f.lset && f.op.Some?))
  }

  /** What an operand of value `v` becomes where `f` expects it: the left
      value of the line, or the right operand of the pending operation. */
  function Placed(f: Frame, v: int): int
    requires Expecting(f)
  {
    if f.lset then DoOperation(f.lvalue, v, f.op.value) else v
  }

  /** A left value is placed, no sign is read and no operator is pending. */
  predicate Settled(f: Frame)
  {
    f.lset && f.op.None? && f.neg == NoSign
  }

  // ----- One token of the evaluation loop -----

  /** Where an operand is expected, `+` and `-` set the sign flag. */
  lemma SignStep(line: string, pos: nat, c: char, n: int, f: Frame)
    requires ValidLine(line) && pos < |line| && ReadTok(line, pos) == Scan(Op, [c], n) && IsSign(c)
    requires !f.lset || f.op.Some?
    ensures pos < n <= |line|
    ensures Run(line, pos, f) == Run(line, n, f.(neg := if c == '+' then Plus else Minus))
  {
  }

  /** Where an operand is expected, any other operator makes the line worth
      0: there is no left value, or two operations are given. */
  lemma MisplacedOperator(line: string, pos: nat, c: char, n: int, f: Frame)
    requires ValidLine(line) && pos < |line| && ReadTok(line, pos) == Scan(Op, [c], n) && !IsSign(c)
    requires !f.lset || f.op.Some?
    ensures Run(line, pos, f) == 0
  {
  }

  /** After a value, an operator becomes the pending operation. */
  lemma OperatorStep(line: string, pos: nat, c: char, n: int, f: Frame)
    requires ValidLine(line) && pos < |line| && ReadTok(line, pos) == Scan(Op, [c], n) && Settled(f)
    ensures pos < n <= |line|
    ensures Run(line, pos, f) == Run(line, n, f.(op := Some(c)))
  {
  }

  /** A number token hands its value to the operand step. */
  lemma NumberStep(line: string, pos: nat, digits: string, n: int, f: Frame)
    requires ValidLine(line) && pos < |line| && ReadTok(line, pos) == Scan(Num, digits, n)
    ensures AllDigits(digits) && pos < n <= |line|
    ensures Run(line, pos, f) == Calc.Operand(line, n, DecimalValue(digits), false, f)
  {
  }

  /** A variable, a `)` outside a group or an unknown character makes the
      line worth 0, whatever was computed before. */
  lemma Stop(line: string, pos: nat, f: Frame)
    requires ValidLine(line) && pos < |line|
    requires ReadTok(line, pos).kind == Var || ReadTok(line, pos).kind == EndParen || ReadTok(line, pos).kind == Null
    ensures Run(line, pos, f) == 0
  {
  }

  /** A `(` hands over to its group: no `)` before an unknown character or
      the end of the line makes the line worth 0; otherwise the group's text
      is evaluated on its own and its value is an operand ending after the
      `)`. */
  lemma ParenStep(line: string, pos: nat, k: int, f: Frame)
    requires ValidLine(line) && pos < |line| && ReadTok(line, pos) == Scan(Paren, "(", k)
    ensures 0 < k <= |line|
    ensures Group(line, k).Unclosed? ==> Run(line, pos, f) == 0
    ensures Group(line, k).Closed? ==>
      ValidLine(Group(line, k).text) &&
      Run(line, pos, f) == Calc.Operand(line, Group(line, k).end, Evaluate(Group(line, k).text), true, f)
  {
    GroupText(line, k);
  }

  /** A number placed where an operand is expected: the line goes on from
      `n` holding the placed value, and at the end of the line that value
      is the result. */
  lemma OperandPlaced(line: string, n: nat, v: int, f: Frame, s: Sign)
    requires ValidLine(line) && 0 < n <= |line| && Expecting(f)
    ensures Calc.Operand(line, n, v, false, f.(neg := s)) == Run(line, n, Holding(Placed(f, Signed(s, v))))
  {
  }

  /** A value right after a value, with no operator between, makes the line
      worth 0. */
  lemma OperandUnexpected(line: string, n: nat, v: int, group: bool, f: Frame)
    requires ValidLine(line) && 0 < n <= |line| && Settled(f)
    ensures Calc.Operand(line, n, v, group, f) == 0
  {
  }

  // ----- Terms and links -----

  /** The first sign of a run stands at `p`, the others from `q` on. */
  lemma SignHead(line: string, pos: nat, p: nat, q: nat, signs: string)
    requires After(line, pos, p, signs) && AllSigns(signs) && signs != [] && q == p + 1
    ensures p < |line| && line[p] == signs[0] && IsOp(line[p]) && IsSign(line[p])
    ensures After(line, q, q, signs[1..]) && AllSigns(signs[1..])
  {
    HasAtHead(line, p, signs);
  }

  /** A run of signs, read where an operand is expected, leaves the last
      sign written in the sign flag. */
  lemma {:induction false} SignsRun(line: string, pos: nat, p: nat, e: nat, signs: string, f: Frame, h: Frame)
    requires After(line, pos, p, signs) && AllSigns(signs) && (!f.lset || f.op.Some?)
    requires e == (if signs == [] then pos else p + |signs|) && h == f.(neg := SignAfter(signs, f.neg))
    ensures e <= |line|
    ensures Run(line, pos, f) == Run(line, e, h)
    decreases |signs|
  {
    if signs != [] {
      var q := p + 1;
      SignHead(line, pos, p, q, signs);
      ReadsOperator(line, pos, p);
      var g := f.(neg := if signs[0] == '+' then Plus else Minus);
      SignStep(line, pos, signs[0], q, f);
      SignsFrame(signs, f, g);
      SignsRun(line, q, q, e, signs[1..], g, h);
    }
  }

  /** Reading the first sign, then the others, leaves the flag that reading
      them all does. */
  lemma SignsFrame(signs: string, f: Frame, g: Frame)
    requires signs != [] && IsSign(signs[0]) && g == f.(neg := if signs[0] == '+' then Plus else Minus)
    ensures g.(neg := SignAfter(signs[1..], g.neg)) == f.(neg := SignAfter(signs, f.neg))
  {
  }

  /** An operand written at `o` is one number or variable token. */
  lemma OperandReads(line: string, q: nat, o: nat, e: nat, x: Operand)
    requires After(line, q, o, x.text) && e == o + |x.text| && WellFormedOperand(x) && Stops(At(line, e))
    ensures e <= |line| && ReadTok(line, q) == Scan(if x.Lit? then Num else Var, x.text, e)
  {
    HasAtSlice(line, o, x.text);
    if x.Lit? {
      HasAtClass(line, o, x.text, IsDigit);
      ReadsNumber(line, q, o, e);
    } else {
      HasAtClass(line, o, x.text, IsLower);
      ReadsName(line, q, o, e);
    }
  }

  /** An operand read under sign flag `s` where `f` expects one: a number
      is placed, a variable makes the line worth 0. */
  lemma OperandRun(line: string, q: nat, o: nat, e: nat, x: Operand, f: Frame, s: Sign)
    requires After(line, q, o, x.text) && e == o + |x.text| && WellFormedOperand(x) && Stops(At(line, e))
    requires Expecting(f)
    ensures e <= |line|
    ensures x.Name? ==> Run(line, q, f.(neg := s)) == 0
    ensures x.Lit? ==> Run(line, q, f.(neg := s)) == Run(line, e, Holding(Placed(f, Signed(s, DecimalValue(x.text)))))
  {
    OperandReads(line, q, o, e, x);
    if x.Lit? {
      NumberStep(line, q, x.text, e, f.(neg := s));
      OperandPlaced(line, e, DecimalValue(x.text), f, s);
    } else {
      Stop(line, q, f.(neg := s));
    }
  }

  /** Where a term's signs and operand stand. */
  lemma TermPieces(line: string, pos: nat, p: nat, o: nat, e: nat, x: Term)
    requires After(line, pos, p, TermText(x)) && o == p + |x.signs| && e == p + |TermText(x)|
    ensures After(line, pos, p, x.signs)
    ensures After(line, if x.signs == [] then pos else o, o, x.operand.text) && e == o + |x.operand.text|
  {
    TermAt(line, p, x);
  }

  /** A term read where an operand is expected: its value is placed, or
      the line is worth 0 when it names a variable. */
  lemma TermRun(line: string, pos: nat, p: nat, e: nat, x: Term, f: Frame)
    requires After(line, pos, p, TermText(x)) && WellFormedTerm(x) && e == p + |TermText(x)| && Stops(At(line, e))
    requires Expecting(f)
    ensures e <= |line|
    ensures TermValue(x).None? ==> Run(line, pos, f) == 0
    ensures TermValue(x).Some? ==> Run(line, pos, f) == Run(line, e, Holding(Placed(f, TermValue(x).value)))
  {
    var o := p + |x.signs|;
    var s := SignAfter(x.signs, NoSign);
    TermPieces(line, pos, p, o, e, x);
    TermLit(x);
    if x.signs == [] {
      TermOperandRun(line, pos, p, pos, o, e, x, f, s);
    } else {
      TermOperandRun(line, pos, p, o, o, e, x, f, s);
    }
  }

  /** `TermRun` once the signs' end `q` is named. */
  lemma TermOperandRun(line: string, pos: nat, p: nat, q: nat, o: nat, e: nat, x: Term, f: Frame, s: Sign)
    requires After(line, pos, p, x.signs) && AllSigns(x.signs) && Expecting(f)
    requires q == (if x.signs == [] then pos else o) && o == p + |x.signs| && s == SignAfter(x.signs, NoSign)
    requires After(line, q, o, x.operand.text) && e == o + |x.operand.text|
    requires WellFormedOperand(x.operand) && Stops(At(line, e))
    ensures e <= |line|
    ensures x.operand.Name? ==> Run(line, pos, f) == 0
    ensures x.operand.Lit? ==> Run(line, pos, f) == Run(line, e, Holding(Placed(f, Signed(s, DecimalValue(x.operand.text)))))
  {
    SignsRun(line, pos, p, q, x.signs, f, f.(neg := s));
    OperandRun(line, q, o, e, x.operand, f, s);
  }

  /** A term has a value exactly when its operand is a literal. */
  lemma TermLit(x: Term)
    requires WellFormedTerm(x)
    ensures TermValue(x).Some? <==> x.operand.Lit?
    ensures x.operand.Lit? ==> TermValue(x).value == Signed(SignAfter(x.signs, NoSign), DecimalValue(x.operand.text))
  {
  }

  /** A link written at `pos`: its operator at `o`, its term at `r`. */
  lemma LinkPieces(line: string, pos: nat, o: nat, q: nat, r: nat, l: Link, sep: string)
    requires ValidLine(line) && HasAt(line, pos, LinkText(l, sep)) && AllSpaces(sep)
    requires o == pos + |sep| && q == o + 1 && r == q + |sep|
    ensures pos <= o < |line| && Spaces(line, pos, o) && line[o] == l.op
    ensures After(line, q, r, TermText(l.term)) && r + |TermText(l.term)| == pos + |LinkText(l, sep)|
  {
    LinkAt(line, pos, l, sep);
    SpacesAt(line, pos, sep);
    SpacesAt(line, q, sep);
  }

  /** A link read after a placed value: its operation is applied, or the
      line is worth 0 when its term names a variable. */
  lemma LinkRun(line: string, pos: nat, l: Link, sep: string, f: Frame, k: nat)
    requires ValidLine(line) && HasAt(line, pos, LinkText(l, sep)) && AllSpaces(sep)
    requires IsOp(l.op) && WellFormedTerm(l.term)
    requires k == pos + |LinkText(l, sep)| && Stops(At(line, k)) && Settled(f)
    ensures k <= |line|
    ensures TermValue(l.term).None? ==> Run(line, pos, f) == 0
    ensures TermValue(l.term).Some? ==>
      Run(line, pos, f) == Run(line, k, Holding(DoOperation(f.lvalue, TermValue(l.term).value, l.op)))
  {
    var o := pos + |sep|;
    var q := o + 1;
    var r := q + |sep|;
    LinkPieces(line, pos, o, q, r, l, sep);
    ReadsOperator(line, pos, o);
    var g := f.(op := Some(l.op));
    OperatorStep(line, pos, l.op, q, f);
    TermRun(line, q, r, k, l.term, g);
    assert Run(line, pos, f) == Run(line, q, g);
    if TermValue(l.term).Some? {
      var v := TermValue(l.term).value;
      assert Placed(g, v) == DoOperation(f.lvalue, v, l.op);
    }
  }

  /** A link's text starts with a space or an operator, either of which ends
      the operand before it. */
  lemma LinkStops(line: string, pos: nat, l: Link, sep: string)
    requires HasAt(line, pos, LinkText(l, sep)) && AllSpaces(sep) && IsOp(l.op)
    ensures Stops(At(line, pos))
  {
    LinkAt(line, pos, l, sep);
    if sep != [] {
      assert line[pos + 0] == sep[0];
    }
  }

  /** This version's links and spaces are among those the shared chain
      lemmas accept. */
  lemma SharedChain(links: seq<Link>)
    requires WellFormedLinks(links)
    ensures PlainLinks(links) && BlankChars(IsBlank)
  {
  }

  lemma WellFormedRest(links: seq<Link>)
    requires links != [] && WellFormedLinks(links)
    ensures IsOp(links[0].op) && WellFormedTerm(links[0].term) && WellFormedLinks(links[1..])
  {
    var rest := links[1..];
    forall i | 0 <= i < |rest|
      ensures IsOp(rest[i].op) && WellFormedTerm(rest[i].term)
    {
      assert rest[i] == links[i + 1];
    }
  }

  /** The first link of a list and the rest, where the evaluator finds
      them; the list ends at `e`. */
  lemma LinkThenRest(line: string, pos: nat, q: nat, e: nat, l: Link, rest: seq<Link>, links: seq<Link>, sep: string)
    requires HasAt(line, pos, LinksText(links, sep)) && AllSpaces(sep) && WellFormedLinks(links)
    requires links != [] && l == links[0] && rest == links[1..]
    requires q == pos + |LinkText(l, sep)| && e == pos + |LinksText(links, sep)| && Stops(At(line, e))
    ensures IsOp(l.op) && WellFormedTerm(l.term) && WellFormedLinks(rest)
    ensures HasAt(line, pos, LinkText(l, sep)) && Stops(At(line, q))
    ensures HasAt(line, q, LinksText(rest, sep)) && e == q + |LinksText(rest, sep)|
  {
    WellFormedRest(links);
    LinksAt(line, pos, links, sep);
    if rest != [] {
      LinksAt(line, q, rest, sep);
      LinkStops(line, q, rest[0], sep);
    }
  }

  /** A non-empty list of links read after a placed value is the left fold
      of its operations, or 0 once a term names a variable. */
  lemma {:induction false} LinksRun(line: string, pos: nat, links: seq<Link>, sep: string, f: Frame, k: nat)
    requires ValidLine(line) && HasAt(line, pos, LinksText(links, sep)) && AllSpaces(sep) && WellFormedLinks(links)
    requires links != [] && k == pos + |LinksText(links, sep)| && Stops(At(line, k)) && Settled(f)
    ensures k <= |line|
    ensures Fold(f.lvalue, links).None? ==> Run(line, pos, f) == 0
    ensures Fold(f.lvalue, links).Some? ==> Run(line, pos, f) == Run(line, k, Holding(Fold(f.lvalue, links).value))
    decreases |links|
  {
    var l, rest := links[0], links[1..];
    var q := pos + |LinkText(l, sep)|;
    LinkThenRest(line, pos, q, k, l, rest, links, sep);
    LinkRun(line, pos, l, sep, f, q);
    FoldCons(f.lvalue, links, l, rest);
    if TermValue(l.term).Some? {
      var w := DoOperation(f.lvalue, TermValue(l.term).value, l.op);
      assert Run(line, pos, f) == Run(line, q, Holding(w));
      if rest != [] {
        LinksRun(line, q, rest, sep, Holding(w), k);
        assert Fold(f.lvalue, links) == Fold(w, rest);
      } else {
        assert q == k && Fold(f.lvalue, links) == Some(w);
      }
    }
  }

  /** The fold stops at a first term without a value, and otherwise goes on
      from the first operation's result. */
  lemma FoldCons(acc: int, links: seq<Link>, l: Link, rest: seq<Link>)
    requires links != [] && l == links[0] && rest == links[1..] && WellFormedLinks(links)
    ensures WellFormedTerm(l.term) && WellFormedLinks(rest)
    ensures TermValue(l.term).None? ==> Fold(acc, links).None?
    ensures TermValue(l.term).Some? ==> Fold(acc, links) == Fold(DoOperation(acc, TermValue(l.term).value, l.op), rest)
    ensures rest == [] ==> Fold(acc, links) == (if TermValue(l.term).Some? then Some(DoOperation(acc, TermValue(l.term).value, l.op)) else None)
  {
    WellFormedRest(links);
  }

  // ----- Whole lines -----

  /** Where the pieces of a chain written after spaces `lead`, and followed
      by `tail`, stand: the head at `p`, the links at `e`, the tail at `k`. */
  lemma ChainAt(line: string, lead: string, chain: string, head: Term, links: seq<Link>, sep: string, tail: string,
                p: nat, e: nat, k: nat)
    requires line == lead + chain + tail && chain == ChainText(head, links, sep)
    requires ValidLine(line) && AllSpaces(lead) && AllSpaces(sep) && WellFormedLinks(links) && Stops(At(tail, 0))
    requires p == |lead| && e == p + |TermText(head)| && k == p + |chain|
    ensures After(line, 0, p, TermText(head)) && Stops(At(line, e))
    ensures HasAt(line, e, LinksText(links, sep)) && k == e + |LinksText(links, sep)| && Stops(At(line, k))
    ensures HasAt(line, k, tail) && k + |tail| == |line|
  {
    assert HasAt(line, 0, lead + chain + tail);
    HasAtSplit(line, 0, lead + chain, tail);
    HasAtSplit(line, 0, lead, chain);
    HasAtSplitAt(line, p, TermText(head), LinksText(links, sep), e);
    SpacesAt(line, 0, lead);
    assert At(line, k) == At(tail, 0) by {
      if tail != [] {
        assert line[k + 0] == tail[0];
      }
    }
    if links != [] {
      LinksAt(line, e, links, sep);
      LinkStops(line, e, links[0], sep);
    }
  }

  /** The evaluation of a chain written after spaces `lead` and followed by
      `tail`: 0 when the chain names a variable, otherwise the line goes on
      at the chain's end `k` holding the chain's reference value. */
  lemma RunChain(line: string, lead: string, head: Term, links: seq<Link>, sep: string, tail: string, k: nat)
    requires line == lead + ChainText(head, links, sep) + tail && ValidLine(line)
    requires AllSpaces(lead) && AllSpaces(sep) && WellFormedTerm(head) && WellFormedLinks(links)
    requires Stops(At(tail, 0)) && k == |lead| + |ChainText(head, links, sep)|
    ensures HasAt(line, k, tail) && k + |tail| == |line|
    ensures ChainValue(head, links).None? ==> Run(line, 0, Start) == 0
    ensures ChainValue(head, links).Some? ==> Run(line, 0, Start) == Run(line, k, Holding(ChainValue(head, links).value))
  {
    var p := |lead|;
    var e := p + |TermText(head)|;
    ChainAt(line, lead, ChainText(head, links, sep), head, links, sep, tail, p, e, k);
    ChainRun(line, 0, p, e, k, head, links, sep, Start);
  }

  /** A chain whose head is written at `p` after spaces, whose links start
      at `e` and end at `k`: 0 when it names a variable, otherwise the line
      goes on at `k` holding the chain's reference value. */
  lemma ChainRun(line: string, pos: nat, p: nat, e: nat, k: nat, head: Term, links: seq<Link>, sep: string, f: Frame)
    requires After(line, pos, p, TermText(head)) && e == p + |TermText(head)| && Stops(At(line, e))
    requires HasAt(line, e, LinksText(links, sep)) && k == e + |LinksText(links, sep)| && Stops(At(line, k))
    requires AllSpaces(sep) && WellFormedTerm(head) && WellFormedLinks(links) && Expecting(f) && !f.lset
    ensures k <= |line|
    ensures ChainValue(head, links).None? ==> Run(line, pos, f) == 0
    ensures ChainValue(head, links).Some? ==> Run(line, pos, f) == Run(line, k, Holding(ChainValue(head, links).value))
  {
    TermRun(line, pos, p, e, head, f);
    if TermValue(head).None? {
      assert ChainValue(head, links).None?;
    } else {
      var v := TermValue(head).value;
      assert Placed(f, v) == v;
      assert ChainValue(head, links) == Fold(v, links);
      if links != [] {
        LinksRun(line, e, links, sep, Holding(v), k);
      } else {
        assert e == k && Fold(v, links) == Some(v);
      }
    }
  }

  /** A line holding one chain is worth the chain's left fold with
      do_operation, without precedence, and 0 when the chain names a
      variable. */
  lemma EvaluateChain(lead: string, head: Term, links: seq<Link>, sep: string)
    requires ValidLine(lead + ChainText(head, links, sep))
    requires AllSpaces(lead) && AllSpaces(sep) && WellFormedTerm(head) && WellFormedLinks(links)
    ensures Evaluate(lead + ChainText(head, links, sep)) == OrZero(ChainValue(head, links))
  {
    var chain := ChainText(head, links, sep);
    var line := lead + chain + [];
    assert line == lead + chain;
    RunChain(line, lead, head, links, sep, [], |line|);
  }

  /** Spaces after a chain make the line worth 0: readtok reads them as an
      unknown character. */
  lemma TrailingSpaces(lead: string, head: Term, links: seq<Link>, sep: string, tail: string)
    requires ValidLine(lead + ChainText(head, links, sep) + tail) && tail != [] && AllSpaces(tail)
    requires AllSpaces(lead) && AllSpaces(sep) && WellFormedTerm(head) && WellFormedLinks(links)
    ensures Evaluate(lead + ChainText(head, links, sep) + tail) == 0
  {
    var line := lead + ChainText(head, links, sep) + tail;
    var k := |lead| + |ChainText(head, links, sep)|;
    RunChain(line, lead, head, links, sep, tail, k);
    if ChainValue(head, links).Some? {
      SpacesAt(line, k, tail);
      ReadsNothing(line, k, |line|);
      Stop(line, k, Holding(ChainValue(head, links).value));
    }
  }

  /** A line that starts, after spaces, with an operator other than a sign
      is worth 0: there is no left value. */
  lemma NoLeftValue(lead: string, c: char, rest: string)
    requires ValidLine(lead + [c] + rest) && AllSpaces(lead) && IsOp(c) && !IsSign(c)
    ensures Evaluate(lead + [c] + rest) == 0
  {
    var line := lead + [c] + rest;
    var p := |lead|;
    assert line[p] == c;
    SpacesAt(line, 0, lead) by {
      assert HasAt(line, 0, lead + [c] + rest);
      HasAtSplit(line, 0, lead + [c], rest);
      HasAtSplit(line, 0, lead, [c]);
    }
    ReadsOperator(line, 0, p);
    MisplacedOperator(line, 0, c, p + 1, Start);
  }

  /** A `)` where no group is open makes the line worth 0. */
  lemma StrayClose(line: string, pos: nat, p: nat, f: Frame)
    requires ValidLine(line) && pos <= p < |line| && Spaces(line, pos, p) && line[p] == ')'
    ensures Run(line, pos, f) == 0
  {
    ReadsParen(line, pos, p);
    Stop(line, pos, f);
  }

  /** A `(` with no `)` anywhere after it makes the line worth 0: its group
      reaches the end of the line without closing. */
  lemma Unclosed(line: string, pos: nat, p: nat, f: Frame)
    requires ValidLine(line) && pos <= p < |line| && Spaces(line, pos, p) && line[p] == '('
    requires forall i | p < i < |line| :: line[i] != ')'
    ensures Run(line, pos, f) == 0
  {
    ReadsParen(line, pos, p);
    ParenStep(line, pos, p + 1, f);
    GroupShape(line, p + 1);
  }

  /** A character that starts no token makes the line worth 0; so does a
      tab, which this version does not skip. */
  lemma UnknownCharacter(line: string, pos: nat, p: nat, f: Frame)
    requires ValidLine(line) && pos <= p < |line| && Spaces(line, pos, p)
    requires !IsBlank(line[p]) && !StartsToken(line[p])
    ensures Run(line, pos, f) == 0
  {
    ReadsNothing(line, pos, p);
    Stop(line, pos, f);
  }

  /** A variable name makes the line worth 0 wherever it stands: variables
      are not supported. */
  lemma VariableStops(line: string, pos: nat, p: nat, f: Frame)
    requires ValidLine(line) && pos <= p < |line| && Spaces(line, pos, p) && IsLower(line[p])
    ensures Run(line, pos, f) == 0
  {
    ReadsName(line, pos, p, Span(line, p, IsLower));
    Stop(line, pos, f);
  }

  /** A number right after a placed value, with no operator between them,
      makes the line worth 0. */
  lemma NumberAfterValue(line: string, pos: nat, p: nat, w: int)
    requires ValidLine(line) && pos <= p < |line| && Spaces(line, pos, p) && IsDigit(line[p])
    ensures Run(line, pos, Holding(w)) == 0
  {
    var e := Span(line, p, IsDigit);
    ReadsNumber(line, pos, p, e);
    NumberStep(line, pos, line[p..e], e, Holding(w));
    OperandUnexpected(line, e, DecimalValue(line[p..e]), false, Holding(w));
  }

  /** A chain followed by spaces and a number, with no operator between
      them, is worth 0: an operation is required. */
  lemma MissingOperator(lead: string, head: Term, links: seq<Link>, sep: string, gap: string, d: char, rest: string)
    requires ValidLine(lead + ChainText(head, links, sep) + (gap + [d] + rest))
    requires AllSpaces(lead) && AllSpaces(sep) && WellFormedTerm(head) && WellFormedLinks(links)
    requires gap != [] && AllSpaces(gap) && IsDigit(d)
    ensures Evaluate(lead + ChainText(head, links, sep) + (gap + [d] + rest)) == 0
  {
    var tail := gap + [d] + rest;
    var line := lead + ChainText(head, links, sep) + tail;
    var k := |lead| + |ChainText(head, links, sep)|;
    assert tail[0] == gap[0];
    RunChain(line, lead, head, links, sep, tail, k);
    if ChainValue(head, links).Some? {
      var p := k + |gap|;
      HasAtSplit(line, k, gap + [d], rest);
      HasAtSplit(line, k, gap, [d]);
      SpacesAt(line, k, gap);
      assert line[p + 0] == [d][0];
      NumberAfterValue(line, k, p, ChainValue(head, links).value);
    }
  }

  /** A chain followed by an operator that ends the line is worth the
      chain's value: the operator stays pending when the loop runs out of
      line, and the result so far is returned. */
  lemma DanglingOperator(lead: string, head: Term, links: seq<Link>, sep: string, op: char)
    requires ValidLine(lead + ChainText(head, links, sep) + (sep + [op]))
    requires AllSpaces(lead) && AllSpaces(sep) && WellFormedTerm(head) && WellFormedLinks(links) && IsOp(op)
    ensures Evaluate(lead + ChainText(head, links, sep) + (sep + [op])) == OrZero(ChainValue(head, links))
  {
    var tail := sep + [op];
    var line := lead + ChainText(head, links, sep) + tail;
    var k := |lead| + |ChainText(head, links, sep)|;
    assert tail[0] == ' ' || tail[0] == op;
    RunChain(line, lead, head, links, sep, tail, k);
    if ChainValue(head, links).Some? {
      var w := ChainValue(head, links).value;
      var o := k + |sep|;
      HasAtSplit(line, k, sep, [op]);
      SpacesAt(line, k, sep);
      assert line[o + 0] == [op][0];
      ReadsOperator(line, k, o);
      OperatorStep(line, k, op, o + 1, Holding(w));
      assert Run(line, o + 1, Holding(w).(op := Some(op))) == w;
    }
  }

  // ----- Parenthesised groups -----

  /** Where the pieces of `(x)` written at `p` stand. */
  lemma ParenPieces(line: string, p: nat, k: nat, c: nat, x: string)
    requires ValidLine(line) && HasAt(line, p, "(" + x + ")") && k == p + 1 && c == k + |x|
    ensures c < |line| && line[p] == '(' && line[c] == ')'
    ensures HasAt(line, k, x) && ValidLine(Strip(x, IsBlank))
  {
    HasAtSplitAt(line, p, "(" + x, ")", c);
    HasAtSplitAt(line, p, "(", x, k);
    HasAtHead(line, p, "(");
    HasAtHead(line, c, ")");
    HasAtSliceAt(line, k, x, c);
    ClosedLine(line, k, Strip(x, IsBlank), c + 1);
  }

  /** A group `(x)` read after spaces, with no `)` in `x`: when it closes,
      its value is that of `x` evaluated on its own, and it is an operand
      ending after the `)`. */
  lemma GroupRun(line: string, pos: nat, p: nat, k: nat, e: nat, x: string, f: Frame)
    requires After(line, pos, p, "(" + x + ")") && ')' !in x && k == p + 1 && e == k + |x| + 1
    ensures e <= |line| && ValidLine(Strip(x, IsBlank))
    ensures Group(line, k).Unclosed? ==> Run(line, pos, f) == 0
    ensures Group(line, k).Closed? ==> Run(line, pos, f) == Calc.Operand(line, e, Evaluate(Strip(x, IsBlank)), true, f)
  {
    var c := k + |x|;
    ParenPieces(line, p, k, c, x);
    ReadsParen(line, pos, p);
    GroupShape(line, k);
    ClosesAtParen(line, k, c, x, Group(line, k), IsBlank);
    ParenStep(line, pos, k, f);
    if Group(line, k).Closed? {
      assert Group(line, k).end == e && Group(line, k).text == Strip(x, IsBlank);
    }
  }

  /** A line holding one group is worth 0: a group read as the first
      operand sets the left value but leaves the result at 0. */
  lemma GroupAlone(lead: string, x: string)
    requires ValidLine(lead + ("(" + x + ")")) && AllSpaces(lead) && ')' !in x
    ensures Evaluate(lead + ("(" + x + ")")) == 0
  {
    var line := lead + ("(" + x + ")");
    var p := |lead|;
    HasAtTail(line, lead, "(" + x + ")", p);
    SpacesAt(line, 0, lead) by {
      HasAtSplit(line, 0, lead, "(" + x + ")");
    }
    GroupRun(line, 0, p, p + 1, |line|, x, Start);
  }

  /** A group as the first operand, followed by links: the line is worth
      the left fold of the links from the group's value. */
  lemma GroupThenLinks(lead: string, x: string, links: seq<Link>, sep: string)
    requires ValidLine(lead + ("(" + x + ")") + LinksText(links, sep)) && AllSpaces(lead) && ')' !in x
    requires AllSpaces(sep) && links != [] && WellFormedLinks(links)
    ensures ValidLine(Strip(x, IsBlank))
    ensures Group(lead + ("(" + x + ")") + LinksText(links, sep), |lead| + 1).Unclosed? ==>
      Evaluate(lead + ("(" + x + ")") + LinksText(links, sep)) == 0
    ensures Group(lead + ("(" + x + ")") + LinksText(links, sep), |lead| + 1).Closed? ==>
      Evaluate(lead + ("(" + x + ")") + LinksText(links, sep)) == OrZero(Fold(Evaluate(Strip(x, IsBlank)), links))
  {
    var group := "(" + x + ")";
    var line := lead + group + LinksText(links, sep);
    var p, e := |lead|, |lead| + |group|;
    GroupLinksAt(line, lead, group, links, sep, p, e);
    OpenLine(line);
    GroupRun(line, 0, p, p + 1, e, x, Start);
    FirstOperandLinks(line, e, Evaluate(Strip(x, IsBlank)), links, sep, Start);
  }

  /** A group's value `v` as the first operand, then links up to the end of
      the line: the left fold of the links from `v`. */
  lemma FirstOperandLinks(line: string, e: nat, v: int, links: seq<Link>, sep: string, f: Frame)
    requires ValidLine(line) && 0 < e <= |line| && HasAt(line, e, LinksText(links, sep)) && |line| == e + |LinksText(links, sep)|
    requires AllSpaces(sep) && links != [] && WellFormedLinks(links) && Expecting(f) && !f.lset
    ensures Calc.Operand(line, e, v, true, f) == OrZero(Fold(v, links))
  {
    var h := Frame(NoSign, true, v, None, 0);
    LinksAt(line, e, links, sep);
    LinkAt(line, e, links[0], sep);
    assert Calc.Operand(line, e, v, true, f) == Run(line, e, h);
    LinksRun(line, e, links, sep, h, |line|);
    if Fold(v, links).Some? {
      assert Run(line, |line|, Holding(Fold(v, links).value)) == Fold(v, links).value;
    }
  }

  /** Where the group and the links of `lead (x) links` stand. */
  lemma GroupLinksAt(line: string, lead: string, group: string, links: seq<Link>, sep: string, p: nat, e: nat)
    requires line == lead + group + LinksText(links, sep) && ValidLine(line) && AllSpaces(lead)
    requires AllSpaces(sep) && links != [] && WellFormedLinks(links)
    requires p == |lead| && e == p + |group|
    ensures After(line, 0, p, group) && e < |line|
    ensures HasAt(line, e, LinksText(links, sep)) && |line| == e + |LinksText(links, sep)|
  {
    assert HasAt(line, 0, lead + group + LinksText(links, sep));
    HasAtSplit(line, 0, lead + group, LinksText(links, sep));
    HasAtSplit(line, 0, lead, group);
    SpacesAt(line, 0, lead);
    WellFormedRest(links);
    LinksAt(line, e, links, sep);
    LinkAt(line, e, links[0], sep);
  }

  /** Where the operator and the group of `chain op (x)` stand. */
  lemma OperatorGroupAt(line: string, k: nat, sep: string, op: char, x: string, o: nat, r: nat)
    requires HasAt(line, k, sep + [op] + sep + ("(" + x + ")")) && k + |sep + [op] + sep + ("(" + x + ")")| == |line|
    requires ValidLine(line) && AllSpaces(sep) && o == k + |sep| && r == o + 1 + |sep|
    ensures k <= o < |line| && Spaces(line, k, o) && line[o] == op
    ensures After(line, o + 1, r, "(" + x + ")") && r + |x| + 2 == |line|
  {
    HasAtSplit(line, k, sep + [op] + sep, "(" + x + ")");
    HasAtSplit(line, k, sep + [op], sep);
    HasAtSplit(line, k, sep, [op]);
    assert line[o + 0] == [op][0];
    SpacesAt(line, k, sep);
    SpacesAt(line, o + 1, sep);
  }

  /** A chain, an operator and a group ending the line: the operation is
      applied to the chain's value and the group's value. */
  lemma ChainThenGroup(line: string, lead: string, head: Term, links: seq<Link>, sep: string, op: char, x: string)
    requires line == lead + ChainText(head, links, sep) + (sep + [op] + sep + ("(" + x + ")")) && ValidLine(line)
    requires AllSpaces(lead) && AllSpaces(sep) && WellFormedTerm(head) && WellFormedLinks(links)
    requires IsOp(op) && ')' !in x
    ensures ValidLine(Strip(x, IsBlank))
    ensures ChainValue(head, links).None? ==> Evaluate(line) == 0
    ensures Group(line, |lead| + |ChainText(head, links, sep)| + 2 * |sep| + 2).Unclosed? ==> Evaluate(line) == 0
    ensures ChainValue(head, links).Some? && Group(line, |lead| + |ChainText(head, links, sep)| + 2 * |sep| + 2).Closed? ==>
      Evaluate(line) == DoOperation(ChainValue(head, links).value, Evaluate(Strip(x, IsBlank)), op)
  {
    var tail := sep + [op] + sep + ("(" + x + ")");
    var k := |lead| + |ChainText(head, links, sep)|;
    var o := k + |sep|;
    var r := o + 1 + |sep|;
    TailStops(sep, op, x);
    RunChain(line, lead, head, links, sep, tail, k);
    OperatorGroupAt(line, k, sep, op, x, o, r);
    OpenLine(line);
    var gk := |lead| + |ChainText(head, links, sep)| + 2 * |sep| + 2;
    assert gk == r + 1;
    if ChainValue(head, links).Some? {
      var w := ChainValue(head, links).value;
      assert Evaluate(line) == Run(line, k, Holding(w));
      OperatorGroupRun(line, k, o, r, gk, op, x, w);
      if Group(line, gk).Closed? {
        assert Evaluate(line) == DoOperation(w, Evaluate(Strip(x, IsBlank)), op);
      } else {
        assert Evaluate(line) == 0;
      }
    } else {
      ParenPieces(line, r, r + 1, r + 1 + |x|, x);
      assert Evaluate(line) == 0;
    }
  }

  /** A line that is not empty is evaluated from its start. */
  lemma OpenLine(line: string)
    requires ValidLine(line) && |line| > 0
    ensures Evaluate(line) == Run(line, 0, Start)
  {
  }

  /** After value `w`, an operator at `o` and a group `(x)` ending the line:
      the operation is applied to `w` and the group's value. */
  lemma OperatorGroupRun(line: string, k: nat, o: nat, r: nat, gk: nat, op: char, x: string, w: int)
    requires ValidLine(line) && k <= o < |line| && Spaces(line, k, o) && line[o] == op && IsOp(op)
    requires After(line, o + 1, r, "(" + x + ")") && r + |x| + 2 == |line| && ')' !in x && gk == r + 1
    ensures ValidLine(Strip(x, IsBlank))
    ensures Group(line, gk).Unclosed? ==> Run(line, k, Holding(w)) == 0
    ensures Group(line, gk).Closed? ==> Run(line, k, Holding(w)) == DoOperation(w, Evaluate(Strip(x, IsBlank)), op)
  {
    ReadsOperator(line, k, o);
    OperatorStep(line, k, op, o + 1, Holding(w));
    var g := Holding(w).(op := Some(op));
    GroupRun(line, o + 1, r, gk, |line|, x, g);
    if Group(line, gk).Closed? {
      var v := Evaluate(Strip(x, IsBlank));
      assert Run(line, k, Holding(w)) == Calc.Operand(line, |line|, v, true, g);
      assert Signed(NoSign, v) == v;
    }
  }

  /** `sep op sep (x)` starts with a space or an operator. */
  lemma TailStops(sep: string, op: char, x: string)
    requires AllSpaces(sep) && IsOp(op)
    ensures Stops(At(sep + [op] + sep + ("(" + x + ")"), 0))
  {
    var tail := sep + [op] + sep + ("(" + x + ")");
    if sep != [] {
      assert tail[0] == sep[0];
    } else {
      assert tail[0] == op;
    }
  }
  // ----- Groups that close -----

  /** A token other than `)` and TOK_NULL is passed over by a group. */
  lemma GroupPasses(line: string, pos: nat, k: Kind, text: string, next: nat)
    requires ValidLine(line) && pos <= |line| && ReadTok(line, pos) == Scan(k, text, next)
    requires k != Null && text != ")"
    ensures next <= |line| && (Group(line, pos).Closed? <==> Group(line, next).Closed?)
  {
  }

  /** Signs inside a group are tokens of it: the group closes from before
      them exactly when it closes from after them. */
  lemma {:induction false} SignsClose(line: string, pos: nat, p: nat, e: nat, signs: string)
    requires After(line, pos, p, signs) && AllSigns(signs) && e == (if signs == [] then pos else p + |signs|)
    ensures e <= |line| && (Group(line, pos).Closed? <==> Group(line, e).Closed?)
    decreases |signs|
  {
    if signs != [] {
      SignHead(line, pos, p, p + 1, signs);
      ReadsOperator(line, pos, p);
      assert [line[p]] != ")";
      GroupPasses(line, pos, Op, [line[p]], p + 1);
      SignsClose(line, p + 1, p + 1, e, signs[1..]);
    }
  }

  /** A term inside a group is tokens of it. */
  lemma TermClose(line: string, pos: nat, p: nat, e: nat, x: Term)
    requires After(line, pos, p, TermText(x)) && WellFormedTerm(x) && e == p + |TermText(x)| && Stops(At(line, e))
    ensures e <= |line| && (Group(line, pos).Closed? <==> Group(line, e).Closed?)
  {
    var o := p + |x.signs|;
    TermPieces(line, pos, p, o, e, x);
    var q := if x.signs == [] then pos else o;
    SignsClose(line, pos, p, q, x.signs);
    OperandReads(line, q, o, e, x.operand);
    assert x.operand.text[0] != ')';
    GroupPasses(line, q, if x.operand.Lit? then Num else Var, x.operand.text, e);
  }

  /** A link inside a group is tokens of it. */
  lemma LinkClose(line: string, pos: nat, l: Link, sep: string, k: nat)
    requires ValidLine(line) && HasAt(line, pos, LinkText(l, sep)) && AllSpaces(sep)
    requires IsOp(l.op) && WellFormedTerm(l.term) && k == pos + |LinkText(l, sep)| && Stops(At(line, k))
    ensures k <= |line| && (Group(line, pos).Closed? <==> Group(line, k).Closed?)
  {
    var o := pos + |sep|;
    LinkPieces(line, pos, o, o + 1, o + 1 + |sep|, l, sep);
    ReadsOperator(line, pos, o);
    assert [line[o]] != ")";
    GroupPasses(line, pos, Op, [line[o]], o + 1);
    TermClose(line, o + 1, o + 1 + |sep|, k, l.term);
  }

  /** Links inside a group are tokens of it. */
  lemma {:induction false} LinksClose(line: string, pos: nat, links: seq<Link>, sep: string, k: nat)
    requires ValidLine(line) && HasAt(line, pos, LinksText(links, sep)) && AllSpaces(sep) && WellFormedLinks(links)
    requires k == pos + |LinksText(links, sep)| && Stops(At(line, k))
    ensures k <= |line| && (Group(line, pos).Closed? <==> Group(line, k).Closed?)
    decreases |links|
  {
    if links != [] {
      var l := links[0];
      var q := pos + |LinkText(l, sep)|;
      LinkThenRest(line, pos, q, k, l, links[1..], links, sep);
      LinkClose(line, pos, l, sep, q);
      LinksClose(line, q, links[1..], sep, k);
    }
  }

  /** A chain written at `p`, after spaces from `k` and before a character
      that ends its last operand at `m`, is tokens of the group at `k`. */
  lemma ChainClose(line: string, k: nat, p: nat, m: nat, head: Term, links: seq<Link>, sep: string)
    requires ValidLine(line) && k <= p && Spaces(line, k, p) && HasAt(line, p, ChainText(head, links, sep))
    requires AllSpaces(sep) && WellFormedTerm(head) && WellFormedLinks(links)
    requires m == p + |ChainText(head, links, sep)| && Stops(At(line, m))
    ensures m <= |line| && (Group(line, k).Closed? <==> Group(line, m).Closed?)
  {
    var e := p + |TermText(head)|;
    HasAtSplitAt(line, p, TermText(head), LinksText(links, sep), e);
    if links != [] {
      LinksAt(line, e, links, sep);
      LinkStops(line, e, links[0], sep);
    }
    TermClose(line, k, p, e, head);
    LinksClose(line, e, links, sep, m);
  }

  /** A group whose text is a chain between spaces closes at the `)` after
      it, and hands on the chain without spaces. */
  lemma GroupOfChain(line: string, k: nat, c: nat, a: string, head: Term, links: seq<Link>, sep: string, b: string)
    requires ValidLine(line) && HasAt(line, k, a + ChainText(head, links, sep) + b)
    requires c == k + |a + ChainText(head, links, sep) + b| && c < |line| && line[c] == ')'
    requires AllSpaces(a) && AllSpaces(b) && AllSpaces(sep) && WellFormedTerm(head) && WellFormedLinks(links)
    ensures Group(line, k) == Closed(ChainText(head, links, []), c + 1)
  {
    var chain := ChainText(head, links, sep);
    var p := k + |a|;
    var m := p + |chain|;
    HasAtSplitAt(line, k, a + chain, b, m);
    HasAtSplitAt(line, k, a, chain, p);
    SpacesAt(line, k, a);
    SpacesAt(line, m, b);
    assert Stops(At(line, m)) by {
      if b != [] {
        HasAtHead(line, m, b);
      }
    }
    ChainClose(line, k, p, m, head, links, sep);
    ReadsParen(line, m, c);
    StripPadded(a, head, links, sep, b, IsBlank);
    GroupShape(line, k);
    ClosesAtParen(line, k, c, a + chain + b, Group(line, k), IsBlank);
  }

  /** A chain written without spaces is worth its value. */
  lemma EvaluateBareChain(head: Term, links: seq<Link>)
    requires ValidLine(ChainText(head, links, [])) && WellFormedTerm(head) && WellFormedLinks(links)
    ensures Evaluate(ChainText(head, links, [])) == OrZero(ChainValue(head, links))
  {
    assert [] + ChainText(head, links, []) == ChainText(head, links, []);
    EvaluateChain([], head, links, []);
  }

  /** `(inner) op term ...`, where the group holds a chain between spaces:
      the left fold of the links from the inner chain's value. */
  lemma ChainGroupThenLinks(lead: string, a: string, head: Term, links: seq<Link>, sep: string, b: string,
                            rest: seq<Link>, sep2: string)
    requires ValidLine(lead + ("(" + (a + ChainText(head, links, sep) + b) + ")") + LinksText(rest, sep2))
    requires AllSpaces(lead) && AllSpaces(a) && AllSpaces(b) && AllSpaces(sep) && WellFormedTerm(head) && WellFormedLinks(links)
    requires AllSpaces(sep2) && rest != [] && WellFormedLinks(rest)
    ensures Evaluate(lead + ("(" + (a + ChainText(head, links, sep) + b) + ")") + LinksText(rest, sep2)) ==
      OrZero(Fold(OrZero(ChainValue(head, links)), rest))
  {
    var x := a + ChainText(head, links, sep) + b;
    var group := "(" + x + ")";
    var line := lead + group + LinksText(rest, sep2);
    var p := |lead|;
    GroupLinksAt(line, lead, group, rest, sep2, p, p + |group|);
    ParenPieces(line, p, p + 1, p + 1 + |x|, x);
    StripPadded(a, head, links, sep, b, IsBlank);
    GroupOfChain(line, p + 1, p + 1 + |x|, a, head, links, sep, b);
    GroupThenLinks(lead, x, rest, sep2);
    EvaluateBareChain(head, links);
  }

  /** `chain op (inner)`, where the group holds a second chain between
      spaces: do_operation on the two chains' values, or 0 when the first
      chain holds a variable. */
  lemma ChainOpChainGroup(line: string, lead: string, head: Term, links: seq<Link>, sep: string, op: char,
                          a: string, head2: Term, links2: seq<Link>, sep2: string, b: string)
    requires line == lead + ChainText(head, links, sep) + (sep + [op] + sep + ("(" + (a + ChainText(head2, links2, sep2) + b) + ")"))
    requires ValidLine(line) && AllSpaces(lead) && AllSpaces(sep) && IsOp(op)
    requires AllSpaces(a) && AllSpaces(b) && AllSpaces(sep2)
    requires WellFormedTerm(head) && WellFormedLinks(links) && WellFormedTerm(head2) && WellFormedLinks(links2)
    ensures ChainValue(head, links).None? ==> Evaluate(line) == 0
    ensures ChainValue(head, links).Some? ==>
      Evaluate(line) == DoOperation(ChainValue(head, links).value, OrZero(ChainValue(head2, links2)), op)
  {
    var x := a + ChainText(head2, links2, sep2) + b;
    var gk := |lead| + |ChainText(head, links, sep)| + 2 * |sep| + 2;
    assert Group(line, gk).Closed? && Strip(x, IsBlank) == ChainText(head2, links2, []) && ')' !in x by {
      var front := lead + ChainText(head, links, sep) + (sep + [op] + sep);
      assert line == front + ("(" + x + ")");
      FinalParen(line, front, x);
      StripPadded(a, head2, links2, sep2, b, IsBlank);
      FinalChainGroup(line, gk, a, head2, links2, sep2, b);
    }
    ChainThenGroup(line, lead, head, links, sep, op, x);
    EvaluateBareChain(head2, links2);
  }

  /** A group at the end of a line whose text is a chain between spaces
      closes at the last character. */
  lemma FinalChainGroup(line: string, k: nat, a: string, head: Term, links: seq<Link>, sep: string, b: string)
    requires ValidLine(line) && HasAt(line, k, a + ChainText(head, links, sep) + b)
    requires |line| == k + |a + ChainText(head, links, sep) + b| + 1 && line[|line| - 1] == ')'
    requires AllSpaces(a) && AllSpaces(b) && AllSpaces(sep) && WellFormedTerm(head) && WellFormedLinks(links)
    ensures Group(line, k) == Closed(ChainText(head, links, []), |line|)
  {
    GroupOfChain(line, k, |line| - 1, a, head, links, sep, b);
  }


}

=== FILE: carith.dfy ===
/** The C integer operations the calculators rely on, stated over unbounded
    integers: `/` and `%` truncate toward zero (section 6.5.5 of ISO C99),
    and `(long)pow(l, r)` is given its exact integer meaning. */
module CArith {

  function Abs(x: int): nat
  {
    if x < 0 then -x else x
  }

  /** C `a / b`: the quotient truncated toward zero. The remainder it leaves
      is smaller than the divisor and never has the opposite sign of `a`. */
  function TDiv(a: int, b: int): (q: int)
    requires b != 0
    ensures Abs(a - q * b) < Abs(b)
    ensures a - q * b == 0 || (a - q * b < 0 <==> a < 0)
  {
    var m := Abs(a) / Abs(b);
    DivBound(Abs(a), Abs(b));
    if (a < 0) == (b < 0) then
      assert m * Abs(b) == (if a < 0 then -(m * b) else m * b);
      m
    else
      assert m * Abs(b) == (if a < 0 then m * b else -(m * b));
      -m
  }

  lemma DivBound(x: nat, y: nat)
    requires y > 0
    ensures 0 <= x - (x / y) * y < y
  {
  }

  /** C `a % b`: the remainder that goes with the truncating quotient. */
  function TRem(a: int, b: int): (r: int)
    requires b != 0
    ensures a == TDiv(a, b) * b + r
    ensures Abs(r) < Abs(b)
    ensures r == 0 || (r < 0 <==> a < 0)
  {
    a - TDiv(a, b) * b
  }

  /** On non-negative operands C division agrees with Dafny's Euclidean one. */
  lemma TDivNonNegative(a: nat, b: nat)
    requires b > 0
    ensures TDiv(a, b) == a / b && TRem(a, b) == a % b
  {
  }

  function IntPow(b: int, e: nat): int
  {
    if e == 0 then 1 else b * IntPow(b, e - 1)
  }

  /** `(long)pow(l, r)` for integral operands: exact powers for r >= 0; for
      r < 0 the reciprocal 1 / l^-r, truncated toward zero by the cast. */
  function CPow(l: int, r: int): (p: int)
    ensures r == 0 ==> p == 1
    ensures r > 0 ==> p == l * CPow(l, r - 1)
    ensures r < 0 ==> (p == 0 <==> Abs(l) != 1)
    ensures r < 0 && l == 1 ==> p == 1
    ensures r < 0 && l == -1 ==> p == IntPow(-1, -r)
  {
    if r >= 0 then IntPow(l, r)
    else if l == 1 then 1
    else if l == -1 then MinusOnePow(-r); (if r % 2 == 0 then 1 else -1)
    else 0
  }

  /** Powers of -1 alternate with the parity of the exponent. */
  lemma {:induction false} MinusOnePow(n: nat)
    ensures IntPow(-1, n) == if n % 2 == 0 then 1 else -1
  {
    if n > 0 {
      MinusOnePow(n - 1);
    }
  }

  /** The sign flag `neg` of both evaluators: `+` and `-` in front of an
      operand; only a minus negates. */
  datatype Sign = NoSign | Plus | Minus

  function Signed(s: Sign, v: int): (r: int)
    ensures Abs(r) == Abs(v)
    ensures s != Minus ==> r == v
    ensures s == Minus ==> r == -v
  {
    if s == Minus then -v else v
  }
}

=== FILE: chains.dfy ===
/** Operator chains as a user types them: `-12 + x * 3`. A chain is a first
    term and a list of links `op term`; each term is a run of `+`/`-` signs
    followed by a decimal literal or a variable name. The text of a chain is
    what both evaluators read, with a run of blanks `sep` around every
    operator. */
module Chains {
  import opened Common
  import opened CArith

  /** A decimal literal or a variable name, as written. */
  datatype Operand = Lit(text: string) | Name(text: string)

  /** An operand and the signs written in front of it. */
  datatype Term = Term(signs: string, operand: Operand)

  datatype Link = Link(op: char, term: Term)

  predicate IsSign(c: char)
  {
    c == '+' || c == '-'
  }

  predicate AllSigns(s: string)
  {
    forall i | 0 <= i < |s| :: IsSign(s[i])
  }

  predicate WellFormedOperand(x: Operand)
  {
    |x.text| > 0 && (x.Lit? ==> AllDigits(x.text)) && (x.Name? ==> AllLower(x.text))
  }

  predicate WellFormedTerm(x: Term)
  {
    AllSigns(x.signs) && WellFormedOperand(x.operand)
  }

  /** A character that ends a literal or a name. */
  predicate Stops(c: char)
  {
    !IsDigit(c) && !IsLower(c)
  }

  function TermText(x: Term): string
  {
    x.signs + x.operand.text
  }

  function LinkText(l: Link, sep: string): string
  {
    sep + [l.op] + sep + TermText(l.term)
  }

  function LinksText(links: seq<Link>, sep: string): string
  {
    if links == [] then [] else LinkText(links[0], sep) + LinksText(links[1..], sep)
  }

  function ChainText(head: Term, links: seq<Link>, sep: string): string
  {
    TermText(head) + LinksText(links, sep)
  }

  /** The sign flag after reading `signs` from flag `s`: the last sign
      written wins. */
  function SignAfter(signs: string, s: Sign): (r: Sign)
    ensures signs == [] ==> r == s
    ensures signs != [] && AllSigns(signs) ==> (r == Minus <==> signs[|signs| - 1] == '-')
    ensures signs != [] && AllSigns(signs) ==> (r == Plus <==> signs[|signs| - 1] == '+')
  {
    if signs == [] then s
    else SignAfter(signs[1..], if signs[0] == '+' then Plus else if signs[0] == '-' then Minus else s)
  }

  /** The pieces of a link's text, where a tokenizer finds them. */
  lemma LinkAt(line: string, pos: nat, l: Link, sep: string)
    requires HasAt(line, pos, LinkText(l, sep))
    ensures HasAt(line, pos, sep)
    ensures pos + |sep| < |line| && line[pos + |sep|] == l.op
    ensures HasAt(line, pos + |sep| + 1, sep)
    ensures HasAt(line, pos + 2 * |sep| + 1, TermText(l.term))
    ensures |LinkText(l, sep)| == 2 * |sep| + 1 + |TermText(l.term)|
  {
    HasAtSplit(line, pos, sep + [l.op] + sep, TermText(l.term));
    HasAtSplit(line, pos, sep + [l.op], sep);
    HasAtSplit(line, pos, sep, [l.op]);
    assert line[pos + |sep| + 0] == [l.op][0];
  }

  /** The pieces of a term's text. */
  lemma TermAt(line: string, p: nat, x: Term)
    requires HasAt(line, p, TermText(x))
    ensures HasAt(line, p, x.signs) && HasAt(line, p + |x.signs|, x.operand.text)
  {
    HasAtSplit(line, p, x.signs, x.operand.text);
  }

  /** The pieces of a list of links' text. */
  lemma LinksAt(line: string, pos: nat, links: seq<Link>, sep: string)
    requires links != [] && HasAt(line, pos, LinksText(links, sep))
    ensures HasAt(line, pos, LinkText(links[0], sep))
    ensures HasAt(line, pos + |LinkText(links[0], sep)|, LinksText(links[1..], sep))
  {
    HasAtSplit(line, pos, LinkText(links[0], sep), LinksText(links[1..], sep));
  }

  /** A list of links' text opens with the first link's blanks, operator
      and term. */
  lemma LinksHead(links: seq<Link>, sep: string)
    requires links != []
    ensures LinksText(links, sep) ==
      sep + [links[0].op] + (sep + TermText(links[0].term) + LinksText(links[1..], sep))
  {
  }

  // ----- Dropping the blanks of a chain -----

  /** A blank class of either version: at most the space and the tab. */
  predicate BlankChars(blank: char -> bool)
  {
    forall c :: blank(c) ==> c == ' ' || c == '\t'
  }

  /** Links whose operators are among the operators of either version. */
  predicate PlainLinks(links: seq<Link>)
  {
    forall i | 0 <= i < |links| ::
      (links[i].op == '+' || links[i].op == '-' || links[i].op == '*' || links[i].op == '/' ||
       links[i].op == '%' || links[i].op == '^') && WellFormedTerm(links[i].term)
  }

  lemma PlainRest(links: seq<Link>)
    requires links != [] && PlainLinks(links)
    ensures PlainLinks(links[1..])
  {
    var rest := links[1..];
    forall i | 0 <= i < |rest|
      ensures PlainLinks([rest[i]])
    {
      assert rest[i] == links[i + 1];
    }
  }

  /** A term's text holds neither a blank nor a `)`. */
  lemma TermPlain(x: Term, blank: char -> bool)
    requires WellFormedTerm(x) && BlankChars(blank)
    ensures ')' !in TermText(x)
    ensures forall i | 0 <= i < |TermText(x)| :: !blank(TermText(x)[i])
  {
    var s := TermText(x);
    forall i | 0 <= i < |s|
      ensures s[i] != ')' && !blank(s[i])
    {
      if i < |x.signs| {
        assert s[i] == x.signs[i];
      } else {
        assert s[i] == x.operand.text[i - |x.signs|];
      }
    }
  }

  /** A chain's text holds no `)`. */
  lemma {:induction false} ChainNoClose(head: Term, links: seq<Link>, sep: string, blank: char -> bool)
    requires WellFormedTerm(head) && PlainLinks(links) && BlankChars(blank)
    requires forall i | 0 <= i < |sep| :: blank(sep[i])
    ensures ')' !in ChainText(head, links, sep)
    decreases |links|
  {
    TermPlain(head, blank);
    if links != [] {
      PlainRest(links);
      var l := links[0];
      assert PlainLinks([l]);
      ChainNoClose(l.term, links[1..], sep, blank);
      assert ')' !in sep;
      LinksHead(links, sep);
    }
  }

  /** Dropping the blanks around a blank-free first link leaves its operator
      and term. */
  lemma StripLinkHead(links: seq<Link>, sep: string, blank: char -> bool)
    requires links != [] && PlainLinks(links) && !blank(links[0].op)
    requires forall i | 0 <= i < |TermText(links[0].term)| :: !blank(TermText(links[0].term)[i])
    requires forall i | 0 <= i < |sep| :: blank(sep[i])
    ensures Strip(LinksText(links, sep), blank) ==
      [links[0].op] + TermText(links[0].term) + Strip(LinksText(links[1..], sep), blank)
  {
    var l := links[0];
    var r := LinksText(links[1..], sep);
    var x := TermText(l.term);
    assert LinksText(links, sep) == sep + [l.op] + (sep + x + r) by {
      LinksHead(links, sep);
    }
    assert Strip(sep + [l.op] + (sep + x + r), blank) == [l.op] + Strip(sep + x + r, blank) by {
      StripToken(sep, [l.op], sep + x + r, blank);
    }
    assert Strip(sep + x + r, blank) == x + Strip(r, blank) by {
      StripToken(sep, x, r, blank);
    }
  }

  /** Links written without blanks: the first operator, its term, the rest. */
  lemma BareLinkHead(links: seq<Link>)
    requires links != []
    ensures LinksText(links, []) == [links[0].op] + TermText(links[0].term) + LinksText(links[1..], [])
  {
    var l := links[0];
    var e: string := [];
    assert e + [l.op] + e == [l.op];
    assert LinkText(l, e) == [l.op] + TermText(l.term);
    assert LinksText(links, e) == LinkText(l, e) + LinksText(links[1..], e);
  }

  lemma {:induction false} StripLinks(links: seq<Link>, sep: string, blank: char -> bool)
    requires PlainLinks(links) && BlankChars(blank)
    requires forall i | 0 <= i < |sep| :: blank(sep[i])
    ensures Strip(LinksText(links, sep), blank) == LinksText(links, [])
    decreases |links|
  {
    if links != [] {
      PlainRest(links);
      assert PlainLinks([links[0]]);
      TermPlain(links[0].term, blank);
      StripLinkHead(links, sep, blank);
      StripLinks(links[1..], sep, blank);
      BareLinkHead(links);
    }
  }

  /** Concatenating a chain's token texts, as a group does, gives the chain
      written without blanks. */
  lemma StripChain(head: Term, links: seq<Link>, sep: string, blank: char -> bool)
    requires WellFormedTerm(head) && PlainLinks(links) && BlankChars(blank)
    requires forall i | 0 <= i < |sep| :: blank(sep[i])
    ensures Strip(ChainText(head, links, sep), blank) == ChainText(head, links, [])
  {
    TermPlain(head, blank);
    StripAppend(TermText(head), LinksText(links, sep), blank);
    StripNone(TermText(head), blank);
    StripLinks(links, sep, blank);
  }

  /** A chain between blanks holds no `)`, and dropping its blanks leaves
      the chain written without them. */
  lemma StripPadded(a: string, head: Term, links: seq<Link>, sep: string, b: string, blank: char -> bool)
    requires WellFormedTerm(head) && PlainLinks(links) && BlankChars(blank)
    requires forall i | 0 <= i < |a| :: blank(a[i])
    requires forall i | 0 <= i < |b| :: blank(b[i])
    requires forall i | 0 <= i < |sep| :: blank(sep[i])
    ensures ')' !in a + ChainText(head, links, sep) + b
    ensures Strip(a + ChainText(head, links, sep) + b, blank) == ChainText(head, links, [])
  {
    var chain := ChainText(head, links, sep);
    ChainNoClose(head, links, sep, blank);
    assert ')' !in a && ')' !in b;
    StripAround(a, chain, b, blank);
    StripChain(head, links, sep, blank);
  }
}

=== FILE: common.dfy ===
/** Helpers shared by both calculator variants: an option type, the view of a
    NUL-terminated C string as a Dafny string, character classes, maximal
    character runs, blank stripping and decimal numerals. */
module Common {

  datatype Option<T> = None | Some(value: T)

  /** How the tokens after a `(` end: at a `)`, with their texts
      concatenated and the position just after the `)`, or not at all. */
  datatype Closing = Unclosed | Closed(text: string, end: nat)

  /** The character a C string holds at index `i`; at (or past) its end the
      terminating NUL is read. */
  function At(s: string, i: int): char
  {
    if 0 <= i < |s| then s[i] else '\0'
  }

  /** A C string cannot hold a NUL before its end. */
  predicate NoNul(s: string)
  {
    '\0' !in s
  }

  /** IS_DIGIT of both sources */
  predicate IsDigit(c: char)
  {
    '0' <= c <= '9'
  }

  /** IS_ALPHA of both sources: lower-case ASCII letters only */
  predicate IsLower(c: char)
  {
    'a' <= c <= 'z'
  }

  predicate AllDigits(s: string)
  {
    forall i | 0 <= i < |s| :: IsDigit(s[i])
  }

  predicate AllLower(s: string)
  {
    forall i | 0 <= i < |s| :: IsLower(s[i])
  }

  /** End of the maximal run of characters in class `cls` that starts at `i`. */
  function Span(s: string, i: nat, cls: char -> bool): (e: nat)
    requires i <= |s|
    ensures i <= e <= |s|
    ensures forall k | i <= k < e :: cls(s[k])
    ensures e == |s| || !cls(s[e])
    decreases |s| - i
  {
    if i == |s| || !cls(s[i]) then i else Span(s, i + 1, cls)
  }

  /** The text of the maximal run of class `cls` that starts at `i`. */
  function SpanText(s: string, i: nat, cls: char -> bool): (r: string)
    requires i <= |s|
    ensures r == s[i..Span(s, i, cls)]
    ensures forall k | 0 <= k < |r| :: cls(r[k])
  {
    s[i..Span(s, i, cls)]
  }

  /** A maximal run is determined by where it starts. */
  lemma SpanIs(s: string, i: nat, e: nat, cls: char -> bool)
    requires i <= e <= |s|
    requires forall k | i <= k < e :: cls(s[k])
    requires e == |s| || !cls(s[e])
    ensures Span(s, i, cls) == e
  {
  }

  /** `text` is what a tokenizer consumed from `pos` to `next`: a run of
      blanks, then the text itself. */
  predicate Consumed(line: string, pos: nat, text: string, next: int, blank: char -> bool)
  {
    1 <= |text| && pos + |text| <= next <= |line| &&
    line[next - |text|..next] == text && !blank(text[0]) &&
    forall i | pos <= i < next - |text| :: blank(line[i])
  }

  /** The characters of `s` outside class `blank`, in order. */
  function Strip(s: string, blank: char -> bool): (r: string)
    ensures |r| <= |s|
    ensures forall i | 0 <= i < |r| :: !blank(r[i])
  {
    if s == [] then []
    else if blank(s[0]) then Strip(s[1..], blank)
    else [s[0]] + Strip(s[1..], blank)
  }

  lemma {:induction false} StripAppend(a: string, b: string, blank: char -> bool)
    ensures Strip(a + b, blank) == Strip(a, blank) + Strip(b, blank)
    decreases |a|
  {
    if a == [] {
      assert a + b == b;
    } else {
      assert (a + b)[1..] == a[1..] + b;
      StripAppend(a[1..], b, blank);
    }
  }

  /** Blanks in front of a blank-free token vanish, and the token stays. */
  lemma StripToken(blanks: string, text: string, rest: string, blank: char -> bool)
    requires forall i | 0 <= i < |blanks| :: blank(blanks[i])
    requires forall i | 0 <= i < |text| :: !blank(text[i])
    ensures Strip(blanks + text + rest, blank) == text + Strip(rest, blank)
  {
    var bt := blanks + text;
    assert Strip(bt, blank) == text by {
      StripAppend(blanks, text, blank);
      StripBlanks(blanks, blank);
      StripNone(text, blank);
    }
    StripAppend(bt, rest, blank);
  }

  /** Blanks on either side of a text vanish when blanks are dropped. */
  lemma StripAround(a: string, s: string, b: string, blank: char -> bool)
    requires forall i | 0 <= i < |a| :: blank(a[i])
    requires forall i | 0 <= i < |b| :: blank(b[i])
    ensures Strip(a + s + b, blank) == Strip(s, blank)
  {
    StripAppend(a + s, b, blank);
    StripAppend(a, s, blank);
    StripBlanks(a, blank);
    StripBlanks(b, blank);
  }

  /** Dropping blanks adds no character. */
  lemma {:induction false} StripKeeps(s: string, blank: char -> bool, c: char)
    requires c !in s
    ensures c !in Strip(s, blank)
    decreases |s|
  {
    if s != [] {
      assert c !in s[1..];
      StripKeeps(s[1..], blank, c);
    }
  }

  lemma {:induction false} StripBlanks(s: string, blank: char -> bool)
    requires forall i | 0 <= i < |s| :: blank(s[i])
    ensures Strip(s, blank) == []
    decreases |s|
  {
    if s != [] {
      StripBlanks(s[1..], blank);
    }
  }

  lemma {:induction false} StripNone(s: string, blank: char -> bool)
    requires forall i | 0 <= i < |s| :: !blank(s[i])
    ensures Strip(s, blank) == s
    decreases |s|
  {
    if s != [] {
      StripNone(s[1..], blank);
      assert [s[0]] + s[1..] == s;
    }
  }

  /** The closing token of a group: only blanks stand before it. */
  lemma GroupClose(line: string, pos: nat, next: nat, blank: char -> bool)
    requires Consumed(line, pos, ")", next, blank) && !blank(')')
    ensures pos < next <= |line| && line[next - 1] == ')'
    ensures [] == Strip(line[pos..next - 1], blank)
    ensures forall i | pos <= i < next - 1 :: line[i] != ')'
  {
    assert line[next - 1..next] == ")";
    StripBlanks(line[pos..next - 1], blank);
  }

  /** One token inside a group, in front of the rest of the group, `inner`,
      which closes at `e`: the group from `pos` closes at `e` too, and its
      text is the token followed by `inner`. */
  lemma GroupStep(line: string, pos: nat, text: string, next: nat, inner: string, e: nat, blank: char -> bool)
    requires Consumed(line, pos, text, next, blank) && next < e <= |line| && !blank(')')
    requires forall i | 0 <= i < |text| :: !blank(text[i])
    requires ')' !in text
    requires line[e - 1] == ')' && inner == Strip(line[next..e - 1], blank)
    requires forall i | next <= i < e - 1 :: line[i] != ')'
    ensures pos < e <= |line| && line[e - 1] == ')'
    ensures text + inner == Strip(line[pos..e - 1], blank)
    ensures forall i | pos <= i < e - 1 :: line[i] != ')'
  {
    var k := next - |text|;
    var blanks, rest := line[pos..k], line[next..e - 1];
    assert line[pos..e - 1] == blanks + text + rest by {
      assert line[k..next] == text;
      assert line[pos..e - 1] == line[pos..k] + line[k..next] + line[next..e - 1];
    }
    StripToken(blanks, text, rest, blank);
    forall i | k <= i < next
      ensures line[i] != ')'
    {
      assert line[i] == text[i - k];
    }
  }

  /** Where a group from `pos` closes, if it does: at the first `)` from
      `pos` on, with the blanks before that `)` dropped from its text. */
  predicate ClosesAtFirst(line: string, pos: nat, g: Closing, blank: char -> bool)
  {
    g.Closed? ==>
      pos < g.end <= |line| && line[g.end - 1] == ')' &&
      g.text == Strip(line[pos..g.end - 1], blank) &&
      forall i | pos <= i < g.end - 1 :: line[i] != ')'
  }

  /** GroupStep for a group `g` built from a token and the rest `r`. */
  lemma GroupStepCloses(line: string, pos: nat, text: string, next: nat, r: Closing, g: Closing, blank: char -> bool)
    requires Consumed(line, pos, text, next, blank) && !blank(')')
    requires forall i | 0 <= i < |text| :: !blank(text[i])
    requires ')' !in text
    requires ClosesAtFirst(line, next, r, blank)
    requires g == (if r.Closed? then Closed(text + r.text, r.end) else Unclosed)
    ensures ClosesAtFirst(line, pos, g, blank)
  {
    if r.Closed? {
      GroupStep(line, pos, text, next, r.text, r.end, blank);
    }
  }

  /** The first `)` at or after `k` is the one at `c`, just after `x`. */
  lemma FirstClose(line: string, k: nat, c: nat, x: string, e: nat)
    requires HasAt(line, k, x) && c == k + |x| && c < |line| && line[c] == ')' && ')' !in x
    requires k < e <= |line| && line[e - 1] == ')'
    requires forall i | k <= i < e - 1 :: line[i] != ')'
    ensures e == c + 1 && line[k..e - 1] == x
  {
    HasAtSlice(line, k, x);
    assert forall i | k <= i < c :: line[i] == x[i - k];
  }

  /** A group that closes, where its text `x` holds no `)` and is followed
      by one at `c`, ends just after that `)` and hands on `x` without
      blanks. */
  lemma ClosesAtParen(line: string, k: nat, c: nat, x: string, g: Closing, blank: char -> bool)
    requires HasAt(line, k, x) && c == k + |x| && c < |line| && line[c] == ')' && ')' !in x
    requires ClosesAtFirst(line, k, g, blank)
    ensures g.Closed? ==> g == Closed(Strip(x, blank), c + 1)
  {
    if g.Closed? {
      FirstClose(line, k, c, x, g.end);
    }
  }

  /** The text of a group written last on a line. */
  lemma FinalParen(line: string, front: string, x: string)
    requires line == front + ("(" + x + ")")
    ensures HasAt(line, |front| + 1, x) && |line| == |front| + 1 + |x| + 1 && line[|line| - 1] == ')'
  {
    HasAtTail(line, front, "(" + x + ")", |front|);
    HasAtSplitAt(line, |front|, "(" + x, ")", |front| + 1 + |x|);
    HasAtSplitAt(line, |front|, "(", x, |front| + 1);
    HasAtHead(line, |front| + 1 + |x|, ")");
  }

  /** `x` occurs in `line` starting at `pos`. */
  predicate HasAt(line: string, pos: nat, x: string)
  {
    pos + |x| <= |line| && forall i | 0 <= i < |x| :: line[pos + i] == x[i]
  }

  lemma HasAtSplit(line: string, pos: nat, a: string, b: string)
    requires HasAt(line, pos, a + b)
    ensures HasAt(line, pos, a) && HasAt(line, pos + |a|, b)
  {
    forall i | 0 <= i < |a|
      ensures line[pos + i] == a[i]
    {
      assert (a + b)[i] == a[i];
    }
    forall i | 0 <= i < |b|
      ensures line[pos + |a| + i] == b[i]
    {
      assert (a + b)[|a| + i] == b[i];
    }
  }

  /** HasAtSplit with the position of `b` named by the caller. */
  lemma HasAtSplitAt(line: string, pos: nat, a: string, b: string, mid: nat)
    requires HasAt(line, pos, a + b) && mid == pos + |a|
    ensures HasAt(line, pos, a) && HasAt(line, mid, b)
  {
    HasAtSplit(line, pos, a, b);
  }

  lemma HasAtSliceAt(line: string, pos: nat, x: string, end: nat)
    requires HasAt(line, pos, x) && end == pos + |x|
    ensures line[pos..end] == x
  {
  }

  /** The last piece of a line, with its position named by the caller. */
  lemma HasAtTail(line: string, a: string, b: string, pos: nat)
    requires line == a + b && pos == |a|
    ensures HasAt(line, pos, b) && pos + |b| == |line|
  {
    HasAtAppend(a, b);
  }

  lemma HasAtAppend(a: string, b: string)
    ensures HasAt(a + b, |a|, b)
  {
    forall i | 0 <= i < |b|
      ensures (a + b)[|a| + i] == b[i]
    {
    }
  }

  lemma HasAtHead(line: string, pos: nat, x: string)
    requires HasAt(line, pos, x) && x != []
    ensures pos < |line| && line[pos] == x[0] && HasAt(line, pos + 1, x[1..])
  {
    assert line[pos + 0] == x[0];
    forall i | 0 <= i < |x| - 1
      ensures line[pos + 1 + i] == x[1..][i]
    {
      assert line[pos + (i + 1)] == x[i + 1];
    }
  }

  lemma HasAtSlice(line: string, pos: nat, x: string)
    requires HasAt(line, pos, x)
    ensures line[pos..pos + |x|] == x
  {
  }

  /** Every character of an occurrence of `x` is in any class all of `x` is in. */
  lemma HasAtClass(line: string, pos: nat, x: string, cls: char -> bool)
    requires HasAt(line, pos, x) && forall i | 0 <= i < |x| :: cls(x[i])
    ensures forall i | pos <= i < pos + |x| :: cls(line[i])
  {
    forall i | pos <= i < pos + |x|
      ensures cls(line[i])
    {
      assert line[pos + (i - pos)] == x[i - pos];
    }
  }

  function DigitValue(c: char): nat
    requires IsDigit(c)
  {
    (c as int - '0' as int) as nat
  }

  function DigitChar(d: nat): (c: char)
    requires d < 10
    ensures IsDigit(c) && DigitValue(c) == d
  {
    ('0' as int + d) as char
  }

  /** The value `strtol`/`atoi` read, in base 10, from a run of digits. */
  function DecimalValue(s: string): nat
    requires AllDigits(s)
  {
    if s == [] then 0 else 10 * DecimalValue(s[..|s| - 1]) + DigitValue(s[|s| - 1])
  }

  /** The decimal numeral of `n`, without leading zeros. */
  function Decimal(n: nat): (s: string)
    ensures 1 <= |s| && AllDigits(s)
    ensures |s| > 1 ==> s[0] != '0'
  {
    if n < 10 then [DigitChar(n)] else Decimal(n / 10) + [DigitChar(n % 10)]
  }

  lemma {:induction false} DecimalRoundTrip(n: nat)
    ensures DecimalValue(Decimal(n)) == n
  {
    if n >= 10 {
      var s := Decimal(n);
      assert s[..|s| - 1] == Decimal(n / 10);
      DecimalRoundTrip(n / 10);
    }
  }
}

=== FILE: jodycalc.dfy ===
/** jodycalc.c: the full calculator. A tokenizer, a left-to-right evaluator
    without operator precedence over `long` values, comparison operators and
    assignment into the variable list. */
module JodyCalc {
  import opened Common
  import opened CArith
  import VarTable

  /** Maximum input line length */
  const MAX_LINE: nat := 120

  /** A line the evaluator can be handed: the read loop stores at most
      MAX_LINE - 1 characters, and a C string holds no NUL. */
  predicate ValidLine(line: string)
  {
    |line| < MAX_LINE && NoNul(line)
  }

  /** IS_SPACE */
  predicate IsBlank(c: char)
  {
    c == ' ' || c == '\t'
  }

  /** IS_OP */
  predicate IsOp(c: char)
  {
    c == '+' || c == '/' || c == '*' || c == '-' || c == '^' || c == '%'
  }

  /** The character that ends the token text of a lone `!`. */
  predicate NotSpace(c: char)
  {
    c != ' '
  }

  /** A character the tokenizer can start a token with. */
  predicate StartsToken(c: char)
  {
    IsDigit(c) || IsLower(c) || IsOp(c) ||
    c == '(' || c == ')' || c == '=' || c == '<' || c == '>' || c == '!'
  }

  /** The spellings readtok can return as a comparison with a valid position. */
  predicate IsCompareSpelling(t: string)
  {
    t in {"==", "=>", "=<", "!=", ">", ">=", "><", ">>", "<", "<=", "<>", "<<"}
  }

  /** Token types readtok produces (TOK_NULL and TOK_EOL are never set as a
      type by this tokenizer, so they have no counterpart). */
  datatype Kind = Num | Var | Op | Paren | EndParen | Equal | Compare | Invalid

  /** One tokenizer step: the token type, the token text, and the position
      readtok returns (-1 stops the caller). */
  datatype Scan = Scan(kind: Kind, text: string, next: int)

  /** readtok: skip blanks, then classify and extract one token. */
  function ReadTok(line: string, pos: nat): (s: Scan)
    requires ValidLine(line)
    ensures s.next == -1 || pos < s.next <= |line|
    ensures s.kind == Invalid ==> s.text == "" && s.next == -1
    ensures s.kind == Invalid <==>
      pos >= |line| || !StartsToken(At(line, Span(line, pos, IsBlank)))
    ensures s.next == -1 && s.kind != Invalid ==>
      s.kind == Compare && 1 <= |s.text| && s.text[0] == '!' && ' ' !in s.text
    ensures s.next >= 0 ==> Consumed(line, pos, s.text, s.next, IsBlank)
    ensures s.next >= 0 ==> forall i | 0 <= i < |s.text| :: !IsBlank(s.text[i])
    ensures s.next >= 0 && s.kind != EndParen ==> ')' !in s.text
    ensures s.kind == Num ==> AllDigits(s.text) && !IsDigit(At(line, s.next))
    ensures s.kind == Var ==> AllLower(s.text) && !IsLower(At(line, s.next))
    ensures s.kind == Op ==> |s.text| == 1 && IsOp(s.text[0])
    ensures s.kind == Paren ==> s.text == "("
    ensures s.kind == EndParen ==> s.text == ")"
    ensures s.kind == Equal ==> s.text == "=" && At(line, s.next) !in {'=', '<', '>'}
    ensures s.kind == Compare && s.next >= 0 ==> IsCompareSpelling(s.text)
  {
    if |line| == 0 || pos >= |line| then Scan(Invalid, "", -1)
    else
      var p := Span(line, pos, IsBlank);
      var s := ReadAt(line, p);
      assert s.next >= 0 ==> line[s.next - |s.text|..s.next] == s.text;
      s
  }

  /** The token starting at `p`, the first non-blank position. */
  function ReadAt(line: string, p: nat): (s: Scan)
    requires ValidLine(line) && p <= |line| && !IsBlank(At(line, p))
    ensures s.next == -1 || p < s.next <= |line|
    ensures s.kind == Invalid ==> s.text == "" && s.next == -1
    ensures s.kind == Invalid <==> !StartsToken(At(line, p))
    ensures s.next == -1 && s.kind != Invalid ==>
      s.kind == Compare && 1 <= |s.text| && s.text[0] == '!' && ' ' !in s.text
    ensures s.next >= 0 ==> s.next == p + |s.text| && line[p..s.next] == s.text
    ensures s.next >= 0 ==> forall i | 0 <= i < |s.text| :: !IsBlank(s.text[i])
    ensures s.next >= 0 && s.kind != EndParen ==> ')' !in s.text
    ensures s.kind == Num ==> AllDigits(s.text) && !IsDigit(At(line, s.next))
    ensures s.kind == Var ==> AllLower(s.text) && !IsLower(At(line, s.next))
    ensures s.kind == Op ==> |s.text| == 1 && IsOp(s.text[0])
    ensures s.kind == Paren ==> s.text == "("
    ensures s.kind == EndParen ==> s.text == ")"
    ensures s.kind == Equal ==> s.text == "=" && At(line, s.next) !in {'=', '<', '>'}
    ensures s.kind == Compare && s.next >= 0 ==> IsCompareSpelling(s.text)
  {
    var c := At(line, p);
    if c == '!' || c == '=' || c == '<' || c == '>' then ReadRelational(line, p)
    else if IsDigit(c) then
      Scan(Num, SpanText(line, p, IsDigit), Span(line, p, IsDigit))
    else if IsLower(c) then
      Scan(Var, SpanText(line, p, IsLower), Span(line, p, IsLower))
    else if IsOp(c) then
      Scan(Op, [c], p + 1)
    else if c == '(' then
      Scan(Paren, "(", p + 1)
    else if c == ')' then
      Scan(EndParen, ")", p + 1)
    else
      Scan(Invalid, "", -1)
  }

  /** The comparison and assignment cases of readtok: `!`, `=`, `<`, `>`. */
  function ReadRelational(line: string, p: nat): (s: Scan)
    requires ValidLine(line) && p < |line|
    requires line[p] == '!' || line[p] == '=' || line[p] == '<' || line[p] == '>'
    ensures s.kind == Compare || s.kind == Equal
    ensures s.next == -1 || p < s.next <= |line|
    ensures s.next == -1 ==> s.kind == Compare && 1 <= |s.text| && s.text[0] == '!' && ' ' !in s.text
    ensures s.next >= 0 ==> s.next == p + |s.text| && line[p..s.next] == s.text
    ensures s.next >= 0 ==> forall i | 0 <= i < |s.text| :: !IsBlank(s.text[i]) && s.text[i] != ')'
    ensures s.kind == Equal ==> s.text == "=" && At(line, s.next) !in {'=', '<', '>'}
    ensures s.kind == Compare && s.next >= 0 ==> IsCompareSpelling(s.text)
  {
    var c := line[p];
    var d := At(line, p + 1);
    if c == '!' && d != '=' then
      Scan(Compare, line[p..Span(line, p, NotSpace)], -1)
    else if (c == '!' || c == '=') && (d == '=' || d == '>' || d == '<') then
      PairAt(line, p);
      Scan(Compare, [c, d], p + 2)
    else if c == '>' || c == '<' then
      if d == '=' || d == '<' || d == '>' then
        PairAt(line, p);
        Scan(Compare, [c, d], p + 2)
      else Scan(Compare, [c], p + 1)
    else
      Scan(Equal, "=", p + 1)
  }

  lemma PairAt(line: string, p: nat)
    requires p + 1 < |line|
    ensures line[p..p + 2] == [line[p], line[p + 1]]
  {
  }

  /** do_operation: one binary operator applied to two values. Division by
      zero is reported and yields 0; an unknown operator yields 0. */
  function DoOperation(l: int, r: int, op: char): (v: int)
    ensures op == '+' ==> v == l + r
    ensures op == '-' ==> v == l - r
    ensures op == '*' ==> v == l * r
    ensures op == '/' && r != 0 ==>
      Abs(l - v * r) < Abs(r) && (l - v * r == 0 || (l - v * r < 0 <==> l < 0))
    ensures op == '%' && r != 0 ==> l == TDiv(l, r) * r + v && Abs(v) < Abs(r)
    ensures (op == '/' || op == '%') && r == 0 ==> v == 0
    ensures op == '^' ==> v == CPow(l, r)
    ensures !IsOp(op) ==> v == 0
  {
    if op == '/' then (if r == 0 then 0 else TDiv(l, r))
    else if op == '+' then l + r
    else if op == '-' then l - r
    else if op == '*' then l * r
    else if op == '%' then (if r == 0 then 0 else TRem(l, r))
    else if op == '^' then CPow(l, r)
    else 0
  }

  /** The relations the comparison spellings stand for. */
  datatype Relation = Eq | Ne | Ge | Le | Gt | Lt

  function RelationOf(spelling: string): Option<Relation>
  {
    if spelling == "==" then Some(Eq)
    else if spelling == "!=" || spelling == "<>" || spelling == "><" then Some(Ne)
    else if spelling == ">=" || spelling == "=>" then Some(Ge)
    else if spelling == "<=" || spelling == "=<" then Some(Le)
    else if spelling == ">" then Some(Gt)
    else if spelling == "<" then Some(Lt)
    else None
  }

  function Holds(rel: Relation, a: int, b: int): bool
  {
    match rel
    case Eq => a == b
    case Ne => a != b
    case Ge => a >= b
    case Le => a <= b
    case Gt => a > b
    case Lt => a < b
  }

  /** The value of `a <spelling> b`: exactly 1 or 0; an unknown spelling is
      an error and gives 0. */
  function CompareValue(spelling: string, a: int, b: int): (v: int)
    ensures v == 0 || v == 1
    ensures spelling == "==" ==> (v == 1 <==> a == b)
    ensures spelling in {"!=", "<>", "><"} ==> (v == 1 <==> a != b)
    ensures spelling in {">=", "=>"} ==> (v == 1 <==> a >= b)
    ensures spelling in {"<=", "=<"} ==> (v == 1 <==> a <= b)
    ensures spelling == ">" ==> (v == 1 <==> a > b)
    ensures spelling == "<" ==> (v == 1 <==> a < b)
    ensures spelling in {">>", "<<"} ==> v == 0
  {
    match RelationOf(spelling)
    case None => 0
    case Some(rel) => if Holds(rel, a, b) then 1 else 0
  }

  /** The state `expression` keeps for the first operand: `lvar` of the
      source is 0, 1 or -1. */
  datatype LeftVar = NotVar | Bound | Unbound

  /** The local variables of one `expression` call. */
  datatype Frame = Frame(
    neg: Sign,
    lset: bool,
    lvar: LeftVar,
    lvname: string,
    lvalue: int,
    op: Option<char>,
    result: int)

  const Start: Frame := Frame(NoSign, false, NotVar, "", 0, None, 0)

  /** What one evaluation returns, and the variable list it leaves. */
  datatype Outcome = Outcome(value: int, table: VarTable.Table)

  /** The final evaluation step shared by numbers, variables and groups:
      apply the pending sign to `result`, then either fix it as the left
      value or combine it with the left value under the pending operator.
      None is the "operation required" error. */
  function Settle(f: Frame): (g: Option<Frame>)
    ensures g.None? <==> f.lset && f.op.None?
    ensures g.Some? ==>
      g.value.lset && g.value.neg == NoSign &&
      g.value.lvalue == g.value.result && g.value.lvar == f.lvar &&
      g.value.lvname == f.lvname
    ensures g.Some? && !f.lset ==> g.value.lvalue == Signed(f.neg, f.result) && g.value.op == f.op
    ensures g.Some? && f.lset ==>
      g.value.op.None? &&
      g.value.lvalue == DoOperation(f.lvalue, Signed(f.neg, f.result), f.op.value)
  {
    var r := Signed(f.neg, f.result);
    if !f.lset then
      Some(f.(result := r, lvalue := r, neg := NoSign, lset := true))
    else if f.op.Some? then
      var v := DoOperation(f.lvalue, r, f.op.value);
      Some(f.(result := v, lvalue := v, neg := NoSign, op := None))
    else
      None
  }

  /** An operator where an operand is expected is a sign: `+` and `-` set
      the sign flag and any other operator is an error. After an operand it
      becomes the pending operation. A left variable that is still unbound
      admits no operator at all. None is an error. */
  function OperatorFrame(f: Frame, c: char): (g: Option<Frame>)
    ensures g.Some? <==> f.lvar != Unbound && ((f.lset && f.op.None?) || c == '+' || c == '-')
    ensures g.Some? ==>
      g.value.lset == f.lset && g.value.lvar == f.lvar && g.value.lvname == f.lvname &&
      g.value.lvalue == f.lvalue && g.value.result == f.result
    ensures g.Some? && f.lset && f.op.None? ==> g.value.op == Some(c) && g.value.neg == f.neg
    ensures g.Some? && !(f.lset && f.op.None?) ==>
      g.value.op == f.op && (g.value.neg == Plus <==> c == '+') && (g.value.neg == Minus <==> c == '-')
  {
    if f.lvar == Unbound then None
    else if !f.lset || f.op.Some? then
      if c == '+' then Some(f.(neg := Plus))
      else if c == '-' then Some(f.(neg := Minus))
      else None
    else
      Some(f.(op := Some(c)))
  }

  /** A variable is looked up and used as an operand. As the first operand
      of the line it also names the target of a later `=`, and may then be
      unbound; as a right operand it must be bound. None is an error. */
  function VariableFrame(f: Frame, name: string, t: VarTable.Table): (g: Option<Frame>)
    ensures g.None? <==> (f.op.None? && f.lset) || (f.op.Some? && VarTable.Get(t, name).None?)
    ensures g.Some? && !f.lset && f.op.None? && f.lvar == NotVar ==>
      g.value.lvname == VarTable.Key(name) &&
      (g.value.lvar == Bound <==> VarTable.Get(t, name).Some?) &&
      (g.value.lvar == Unbound <==> VarTable.Get(t, name).None?)
    ensures g.Some? && VarTable.Get(t, name).Some? && (f.op.Some? || f.lvar == NotVar) ==>
      Settle(f.(result := VarTable.Get(t, name).value)) == Some(g.value.(lvar := f.lvar, lvname := f.lvname))
    ensures g.Some? && VarTable.Get(t, name).None? ==>
      Settle(f) == Some(g.value.(lvar := f.lvar, lvname := f.lvname))
  {
    var f1 :=
      if f.lvar == NotVar && f.op.None? && !f.lset then
        (match VarTable.Get(t, name)
         case Some(v) => f.(lvname := VarTable.Key(name), lvar := Bound, result := v)
         case None => f.(lvname := VarTable.Key(name), lvar := Unbound))
      else f;
    if f1.op.Some? then
      match VarTable.Get(t, name)
      case None => None
      case Some(v) => Settle(f1.(result := v))
    else
      Settle(f1)
  }

  /** What a number, variable or operator token does to the frame; None is
      an error that stops the line with value 0. */
  function Step(s: Scan, f: Frame, t: VarTable.Table): (g: Option<Frame>)
    requires s.kind == Num || s.kind == Var || s.kind == Op
    requires s.kind == Num ==> AllDigits(s.text)
    requires s.kind == Op ==> |s.text| == 1
    ensures s.kind == Num ==> (g.None? <==> f.lset && f.op.None?)
    ensures s.kind == Num && g.Some? ==>
      g.value.lset && g.value.neg == NoSign && g.value.lvalue == g.value.result &&
      g.value.lvalue == (if f.lset then DoOperation(f.lvalue, Signed(f.neg, DecimalValue(s.text)), f.op.value)
                         else Signed(f.neg, DecimalValue(s.text)))
    ensures s.kind == Var ==> (g.None? <==> (f.lset && f.op.None?) || (f.op.Some? && VarTable.Get(t, s.text).None?))
    ensures s.kind == Op ==>
      (g.None? <==> f.lvar == Unbound || !((f.lset && f.op.None?) || s.text[0] == '+' || s.text[0] == '-'))
    ensures s.kind == Op && g.Some? && f.lset && f.op.None? ==> g.value.op == Some(s.text[0])
  {
    if s.kind == Num then Settle(f.(result := DecimalValue(s.text)))
    else if s.kind == Var then VariableFrame(f, s.text, t)
    else OperatorFrame(f, s.text[0])
  }

  /** The tokens of a parenthesised group, from just after `(` up to the
      first `)` token, their texts concatenated; Unclosed when the line ends
      or an unknown character comes first. The group ends at the first `)`
      character: there is no nesting depth. */
  function Group(line: string, pos: nat): (g: Closing)
    requires ValidLine(line) && pos <= |line|
    ensures g.Closed? ==> pos < g.end <= |line|
    decreases |line| - pos
  {
    var s := ReadTok(line, pos);
    if s.kind == Invalid || s.next < 0 then Unclosed
    else if s.text == ")" then
      Closed([], s.next)
    else
      match Group(line, s.next)
      case Unclosed => Unclosed
      case Closed(inner, e) =>
        Closed(s.text + inner, e)
  }

  /** Where a group closes: at the first `)` character from `pos` on, and
      its text is what stands before that `)` with the blanks dropped. */
  lemma {:induction false} GroupShape(line: string, pos: nat)
    requires ValidLine(line) && pos <= |line|
    ensures ClosesAtFirst(line, pos, Group(line, pos), IsBlank)
    decreases |line| - pos
  {
    var s := ReadTok(line, pos);
    if s.kind != Invalid && s.next >= 0 {
      if s.text == ")" {
        GroupClose(line, pos, s.next, IsBlank);
      } else {
        GroupShape(line, s.next);
        GroupStepCloses(line, pos, s.text, s.next, Group(line, s.next), Group(line, pos), IsBlank);
      }
    }
  }

  /** A stretch of a line with its blanks dropped is again a line, shorter
      than the one it came from, and holds no character the line lacks. */
  lemma StrippedLine(line: string, a: nat, b: nat)
    requires ValidLine(line) && a <= b <= |line|
    ensures ValidLine(Strip(line[a..b], IsBlank))
    ensures |Strip(line[a..b], IsBlank)| <= b - a
    ensures '=' !in line ==> '=' !in Strip(line[a..b], IsBlank)
  {
    assert '\0' !in line[a..b];
    StripKeeps(line[a..b], IsBlank, '\0');
    if '=' !in line {
      assert '=' !in line[a..b];
      StripKeeps(line[a..b], IsBlank, '=');
    }
  }

  /** A group text closing at `end` is again a line, shorter than the rest
      of the line, and holds no `=` the line lacks. */
  lemma ClosedLine(line: string, pos: nat, text: string, end: nat)
    requires ValidLine(line) && pos < end <= |line|
    requires text == Strip(line[pos..end - 1], IsBlank)
    ensures ValidLine(text) && |text| < |line| - pos
    ensures '=' !in line ==> '=' !in text
  {
    StrippedLine(line, pos, end - 1);
  }

  /** The text of a closed group is again a line, shorter than the rest of
      the line it came from, and holds no `=` the line lacks. */
  lemma {:induction false} GroupText(line: string, pos: nat)
    requires ValidLine(line) && pos <= |line|
    ensures Group(line, pos).Closed? ==>
      ValidLine(Group(line, pos).text) && |Group(line, pos).text| < |line| - pos &&
      ('=' !in line ==> '=' !in Group(line, pos).text)
  {
    var g := Group(line, pos);
    if g.Closed? {
      GroupShape(line, pos);
      ClosedLine(line, pos, g.text, g.end);
    }
  }

  /** The table an evaluation leaves: untouched when the line holds no `=`,
      and otherwise the old nodes in place with unique names kept unique. */
  predicate Leaves(line: string, t: VarTable.Table, u: VarTable.Table)
  {
    ('=' !in line ==> u == t) &&
    (VarTable.Unique(t) ==> VarTable.Unique(u)) &&
    VarTable.Extends(t, u)
  }

  /** expression: evaluate one line against the variable list. */
  function Evaluate(line: string, t: VarTable.Table): (o: Outcome)
    requires ValidLine(line)
    ensures Leaves(line, t, o.table)
    decreases |line|, 1, 0, 0
  {
    if |line| == 0 then Outcome(0, t) else Run(line, 0, Start, t)
  }

  /** The token loop of `expression`, from position `pos` on, in frame `f`. */
  function Run(line: string, pos: nat, f: Frame, t: VarTable.Table): (o: Outcome)
    requires ValidLine(line) && pos <= |line|
    ensures Leaves(line, t, o.table)
    decreases |line|, 0, |line| - pos, 3
  {
    if pos == |line| then Outcome(f.result, t)
    else
      var s := ReadTok(line, pos);
      if s.text == "" && f.lvar == Unbound then Outcome(f.result, t)
      else Dispatch(line, pos, s, f, t)
  }

  /** The `switch` on the token type. */
  function Dispatch(line: string, pos: nat, s: Scan, f: Frame, t: VarTable.Table): (o: Outcome)
    requires ValidLine(line) && pos < |line| && s == ReadTok(line, pos)
    ensures Leaves(line, t, o.table)
    decreases |line|, 0, |line| - pos, 2
  {
    match s.kind
    case Compare => Relational(line, pos, s, f, t)
    case Equal => Relational(line, pos, s, f, t)
    case Paren => Parenthesised(line, s.next, f, t)
    case Num => Continue(line, s.next, Step(s, f, t), t)
    case Var => Continue(line, s.next, Step(s, f, t), t)
    case Op => Continue(line, s.next, Step(s, f, t), t)
    case EndParen => Outcome(0, t)
    case Invalid => Outcome(0, t)
  }

  /** After an operand: go on with the settled frame, or stop with 0 when
      an operation was required. */
  function Continue(line: string, next: nat, g: Option<Frame>, t: VarTable.Table): (o: Outcome)
    requires ValidLine(line) && next <= |line|
    ensures Leaves(line, t, o.table)
    decreases |line|, 0, |line| - next, 4
  {
    match g
    case None => Outcome(0, t)
    case Some(f) => Run(line, next, f, t)
  }

  /** A comparison compares the left value with the value of the rest of the
      line; `=` stores the value of the rest of the line in the variable the
      line started with. Both end the evaluation. */
  function Relational(line: string, pos: nat, s: Scan, f: Frame, t: VarTable.Table): (o: Outcome)
    requires ValidLine(line) && pos < |line| && s == ReadTok(line, pos)
    requires s.kind == Compare || s.kind == Equal
    ensures Leaves(line, t, o.table)
    decreases |line|, 0, |line| - pos, 1
  {
    if s.kind == Compare then
      if s.next < 0 || !f.lset then Outcome(0, t)
      else
        var rest := Evaluate(line[s.next..], t);
        assert '=' !in line ==> '=' !in line[s.next..];
        Outcome(CompareValue(s.text, f.lvalue, rest.value), rest.table)
    else
      if f.lvar == NotVar then Outcome(0, t)
      else
        var rest := Evaluate(line[s.next..], t);
        assert line[s.next - 1] == '=';
        Outcome(rest.value, VarTable.Set(rest.table, f.lvname, rest.value))
  }

  /** A group is evaluated on its own and used as an operand; `next` is
      where its `(` token ends. */
  function Parenthesised(line: string, next: nat, f: Frame, t: VarTable.Table): (o: Outcome)
    requires ValidLine(line) && 0 < next <= |line|
    ensures Leaves(line, t, o.table)
    decreases |line|, 0, |line| - next, 5
  {
    match Group(line, next)
    case Unclosed => Outcome(0, t)
    case Closed(sub, after) =>
      GroupText(line, next);
      var inner := Evaluate(sub, t);
      var o := Continue(line, after, Settle(f.(result := inner.value)), inner.table);
      o
  }
}

=== FILE: jodycalc_groups.dfy ===
/** Parenthesised groups in the jodycalc.c model: a group ends at the first
    `)` token, with no nesting depth; its token texts are evaluated on their
    own and the value is used as an operand. */
module JodyCalcGroups {
  import opened Common
  import opened CArith
  import opened Chains
  import opened JodyCalc
  import opened JodyCalcProps
  import VarTable

  /** Blanks at the start of a line are blanks of the line. */
  lemma LeadBlanks(line: string, lead: string, rest: string)
    requires line == lead + rest && AllBlank(lead)
    ensures Blanks(line, 0, |lead|) && HasAt(line, |lead|, rest)
  {
    HasAtAppend(lead, rest);
    assert HasAt(line, 0, lead) by {
      forall i | 0 <= i < |lead|
        ensures line[0 + i] == lead[i]
      {
      }
    }
    BlanksAt(line, 0, lead);
  }

  /** The pieces of `(x)` written at `p`: the group's text starts at `k`
      and its `)` stands at `c`. */
  lemma ParenAt(line: string, p: nat, k: nat, c: nat, x: string)
    requires HasAt(line, p, "(" + x + ")") && ValidLine(line) && k == p + 1 && c == k + |x|
    ensures c < |line| && line[p] == '(' && line[c] == ')'
    ensures HasAt(line, k, x) && line[k..c] == x && ValidLine(Strip(x, IsBlank))
  {
    HasAtSplitAt(line, p, "(" + x, ")", c);
    HasAtSplitAt(line, p, "(", x, k);
    HasAtHead(line, p, "(");
    HasAtHead(line, c, ")");
    HasAtSliceAt(line, k, x, c);
    StrippedLine(line, k, c);
  }

  /** At a `(` the loop hands over to the group whose text starts at `k`. */
  lemma {:induction false} ParenRun(line: string, pos: nat, p: nat, k: nat, f: Frame, t: VarTable.Table)
    requires ValidLine(line) && pos <= p < |line| && Blanks(line, pos, p) && line[p] == '(' && k == p + 1
    ensures Run(line, pos, f, t) == Parenthesised(line, k, f, t)
  {
    ReadsParen(line, pos, p);
    assert Run(line, pos, f, t) == Dispatch(line, pos, ReadTok(line, pos), f, t);
  }

  /** A group that closes at `after`: its text is evaluated, and the loop
      goes on after it with the value placed as an operand. */
  lemma ClosedGroup(line: string, k: nat, f: Frame, t: VarTable.Table, sub: string, after: nat)
    requires ValidLine(line) && 0 < k <= |line|
    requires Group(line, k) == Closed(sub, after)
    ensures ValidLine(sub)
    ensures Parenthesised(line, k, f, t) ==
      Continue(line, after, Settle(f.(result := Evaluate(sub, t).value)), Evaluate(sub, t).table)
  {
    GroupText(line, k);
  }

  /** A `(` at `p` whose group closes with the last character of the line,
      where an operand is expected: the value of the group's text is placed
      as the operand, and the evaluation of the text may have changed the
      variable list. A group with an unreadable token gives 0. */
  lemma {:induction false} GroupAtEnd(line: string, pos: nat, p: nat, k: nat, x: string, f: Frame, t: VarTable.Table)
    requires After(line, pos, p, "(" + x + ")") && k == p + 1 && k + |x| + 1 == |line| && ')' !in x
    requires Expecting(f)
    ensures ValidLine(Strip(x, IsBlank))
    ensures Group(line, k).Unclosed? ==> Run(line, pos, f, t) == Outcome(0, t)
    ensures Group(line, k).Closed? ==>
      Run(line, pos, f, t) ==
      Outcome(Placed(f, Signed(f.neg, Evaluate(Strip(x, IsBlank), t).value)), Evaluate(Strip(x, IsBlank), t).table)
  {
    var c := k + |x|;
    ParenAt(line, p, k, c, x);
    ParenRun(line, pos, p, k, f, t);
    GroupShape(line, k);
    ClosesAtParen(line, k, c, x, Group(line, k), IsBlank);
    match Group(line, k)
    case Unclosed =>
    case Closed(sub, after) =>
      ClosedGroup(line, k, f, t, sub, after);
      var inner := Evaluate(sub, t);
      RunEnd(line, Settle(f.(result := inner.value)).value, inner.table);
  }

  /** A line that is one group: its value and variable list are those of
      the group's text on its own. */
  lemma EvaluateGroup(lead: string, x: string, t: VarTable.Table)
    requires ValidLine(lead + "(" + x + ")") && AllBlank(lead) && ')' !in x
    ensures ValidLine(Strip(x, IsBlank))
    ensures Group(lead + "(" + x + ")", |lead| + 1).Unclosed? ==> Evaluate(lead + "(" + x + ")", t) == Outcome(0, t)
    ensures Group(lead + "(" + x + ")", |lead| + 1).Closed? ==>
      Evaluate(lead + "(" + x + ")", t) == Evaluate(Strip(x, IsBlank), t)
  {
    var line := lead + "(" + x + ")";
    LeadBlanks(line, lead, "(" + x + ")");
    GroupAtEnd(line, 0, |lead|, |lead| + 1, x, Start, t);
  }

  /** `()` is worth 0. */
  lemma EmptyGroup(lead: string, t: VarTable.Table)
    requires ValidLine(lead + "()") && AllBlank(lead)
    ensures Evaluate(lead + "()", t) == Outcome(0, t)
  {
    var line := lead + "()";
    assert line == lead + "(" + [] + ")";
    EvaluateGroup(lead, [], t);
    LeadBlanks(line, lead, "()");
    assert line[|lead| + 1] == "()"[1];
    ReadsParen(line, |lead| + 1, |lead| + 1);
    assert Group(line, |lead| + 1).Closed?;
    assert Strip([], IsBlank) == [];
  }

  /** Tokens with no `)` after them never close a group. */
  lemma NeverCloses(line: string, k: nat)
    requires ValidLine(line) && k <= |line|
    requires forall i | k <= i < |line| :: line[i] != ')'
    ensures Group(line, k).Unclosed?
  {
    GroupShape(line, k);
  }

  /** A `(` with no `)` anywhere after it stops the line with 0. */
  lemma {:induction false} Unclosed(line: string, pos: nat, p: nat, f: Frame, t: VarTable.Table)
    requires ValidLine(line) && pos <= p < |line| && Blanks(line, pos, p) && line[p] == '('
    requires forall i | p < i < |line| :: line[i] != ')'
    ensures Run(line, pos, f, t) == Outcome(0, t)
  {
    var k := p + 1;
    NeverCloses(line, k);
    ParenRun(line, pos, p, k, f, t);
  }

  /** A `)` where no group is open stops the line with 0. */
  lemma {:induction false} StrayClose(line: string, pos: nat, p: nat, f: Frame, t: VarTable.Table)
    requires ValidLine(line) && pos <= p < |line| && Blanks(line, pos, p) && line[p] == ')'
    ensures Run(line, pos, f, t) == Outcome(0, t)
  {
    ReadsParen(line, pos, p);
  }

  /** The text of a group that holds a `(` but no `)` never closes. */
  lemma OpenOnly(x: string, t: VarTable.Table)
    requires ValidLine(Strip("(" + x, IsBlank)) && ')' !in x
    ensures Evaluate(Strip("(" + x, IsBlank), t) == Outcome(0, t)
  {
    var sub := Strip("(" + x, IsBlank);
    assert ("(" + x)[1..] == x;
    assert sub == "(" + Strip(x, IsBlank);
    StripKeeps(x, IsBlank, ')');
    Unclosed(sub, 0, 0, Start, t);
  }

  /** Groups do not nest: in `((x))` the outer group ends at the first `)`,
      so its text `(x` never closes and is worth 0, and the second `)` then
      stands outside any group. */
  lemma NestedGroup(lead: string, x: string, t: VarTable.Table)
    requires ValidLine(lead + "((" + x + "))") && AllBlank(lead) && ')' !in x
    ensures Evaluate(lead + "((" + x + "))", t) == Outcome(0, t)
  {
    var line, p := lead + "((" + x + "))", |lead|;
    var k, y := p + 1, "(" + x;
    assert line == lead + ("(" + y + ")" + ")");
    LeadBlanks(line, lead, "(" + y + ")" + ")");
    var c := k + |y|;
    HasAtSplitAt(line, p, "(" + y + ")", ")", c + 1);
    HasAtHead(line, c + 1, ")");
    ParenAt(line, p, k, c, y);
    ParenRun(line, 0, p, k, Start, t);
    GroupShape(line, k);
    ClosesAtParen(line, k, c, y, Group(line, k), IsBlank);
    match Group(line, k)
    case Unclosed =>
    case Closed(sub, after) =>
      ClosedGroup(line, k, Start, t, sub, after);
      OpenOnly(x, t);
      StrayClose(line, after, after, Settle(Start.(result := 0)).value, t);
  }

  /** The pieces of a chain's tail `sep op sep (x)`, where a tokenizer
      finds them: blanks from `e`, the operator at `q`, blanks, the `(` at
      `p`, and the group's text from `k` to the end of the line but one. */
  lemma OperatorGroupAt(line: string, e: nat, q: nat, p: nat, k: nat, sep: string, op: char, x: string)
    requires HasAt(line, e, sep + [op] + sep + ("(" + x + ")")) && e + |sep + [op] + sep + ("(" + x + ")")| == |line|
    requires q == e + |sep| && p == q + 1 + |sep| && k == |line| - |x| - 1
    requires AllBlank(sep) && ValidLine(line) && IsOp(op)
    ensures e <= q < |line| && Blanks(line, e, q) && line[q] == op && IsOp(line[q])
    ensures After(line, q + 1, p, "(" + x + ")") && k == p + 1 && k + |x| + 1 == |line|
    ensures Stops(At(sep + [op] + sep + ("(" + x + ")"), 0))
  {
    var tail := sep + [op] + sep + ("(" + x + ")");
    HasAtSplit(line, e, sep + [op] + sep, "(" + x + ")");
    HasAtSplit(line, e, sep + [op], sep);
    HasAtSplit(line, e, sep, [op]);
    assert line[e + |sep| + 0] == [op][0];
    BlanksAt(line, e, sep);
    BlanksAt(line, e + |sep| + 1, sep);
    if sep != [] {
      assert tail[0] == sep[0];
    }
  }

  /** After a placed value, an operator makes its operation pending. */
  lemma {:induction false} RunOperator(line: string, e: nat, q: nat, f: Frame, t: VarTable.Table)
    requires ValidLine(line) && e <= q < |line| && Blanks(line, e, q) && IsOp(line[q])
    requires f.lset && f.op.None? && f.lvar != Unbound
    ensures Run(line, e, f, t) == Run(line, q + 1, f.(op := Some(line[q])), t)
  {
    ReadsOperator(line, e, q);
    StepRun(line, e, f, t);
    assert Step(ReadTok(line, e), f, t) == Some(f.(op := Some(line[q])));
  }

  /** After an unbound first variable, an operator stops the line with 0. */
  lemma RunUnboundOperator(line: string, e: nat, q: nat, f: Frame, t: VarTable.Table)
    requires ValidLine(line) && e <= q < |line| && Blanks(line, e, q) && IsOp(line[q])
    requires f.lvar == Unbound
    ensures Run(line, e, f, t) == Outcome(0, t)
  {
    ReadsOperator(line, e, q);
    StepRun(line, e, f, t);
    assert Step(ReadTok(line, e), f, t).None?;
  }

  /** A chain followed by an operator that ends the line is worth the
      chain's value: the operator stays pending when the loop runs out of
      line, and the result so far is returned. */
  lemma DanglingOperator(lead: string, head: Term, links: seq<Link>, sep: string, op: char, t: VarTable.Table)
    requires ValidLine(lead + ChainText(head, links, sep) + (sep + [op]))
    requires AllBlank(lead) && AllBlank(sep) && WellFormedTerm(head) && WellFormedLinks(links) && IsOp(op)
    requires ChainValue(head, links, t).Some?
    ensures Evaluate(lead + ChainText(head, links, sep) + (sep + [op]), t) == Outcome(ChainValue(head, links, t).value, t)
  {
    var chain, tail := ChainText(head, links, sep), sep + [op];
    var line := lead + chain + tail;
    var e := |lead| + |chain|;
    var q := e + |sep|;
    OperatorTailAt(line, lead + chain, sep, op, e, q);
    assert Evaluate(line, t) == Run(line, 0, Start, t);
    RunChain(line, lead, head, links, sep, tail, e, t);
    ChainSteps(|lead|, head, links, sep, t);
    var g := Steps(ChainScans(|lead|, head, links, sep), Start, t).value;
    OperatorAtEnd(line, e, q, g, ChainValue(head, links, t).value, t);
  }

  /** The pieces of `sep op` ending a line. */
  lemma OperatorTailAt(line: string, prefix: string, sep: string, op: char, e: nat, q: nat)
    requires line == prefix + (sep + [op]) && e == |prefix| && q == e + |sep| && AllBlank(sep) && IsOp(op)
    ensures q + 1 == |line| && Blanks(line, e, q) && line[q] == op
    ensures Stops(At(sep + [op], 0))
  {
    var tail := sep + [op];
    assert tail[0] in " \t" || tail[0] == op;
    HasAtTail(line, prefix, tail, e);
    HasAtSplit(line, e, sep, [op]);
    BlanksAt(line, e, sep);
    assert line[q + 0] == [op][0];
  }

  /** The loop at an operator that ends the line, after a placed value. */
  lemma OperatorAtEnd(line: string, e: nat, q: nat, g: Frame, v: int, t: VarTable.Table)
    requires ValidLine(line) && e <= q && q + 1 == |line| && Blanks(line, e, q) && IsOp(line[q])
    requires Settled(g, v)
    ensures Run(line, e, g, t) == Outcome(v, t)
  {
    RunOperator(line, e, q, g, t);
    RunEnd(line, g.(op := Some(line[q])), t);
  }

  /** A group that ends the line, as the right operand of a pending
      operation; a sign written before the group applies to its value. */
  lemma GroupOperand(line: string, pos: nat, p: nat, k: nat, x: string, f: Frame, t: VarTable.Table)
    requires After(line, pos, p, "(" + x + ")") && k == p + 1 && k + |x| + 1 == |line| && ')' !in x
    requires f.lset && f.op.Some? && f.lvar != Unbound
    ensures ValidLine(Strip(x, IsBlank))
    ensures Group(line, k).Unclosed? ==> Run(line, pos, f, t) == Outcome(0, t)
    ensures Group(line, k).Closed? ==>
      Run(line, pos, f, t) ==
      Outcome(DoOperation(f.lvalue, Signed(f.neg, Evaluate(Strip(x, IsBlank), t).value), f.op.value),
              Evaluate(Strip(x, IsBlank), t).table)
  {
    GroupAtEnd(line, pos, p, k, x, f, t);
  }

  /** The loop at an operator followed by a group that ends the line: the
      group's value is the right operand of the operation. */
  lemma {:induction false} RunOperatorGroup(line: string, e: nat, q: nat, p: nat, k: nat, x: string, f: Frame, t: VarTable.Table)
    requires ValidLine(line) && e <= q < |line| && Blanks(line, e, q) && IsOp(line[q])
    requires After(line, q + 1, p, "(" + x + ")") && k == p + 1 && k + |x| + 1 == |line| && ')' !in x
    requires Settled(f, f.lvalue)
    ensures ValidLine(Strip(x, IsBlank))
    ensures Group(line, k).Unclosed? ==> Run(line, e, f, t) == Outcome(0, t)
    ensures Group(line, k).Closed? ==>
      Run(line, e, f, t) ==
      Outcome(DoOperation(f.lvalue, Evaluate(Strip(x, IsBlank), t).value, line[q]), Evaluate(Strip(x, IsBlank), t).table)
  {
    RunOperator(line, e, q, f, t);
    GroupOperand(line, q + 1, p, k, x, f.(op := Some(line[q])), t);
  }

  /** A group after an operator is the operator's right operand: the chain
      before it is folded, and its value combined with the group's. The
      group's text starts at `k`, just after its `(`. */
  lemma ChainThenGroup(line: string, lead: string, head: Term, links: seq<Link>, sep: string, op: char, x: string, k: nat, t: VarTable.Table)
    requires line == lead + ChainText(head, links, sep) + (sep + [op] + sep + ("(" + x + ")"))
    requires ValidLine(line) && AllBlank(lead) && AllBlank(sep) && IsOp(op) && ')' !in x
    requires WellFormedTerm(head) && WellFormedLinks(links)
    requires k == |line| - |x| - 1
    ensures ValidLine(Strip(x, IsBlank))
    ensures ChainValue(head, links, t).None? ==> Evaluate(line, t) == Outcome(0, t)
    ensures Group(line, k).Unclosed? ==> Evaluate(line, t) == Outcome(0, t)
    ensures ChainValue(head, links, t).Some? && Group(line, k).Closed? ==>
      Evaluate(line, t) ==
      Outcome(DoOperation(ChainValue(head, links, t).value, Evaluate(Strip(x, IsBlank), t).value, op),
              Evaluate(Strip(x, IsBlank), t).table)
  {
    var chain, tail := ChainText(head, links, sep), sep + [op] + sep + ("(" + x + ")");
    var e := |lead| + |chain|;
    var q := e + |sep|;
    var p := q + 1 + |sep|;
    HasAtTail(line, lead + chain, tail, e);
    OperatorGroupAt(line, e, q, p, k, sep, op, x);
    ParenAt(line, p, k, k + |x|, x);
    if ChainValue(head, links, t).Some? {
      BoundChainThenGroup(line, lead, head, links, sep, tail, e, q, p, k, x, t);
    } else {
      UnboundChainThenOperator(line, lead, head, links, sep, tail, e, q, t);
    }
  }

  /** The chain's tokens leave its value placed, and the operator and the
      group after it finish the line. */
  lemma BoundChainThenGroup(line: string, lead: string, head: Term, links: seq<Link>, sep: string, tail: string,
                            e: nat, q: nat, p: nat, k: nat, x: string, t: VarTable.Table)
    requires line == lead + ChainText(head, links, sep) + tail && ValidLine(line)
    requires e == |lead| + |ChainText(head, links, sep)| && e <= q < |line| && Blanks(line, e, q) && IsOp(line[q])
    requires After(line, q + 1, p, "(" + x + ")") && k == p + 1 && k + |x| + 1 == |line| && ')' !in x
    requires AllBlank(lead) && AllBlank(sep) && WellFormedTerm(head) && WellFormedLinks(links) && Stops(At(tail, 0))
    requires ChainValue(head, links, t).Some?
    ensures ValidLine(Strip(x, IsBlank))
    ensures Group(line, k).Unclosed? ==> Evaluate(line, t) == Outcome(0, t)
    ensures Group(line, k).Closed? ==>
      Evaluate(line, t) ==
      Outcome(DoOperation(ChainValue(head, links, t).value, Evaluate(Strip(x, IsBlank), t).value, line[q]),
              Evaluate(Strip(x, IsBlank), t).table)
  {
    RunChain(line, lead, head, links, sep, tail, e, t);
    ChainSteps(|lead|, head, links, sep, t);
    var g := Steps(ChainScans(|lead|, head, links, sep), Start, t).value;
    RunOperatorGroup(line, e, q, p, k, x, g, t);
  }

  /** A chain that holds an unbound variable, followed by an operator, makes
      the line worth 0: either the chain's own tokens stop the loop, or the
      operator after a lone unbound variable does. */
  lemma UnboundChainThenOperator(line: string, lead: string, head: Term, links: seq<Link>, sep: string, tail: string,
                                 e: nat, q: nat, t: VarTable.Table)
    requires line == lead + ChainText(head, links, sep) + tail && ValidLine(line)
    requires e == |lead| + |ChainText(head, links, sep)| && e <= q < |line| && Blanks(line, e, q) && IsOp(line[q])
    requires AllBlank(lead) && AllBlank(sep) && WellFormedTerm(head) && WellFormedLinks(links) && Stops(At(tail, 0))
    requires ChainValue(head, links, t).None?
    ensures Evaluate(line, t) == Outcome(0, t)
  {
    RunChain(line, lead, head, links, sep, tail, e, t);
    ChainSteps(|lead|, head, links, sep, t);
    if Steps(ChainScans(|lead|, head, links, sep), Start, t).Some? {
      RunUnboundOperator(line, e, q, Steps(ChainScans(|lead|, head, links, sep), Start, t).value, t);
    }
  }
  /** Tokens read from `k`, followed by blanks and a `)`, close the group
      that starts at `k`. */
  lemma {:induction false} TokensClose(line: string, k: nat, toks: seq<Scan>, e: nat, c: nat)
    requires Tokenizes(line, k, toks) && ChainTokens(toks) && e == EndOf(k, toks)
    requires e <= c < |line| && Blanks(line, e, c) && line[c] == ')'
    ensures Group(line, k).Closed?
    decreases |toks|
  {
    if toks == [] {
      ReadsParen(line, k, c);
    } else {
      var s := toks[0];
      ReadsTail(Reader(line), k, toks);
      ReaderAt(line, k);
      assert ReadTok(line, k) == s;
      assert !IsDigit(')') && !IsLower(')') && !IsOp(')');
      assert s.text != ")";
      TokensClose(line, s.next, toks[1..], e, c);
    }
  }

  /** A group whose text is a chain between blanks closes at the `)` after
      it, and hands on the chain without blanks. */
  lemma GroupOfChain(line: string, k: nat, c: nat, a: string, head: Term, links: seq<Link>, sep: string, b: string)
    requires ValidLine(line) && HasAt(line, k, a + ChainText(head, links, sep) + b)
    requires c == k + |a + ChainText(head, links, sep) + b| && c < |line| && line[c] == ')'
    requires AllBlank(a) && AllBlank(b) && AllBlank(sep) && WellFormedTerm(head) && WellFormedLinks(links)
    ensures Group(line, k) == Closed(ChainText(head, links, []), c + 1)
  {
    var chain := ChainText(head, links, sep);
    var p := k + |a|;
    var e := p + |chain|;
    HasAtSplitAt(line, k, a + chain, b, e);
    HasAtSplitAt(line, k, a, chain, p);
    BlanksAt(line, k, a);
    BlanksAt(line, e, b);
    assert Stops(At(line, e)) by {
      if b != [] {
        HasAtHead(line, e, b);
      }
    }
    ChainReadAt(line, k, p, head, links, sep);
    ChainSteps(p, head, links, sep, []);
    TokensClose(line, k, ChainScans(p, head, links, sep), e, c);
    StripPadded(a, head, links, sep, b, IsBlank);
    GroupShape(line, k);
    ClosesAtParen(line, k, c, a + chain + b, Group(line, k), IsBlank);
  }

  /** A chain written without blanks is worth its value. */
  lemma EvaluateBareChain(head: Term, links: seq<Link>, t: VarTable.Table)
    requires ValidLine(ChainText(head, links, [])) && WellFormedTerm(head) && WellFormedLinks(links)
    ensures Evaluate(ChainText(head, links, []), t) == Outcome(OrZero(ChainValue(head, links, t)), t)
  {
    assert [] + ChainText(head, links, []) == ChainText(head, links, []);
    EvaluateChain([], head, links, [], t);
  }

  /** A line that is one group holding a chain is worth the chain's value,
      and leaves the variable list as it was. */
  lemma EvaluateChainGroup(lead: string, a: string, head: Term, links: seq<Link>, sep: string, b: string, t: VarTable.Table)
    requires ValidLine(lead + "(" + (a + ChainText(head, links, sep) + b) + ")")
    requires AllBlank(lead) && AllBlank(a) && AllBlank(b) && AllBlank(sep)
    requires WellFormedTerm(head) && WellFormedLinks(links)
    ensures Evaluate(lead + "(" + (a + ChainText(head, links, sep) + b) + ")", t) ==
      Outcome(OrZero(ChainValue(head, links, t)), t)
  {
    var x := a + ChainText(head, links, sep) + b;
    var line := lead + "(" + x + ")";
    var k := |lead| + 1;
    LeadBlanks(line, lead, "(" + x + ")");
    ParenAt(line, |lead|, k, k + |x|, x);
    GroupOfChain(line, k, k + |x|, a, head, links, sep, b);
    StripPadded(a, head, links, sep, b, IsBlank);
    EvaluateGroup(lead, x, t);
    EvaluateBareChain(head, links, t);
  }

  /** `chain op (inner)`, where the group holds a second chain between
      blanks: do_operation on the two chains' values, with the variable list
      left as it was. */
  lemma ChainOpChainGroup(line: string, lead: string, head: Term, links: seq<Link>, sep: string, op: char,
                          a: string, head2: Term, links2: seq<Link>, sep2: string, b: string, t: VarTable.Table)
    requires line == lead + ChainText(head, links, sep) + (sep + [op] + sep + ("(" + (a + ChainText(head2, links2, sep2) + b) + ")"))
    requires ValidLine(line) && AllBlank(lead) && AllBlank(sep) && IsOp(op)
    requires AllBlank(a) && AllBlank(b) && AllBlank(sep2)
    requires WellFormedTerm(head) && WellFormedLinks(links)
    requires WellFormedTerm(head2) && WellFormedLinks(links2)
    ensures ChainValue(head, links, t).None? ==> Evaluate(line, t) == Outcome(0, t)
    ensures ChainValue(head, links, t).Some? ==>
      Evaluate(line, t) == Outcome(DoOperation(ChainValue(head, links, t).value, OrZero(ChainValue(head2, links2, t)), op), t)
  {
    var x := a + ChainText(head2, links2, sep2) + b;
    var k := |line| - |x| - 1;
    assert Group(line, k).Closed? && Strip(x, IsBlank) == ChainText(head2, links2, []) && ')' !in x by {
      var front := lead + ChainText(head, links, sep) + (sep + [op] + sep);
      assert line == front + ("(" + x + ")");
      FinalParen(line, front, x);
      GroupOfChain(line, k, |line| - 1, a, head2, links2, sep2, b);
      SharedChain(links2);
      StripPadded(a, head2, links2, sep2, b, IsBlank);
    }
    ChainThenGroup(line, lead, head, links, sep, op, x, k, t);
    EvaluateBareChain(head2, links2, t);
  }
}

=== FILE: jodycalc_props.dfy ===
/** Properties of the jodycalc.c model: what readtok reads at a position,
    the evaluation of operator chains against a reference left fold,
    comparisons, assignment, and parenthesised groups. */
module JodyCalcProps {
  import opened Common
  import opened CArith
  import opened Chains
  import opened JodyCalc
  import VarTable

  /** Only blanks stand in `line[a..b]`. */
  predicate Blanks(line: string, a: nat, b: nat)
  {
    b <= |line| && forall i | a <= i < b :: IsBlank(line[i])
  }

  predicate AllBlank(sep: string)
  {
    forall i | 0 <= i < |sep| :: IsBlank(sep[i])
  }

  // ----- The tokenizer, position by position -----

  /** After blanks, a maximal run of digits is one number token. */
  lemma ReadsNumber(line: string, pos: nat, p: nat, e: nat)
    requires ValidLine(line) && pos <= p < e <= |line| && Blanks(line, pos, p)
    requires forall i | p <= i < e :: IsDigit(line[i])
    requires !IsDigit(At(line, e))
    ensures ReadTok(line, pos) == Scan(Num, line[p..e], e)
  {
    SpanIs(line, pos, p, IsBlank);
    SpanIs(line, p, e, IsDigit);
  }

  /** After blanks, a maximal run of lower-case letters is one variable token. */
  lemma ReadsName(line: string, pos: nat, p: nat, e: nat)
    requires ValidLine(line) && pos <= p < e <= |line| && Blanks(line, pos, p)
    requires forall i | p <= i < e :: IsLower(line[i])
    requires !IsLower(At(line, e))
    ensures ReadTok(line, pos) == Scan(Var, line[p..e], e)
  {
    SpanIs(line, pos, p, IsBlank);
    SpanIs(line, p, e, IsLower);
  }

  /** After blanks, an operator character is a token on its own. */
  lemma ReadsOperator(line: string, pos: nat, p: nat)
    requires ValidLine(line) && pos <= p < |line| && Blanks(line, pos, p) && IsOp(line[p])
    ensures ReadTok(line, pos) == Scan(Op, [line[p]], p + 1)
  {
    SpanIs(line, pos, p, IsBlank);
  }

  /** After blanks, `(` and `)` are tokens on their own. */
  lemma ReadsParen(line: string, pos: nat, p: nat)
    requires ValidLine(line) && pos <= p < |line| && Blanks(line, pos, p)
    requires line[p] == '(' || line[p] == ')'
    ensures ReadTok(line, pos) == Scan(if line[p] == '(' then Paren else EndParen, [line[p]], p + 1)
  {
    SpanIs(line, pos, p, IsBlank);
  }

  /** After blanks, a comparison spelling is one token, provided a single
      `<` or `>` is not followed by a character that would extend it. */
  lemma ReadsCompare(line: string, pos: nat, p: nat, spelling: string)
    requires ValidLine(line) && pos <= p && Blanks(line, pos, p)
    requires IsCompareSpelling(spelling) && HasAt(line, p, spelling)
    requires |spelling| == 1 ==> At(line, p + 1) !in {'=', '<', '>'}
    ensures ReadTok(line, pos) == Scan(Compare, spelling, p + |spelling|)
  {
    RelationalSpelled(line, p, spelling);
    SpanIs(line, pos, p, IsBlank);
  }

  /** The comparison readtok reads at `p` is the one written there. */
  lemma RelationalSpelled(line: string, p: nat, spelling: string)
    requires ValidLine(line) && IsCompareSpelling(spelling) && HasAt(line, p, spelling)
    requires |spelling| == 1 ==> At(line, p + 1) !in {'=', '<', '>'}
    ensures p < |line| && (line[p] == '!' || line[p] == '=' || line[p] == '<' || line[p] == '>')
    ensures ReadRelational(line, p) == Scan(Compare, spelling, p + |spelling|)
  {
    assert line[p + 0] == spelling[0];
    assert spelling[0] in "=!<>";
    if |spelling| == 2 {
      assert line[p + 1] == spelling[1];
      assert [line[p], line[p + 1]] == spelling;
    } else {
      assert [line[p]] == spelling;
    }
  }

  /** After blanks, an `=` not followed by `=`, `<` or `>` is the
      assignment token. */
  lemma ReadsEqual(line: string, pos: nat, p: nat)
    requires ValidLine(line) && pos <= p < |line| && Blanks(line, pos, p)
    requires line[p] == '=' && At(line, p + 1) !in {'=', '<', '>'}
    ensures ReadTok(line, pos) == Scan(Equal, "=", p + 1)
  {
    SpanIs(line, pos, p, IsBlank);
  }

  /** A `!` not followed by `=` is a comparison token that runs to the next
      space and stops the evaluation with position -1. */
  lemma ReadsBang(line: string, pos: nat, p: nat)
    requires ValidLine(line) && pos <= p < |line| && Blanks(line, pos, p)
    requires line[p] == '!' && At(line, p + 1) != '='
    ensures ReadTok(line, pos) == Scan(Compare, line[p..Span(line, p, NotSpace)], -1)
  {
    SpanIs(line, pos, p, IsBlank);
  }

  /** After blanks, any other character, or the end of the line, is invalid. */
  lemma ReadsInvalid(line: string, pos: nat, p: nat)
    requires ValidLine(line) && pos <= p <= |line| && Blanks(line, pos, p)
    requires !StartsToken(At(line, p)) && !IsBlank(At(line, p))
    ensures ReadTok(line, pos) == Scan(Invalid, "", -1)
  {
    if pos < |line| {
      SpanIs(line, pos, p, IsBlank);
    }
  }

  // ----- Operator chains -----

  predicate WellFormedLinks(links: seq<Link>)
  {
    forall i | 0 <= i < |links| :: IsOp(links[i].op) && WellFormedTerm(links[i].term)
  }

  /** The value an operand stands for, before signs: None when it names an
      unbound variable. */
  function OperandValue(x: Operand, t: VarTable.Table): Option<int>
    requires WellFormedOperand(x)
  {
    match x
    case Lit(digits) => Some(DecimalValue(digits))
    case Name(id) => VarTable.Get(t, id)
  }

  /** The value of a term against table `t`: its operand under the last
      sign written. */
  function TermValue(x: Term, t: VarTable.Table): Option<int>
    requires WellFormedTerm(x)
  {
    match OperandValue(x.operand, t)
    case None => None
    case Some(v) => Some(Signed(SignAfter(x.signs, NoSign), v))
  }

  /** Reference semantics of a chain without precedence: a left fold with
      do_operation, None as soon as a variable is unbound. */
  function Fold(acc: int, links: seq<Link>, t: VarTable.Table): Option<int>
    requires WellFormedLinks(links)
    decreases |links|
  {
    if links == [] then Some(acc)
    else
      match TermValue(links[0].term, t)
      case None => None
      case Some(v) => Fold(DoOperation(acc, v, links[0].op), links[1..], t)
  }

  function ChainValue(head: Term, links: seq<Link>, t: VarTable.Table): Option<int>
    requires WellFormedTerm(head) && WellFormedLinks(links)
  {
    match TermValue(head, t)
    case None => None
    case Some(v) => Fold(v, links, t)
  }

  /** The number the calculator prints for a reference value: errors are 0. */
  function OrZero(v: Option<int>): int
  {
    match v
    case None => 0
    case Some(n) => n
  }

  /** The evaluator expects an operand: the first one of the line, or the
      right operand of a pending operator. */
  predicate Expecting(f: Frame)
  {
    (!f.lset && f.op.None? && f.lvar == NotVar && f.result == 0) || (f.lset && f.op.Some? && f.lvar != Unbound)
  }

  /** What an operand of value `v` becomes where `f` expects it: the left
      value of the line, or the right operand of the pending operation. */
  function Placed(f: Frame, v: int): int
    requires Expecting(f)
  {
    if f.lset then DoOperation(f.lvalue, v, f.op.value) else v
  }

  /** The frame once an operand of value `acc` is placed and nothing is
      pending. */
  predicate Settled(f: Frame, acc: int)
  {
    f.lset && f.op.None? && f.neg == NoSign && f.lvalue == acc && f.result == acc && f.lvar != Unbound
  }

  /** `line[p..]` starts with `x`, and only blanks stand between `pos` and `p`. */
  predicate After(line: string, pos: nat, p: nat, x: string)
  {
    ValidLine(line) && pos <= p && Blanks(line, pos, p) && HasAt(line, p, x)
  }

  /** Blanks written into a line are blanks of the line. */
  lemma BlanksAt(line: string, pos: nat, sep: string)
    requires HasAt(line, pos, sep) && AllBlank(sep)
    ensures Blanks(line, pos, pos + |sep|)
  {
    HasAtClass(line, pos, sep, IsBlank);
  }

  /** A link's text starts with a blank or an operator, either of which ends
      the operand before it. */
  lemma LinkStops(line: string, pos: nat, l: Link, sep: string)
    requires HasAt(line, pos, LinkText(l, sep)) && AllBlank(sep) && IsOp(l.op)
    ensures Stops(At(line, pos))
  {
    LinkAt(line, pos, l, sep);
    if sep != [] {
      assert line[pos + 0] == sep[0];
    }
  }

  // ----- Token lists -----

  /** A number, variable or operator token, as readtok returns it. */
  predicate ChainToken(s: Scan)
  {
    s.next >= 0 &&
    ((s.kind == Num && AllDigits(s.text)) || s.kind == Var || (s.kind == Op && |s.text| == 1))
  }

  predicate ChainTokens(toks: seq<Scan>)
  {
    forall k | 0 <= k < |toks| :: ChainToken(toks[k])
  }

  /** Where the `k`th of `toks` is read: at `pos`, then where the token
      before it ends. */
  function StartOf(pos: nat, toks: seq<Scan>, k: nat): int
    requires k < |toks|
  {
    if k == 0 then pos else toks[k - 1].next
  }

  /** The tokenizer `read`, called at `pos` and then at each position it
      returns, reads `toks`. */
  predicate Reads(read: nat -> Scan, pos: nat, toks: seq<Scan>)
  {
    forall k {:trigger StartOf(pos, toks, k)} | 0 <= k < |toks| :: toks[k].next >= 0 && StartOf(pos, toks, k) >= 0 && read(StartOf(pos, toks, k)) == toks[k]
  }

  /** readtok on `line`. */
  function Reader(line: string): nat -> Scan
  {
    (pos: nat) => if ValidLine(line) then ReadTok(line, pos) else Scan(Invalid, "", -1)
  }

  lemma ReaderAt(line: string, pos: nat)
    requires ValidLine(line)
    ensures Reader(line)(pos) == ReadTok(line, pos)
  {
  }

  predicate Tokenizes(line: string, pos: nat, toks: seq<Scan>)
  {
    ValidLine(line) && pos <= |line| && Reads(Reader(line), pos, toks)
  }

  /** Where reading `toks` from `pos` ends. */
  function EndOf(pos: nat, toks: seq<Scan>): int
  {
    if toks == [] then pos else toks[|toks| - 1].next
  }

  /** The frame once the token loop has taken each token of `toks` in turn;
      None once a step fails. */
  function Steps(toks: seq<Scan>, f: Frame, t: VarTable.Table): Option<Frame>
    requires ChainTokens(toks)
    decreases |toks|
  {
    if toks == [] then Some(f)
    else
      match Step(toks[0], f, t)
      case None => None
      case Some(g) => Steps(toks[1..], g, t)
  }

  lemma EndOfAppend(pos: nat, a: seq<Scan>, b: seq<Scan>)
    requires EndOf(pos, a) >= 0
    ensures EndOf(pos, a + b) == EndOf(EndOf(pos, a), b)
  {
    if b != [] {
      assert (a + b)[|a + b| - 1] == b[|b| - 1];
    } else {
      assert a + b == a;
    }
  }

  lemma ReadsOne(read: nat -> Scan, pos: nat, s: Scan)
    requires read(pos) == s && s.next >= 0
    ensures Reads(read, pos, [s]) && EndOf(pos, [s]) == s.next
  {
  }

  lemma ReadsTail(read: nat -> Scan, pos: nat, toks: seq<Scan>)
    requires Reads(read, pos, toks) && toks != []
    ensures read(pos) == toks[0] && toks[0].next >= 0 && Reads(read, toks[0].next, toks[1..])
    ensures EndOf(toks[0].next, toks[1..]) == EndOf(pos, toks)
  {
    assert StartOf(pos, toks, 0) == pos;
    forall k | 0 <= k < |toks| - 1
      ensures toks[1..][k].next >= 0 && StartOf(toks[0].next, toks[1..], k) >= 0 &&
        read(StartOf(toks[0].next, toks[1..], k)) == toks[1..][k]
    {
      assert toks[1..][k] == toks[k + 1];
      assert StartOf(toks[0].next, toks[1..], k) == StartOf(pos, toks, k + 1);
    }
  }

  lemma ReadsAppend(read: nat -> Scan, pos: nat, a: seq<Scan>, b: seq<Scan>)
    requires Reads(read, pos, a) && EndOf(pos, a) >= 0 && Reads(read, EndOf(pos, a), b)
    ensures Reads(read, pos, a + b)
  {
    forall k | 0 <= k < |a + b|
      ensures (a + b)[k].next >= 0 && StartOf(pos, a + b, k) >= 0 && read(StartOf(pos, a + b, k)) == (a + b)[k]
    {
      if k < |a| {
        assert (a + b)[k] == a[k];
        assert StartOf(pos, a + b, k) == StartOf(pos, a, k);
      } else if k == |a| {
        assert (a + b)[k] == b[0];
        if a != [] {
          assert (a + b)[k - 1] == a[|a| - 1];
        }
        assert StartOf(pos, a + b, k) == StartOf(EndOf(pos, a), b, 0);
      } else {
        assert (a + b)[k] == b[k - |a|];
        assert (a + b)[k - 1] == b[k - |a| - 1];
        assert StartOf(pos, a + b, k) == StartOf(EndOf(pos, a), b, k - |a|);
      }
    }
  }

  /** Reading `a` and then, where it ends at `mid`, reading `b`. */
  lemma ReadsThen(read: nat -> Scan, pos: nat, mid: int, a: seq<Scan>, b: seq<Scan>, c: seq<Scan>)
    requires Reads(read, pos, a) && EndOf(pos, a) == mid && mid >= 0 && Reads(read, mid, b) && c == a + b
    ensures Reads(read, pos, c) && EndOf(pos, c) == EndOf(mid, b)
  {
    ReadsAppend(read, pos, a, b);
    EndOfAppend(pos, a, b);
  }

  lemma {:induction false} StepsAppend(a: seq<Scan>, b: seq<Scan>, f: Frame, t: VarTable.Table)
    requires ChainTokens(a) && ChainTokens(b)
    ensures ChainTokens(a + b)
    ensures Steps(a + b, f, t) ==
      match Steps(a, f, t)
      case None => None
      case Some(g) => Steps(b, g, t)
    decreases |a|
  {
    assert ChainTokens(a + b) by {
      forall k | 0 <= k < |a + b|
        ensures ChainToken((a + b)[k])
      {
        if k < |a| {
          assert (a + b)[k] == a[k];
        } else {
          assert (a + b)[k] == b[k - |a|];
        }
      }
    }
    if a == [] {
      assert a + b == b;
    } else {
      assert (a + b)[1..] == a[1..] + b;
      assert (a + b)[0] == a[0];
      match Step(a[0], f, t)
      case None =>
      case Some(g) =>
        StepsAppend(a[1..], b, g, t);
    }
  }

  /** At a number, variable or operator token the loop takes the step of
      that token. */
  lemma StepRun(line: string, pos: nat, f: Frame, t: VarTable.Table)
    requires ValidLine(line) && pos <= |line| && ChainToken(ReadTok(line, pos))
    ensures Run(line, pos, f, t) == Continue(line, ReadTok(line, pos).next, Step(ReadTok(line, pos), f, t), t)
  {
    var s := ReadTok(line, pos);
    assert Run(line, pos, f, t) == Dispatch(line, pos, s, f, t);
  }

  /** The token loop over a list of number, variable and operator tokens
      goes on from their end with the frame their steps leave, or ends the
      line with 0 once a step fails; the variable list is not touched. */
  lemma {:induction false} RunSteps(line: string, pos: nat, f: Frame, t: VarTable.Table, toks: seq<Scan>)
    requires Tokenizes(line, pos, toks) && ChainTokens(toks)
    ensures Steps(toks, f, t).None? ==> Run(line, pos, f, t) == Outcome(0, t)
    ensures Steps(toks, f, t).Some? ==>
      0 <= EndOf(pos, toks) <= |line| &&
      Run(line, pos, f, t) == Run(line, EndOf(pos, toks), Steps(toks, f, t).value, t)
    decreases |toks|
  {
    if toks != [] {
      var s := toks[0];
      ReadsTail(Reader(line), pos, toks);
      ReaderAt(line, pos);
      StepRun(line, pos, f, t);
      assert ChainTokens(toks[1..]) by {
        forall k | 0 <= k < |toks| - 1
          ensures ChainToken(toks[1..][k])
        {
          assert toks[1..][k] == toks[k + 1];
        }
      }
      match Step(s, f, t)
      case None =>
      case Some(g) =>
        RunSteps(line, s.next, g, t, toks[1..]);
    }
  }

  /** The loop at the end of the line returns the result so far. */
  lemma RunEnd(line: string, f: Frame, t: VarTable.Table)
    requires ValidLine(line)
    ensures Run(line, |line|, f, t) == Outcome(f.result, t)
  {
  }

  // ----- The tokens of a chain -----

  function SignScans(p: nat, signs: string): (r: seq<Scan>)
    ensures |r| == |signs|
    decreases |signs|
  {
    if signs == [] then [] else [Scan(Op, [signs[0]], p + 1)] + SignScans(p + 1, signs[1..])
  }

  function OperandScan(x: Operand, e: nat): Scan
  {
    Scan(if x.Lit? then Num else Var, x.text, e)
  }

  function TermScans(p: nat, x: Term): seq<Scan>
  {
    SignScans(p, x.signs) + [OperandScan(x.operand, p + |TermText(x)|)]
  }

  function LinkScans(p: nat, l: Link, sep: string): seq<Scan>
  {
    [Scan(Op, [l.op], p + |sep| + 1)] + TermScans(p + 2 * |sep| + 1, l.term)
  }

  function LinksScans(p: nat, links: seq<Link>, sep: string): seq<Scan>
    decreases |links|
  {
    if links == [] then []
    else LinkScans(p, links[0], sep) + LinksScans(p + |LinkText(links[0], sep)|, links[1..], sep)
  }

  /** The tokens of a chain written at `p`: for each term its signs as
      operator tokens and its operand, and an operator token per link. */
  function ChainScans(p: nat, head: Term, links: seq<Link>, sep: string): seq<Scan>
  {
    TermScans(p, head) + LinksScans(p + |TermText(head)|, links, sep)
  }

  /** The signs of a term are one operator token each. */
  lemma {:induction false} SignsRead(line: string, pos: nat, p: nat, signs: string)
    requires After(line, pos, p, signs) && AllSigns(signs)
    ensures Tokenizes(line, pos, SignScans(p, signs))
    ensures EndOf(pos, SignScans(p, signs)) == if signs == [] then pos else p + |signs|
    decreases |signs|
  {
    if signs != [] {
      var q := p + 1;
      SignHead(line, pos, p, q, signs);
      ReadsOperator(line, pos, p);
      SignsRead(line, q, q, signs[1..]);
      ReadsCons(line, pos, Scan(Op, [signs[0]], q), SignScans(q, signs[1..]), SignScans(p, signs));
    }
  }

  /** The first sign of a run stands at `p`, the others from `q` on. */
  lemma SignHead(line: string, pos: nat, p: nat, q: nat, signs: string)
    requires After(line, pos, p, signs) && AllSigns(signs) && signs != [] && q == p + 1
    ensures p < |line| && line[p] == signs[0] && IsOp(line[p])
    ensures After(line, q, q, signs[1..]) && AllSigns(signs[1..])
  {
    HasAtHead(line, p, signs);
  }

  /** A token read at `pos`, then `rest` read from where it ends. */
  lemma ReadsCons(line: string, pos: nat, s: Scan, rest: seq<Scan>, c: seq<Scan>)
    requires ValidLine(line) && pos <= |line| && ReadTok(line, pos) == s && s.next >= 0
    requires Reads(Reader(line), s.next, rest) && c == [s] + rest
    ensures Tokenizes(line, pos, c) && EndOf(pos, c) == EndOf(s.next, rest)
  {
    ReaderAt(line, pos);
    ReadsOne(Reader(line), pos, s);
    ReadsThen(Reader(line), pos, s.next, [s], rest, c);
  }

  /** An operand is one number or variable token. */
  lemma OperandRead(line: string, pos: nat, p: nat, x: Operand)
    requires After(line, pos, p, x.text) && WellFormedOperand(x)
    requires Stops(At(line, p + |x.text|))
    ensures Tokenizes(line, pos, [OperandScan(x, p + |x.text|)])
  {
    var txt := x.text;
    var e := p + |txt|;
    HasAtSlice(line, p, txt);
    if x.Lit? {
      HasAtClass(line, p, txt, IsDigit);
      ReadsNumber(line, pos, p, e);
    } else {
      HasAtClass(line, p, txt, IsLower);
      ReadsName(line, pos, p, e);
    }
    ReaderAt(line, pos);
    ReadsOne(Reader(line), pos, OperandScan(x, e));
  }

  /** Where a term's operand stands, and that it is read to its end. */
  lemma OperandAt(line: string, pos: nat, p: nat, x: Term)
    requires After(line, pos, p, TermText(x)) && Stops(At(line, p + |TermText(x)|))
    ensures After(line, if x.signs == [] then pos else p + |x.signs|, p + |x.signs|, x.operand.text)
    ensures After(line, pos, p, x.signs)
    ensures Stops(At(line, p + |x.signs| + |x.operand.text|))
  {
    TermAt(line, p, x);
  }

  /** A term's signs and operand, each read on its own. */
  lemma TermParts(line: string, pos: nat, p: nat, x: Term)
    requires After(line, pos, p, TermText(x)) && WellFormedTerm(x) && Stops(At(line, p + |TermText(x)|))
    ensures Tokenizes(line, pos, SignScans(p, x.signs))
    ensures EndOf(pos, SignScans(p, x.signs)) >= 0
    ensures Tokenizes(line, EndOf(pos, SignScans(p, x.signs)), [OperandScan(x.operand, p + |TermText(x)|)])
  {
    OperandAt(line, pos, p, x);
    SignsRead(line, pos, p, x.signs);
    var e := EndOf(pos, SignScans(p, x.signs));
    if x.signs == [] {
      assert e == pos;
    } else {
      assert e == p + |x.signs|;
    }
    assert p + |x.signs| + |x.operand.text| == p + |TermText(x)|;
    OperandRead(line, e, p + |x.signs|, x.operand);
  }

  lemma TermRead(line: string, pos: nat, p: nat, x: Term)
    requires After(line, pos, p, TermText(x)) && WellFormedTerm(x) && Stops(At(line, p + |TermText(x)|))
    ensures Tokenizes(line, pos, TermScans(p, x))
    ensures EndOf(pos, TermScans(p, x)) == p + |TermText(x)|
  {
    TermParts(line, pos, p, x);
    var a := SignScans(p, x.signs);
    var b := [OperandScan(x.operand, p + |TermText(x)|)];
    ReadsAppend(Reader(line), pos, a, b);
    EndOfAppend(pos, a, b);
  }

  lemma LinkRead(line: string, pos: nat, l: Link, sep: string)
    requires ValidLine(line) && HasAt(line, pos, LinkText(l, sep)) && AllBlank(sep)
    requires IsOp(l.op) && WellFormedTerm(l.term) && Stops(At(line, pos + |LinkText(l, sep)|))
    ensures Tokenizes(line, pos, LinkScans(pos, l, sep))
    ensures EndOf(pos, LinkScans(pos, l, sep)) == pos + |LinkText(l, sep)|
  {
    var o := pos + |sep|;
    var q := o + 1;
    var r := q + |sep|;
    LinkPieces(line, pos, o, q, r, l, sep);
    ReadsOperator(line, pos, o);
    TermRead(line, q, r, l.term);
    ReadsCons(line, pos, Scan(Op, [l.op], q), TermScans(r, l.term), LinkScans(pos, l, sep));
  }

  /** A link written at `pos`: its operator at `o`, its term at `r`. */
  lemma LinkPieces(line: string, pos: nat, o: nat, q: nat, r: nat, l: Link, sep: string)
    requires ValidLine(line) && HasAt(line, pos, LinkText(l, sep)) && AllBlank(sep)
    requires IsOp(l.op) && Stops(At(line, pos + |LinkText(l, sep)|))
    requires o == pos + |sep| && q == o + 1 && r == q + |sep|
    ensures pos <= o < |line| && Blanks(line, pos, o) && line[o] == l.op && IsOp(line[o])
    ensures After(line, q, r, TermText(l.term)) && r + |TermText(l.term)| == pos + |LinkText(l, sep)|
    ensures Stops(At(line, r + |TermText(l.term)|))
    ensures LinkScans(pos, l, sep) == [Scan(Op, [l.op], q)] + TermScans(r, l.term)
  {
    LinkAt(line, pos, l, sep);
    BlanksAt(line, pos, sep);
    BlanksAt(line, q, sep);
  }

  /** The first link of a list and the rest, where a tokenizer finds them;
      the list ends at `e`. */
  lemma LinksParts(line: string, pos: nat, q: nat, e: nat, l: Link, rest: seq<Link>, links: seq<Link>, sep: string)
    requires links != [] && l == links[0] && rest == links[1..] && WellFormedLinks(rest)
    requires HasAt(line, pos, LinksText(links, sep)) && e == pos + |LinksText(links, sep)| && Stops(At(line, e))
    requires AllBlank(sep) && q == pos + |LinkText(l, sep)|
    ensures HasAt(line, pos, LinkText(l, sep)) && Stops(At(line, q))
    ensures HasAt(line, q, LinksText(rest, sep)) && e == q + |LinksText(rest, sep)|
  {
    LinksAt(line, pos, links, sep);
    if rest != [] {
      LinksAt(line, q, rest, sep);
      LinkStops(line, q, rest[0], sep);
    }
  }

  /** This version's links and blanks are among those the shared chain
      lemmas accept. */
  lemma SharedChain(links: seq<Link>)
    requires WellFormedLinks(links)
    ensures PlainLinks(links) && BlankChars(IsBlank)
  {
  }

  lemma WellFormedRest(links: seq<Link>)
    requires links != [] && WellFormedLinks(links)
    ensures IsOp(links[0].op) && WellFormedTerm(links[0].term) && WellFormedLinks(links[1..])
  {
    var rest := links[1..];
    forall i | 0 <= i < |rest|
      ensures IsOp(rest[i].op) && WellFormedTerm(rest[i].term)
    {
      assert rest[i] == links[i + 1];
    }
  }

  /** The first link of a list reads to its tokens, and the rest of the
      list stands where they end. */
  lemma LinkThenRest(line: string, pos: nat, q: nat, e: nat, l: Link, rest: seq<Link>, links: seq<Link>, sep: string)
    requires ValidLine(line) && HasAt(line, pos, LinksText(links, sep)) && AllBlank(sep)
    requires links != [] && l == links[0] && rest == links[1..] && WellFormedLinks(links)
    requires q == pos + |LinkText(l, sep)| && e == pos + |LinksText(links, sep)| && Stops(At(line, e))
    ensures Reads(Reader(line), pos, LinkScans(pos, l, sep)) && EndOf(pos, LinkScans(pos, l, sep)) == q
    ensures HasAt(line, q, LinksText(rest, sep)) && e == q + |LinksText(rest, sep)| && WellFormedLinks(rest)
  {
    WellFormedRest(links);
    LinksParts(line, pos, q, e, l, rest, links, sep);
    LinkRead(line, pos, l, sep);
  }

  lemma {:induction false} LinksRead(line: string, pos: nat, links: seq<Link>, sep: string)
    requires ValidLine(line) && HasAt(line, pos, LinksText(links, sep)) && AllBlank(sep) && WellFormedLinks(links)
    requires Stops(At(line, pos + |LinksText(links, sep)|))
    ensures Tokenizes(line, pos, LinksScans(pos, links, sep))
    ensures EndOf(pos, LinksScans(pos, links, sep)) == pos + |LinksText(links, sep)|
    decreases |links|
  {
    if links != [] {
      var l, rest := links[0], links[1..];
      var q, e := pos + |LinkText(l, sep)|, pos + |LinksText(links, sep)|;
      LinkThenRest(line, pos, q, e, l, rest, links, sep);
      LinksRead(line, q, rest, sep);
      LinksCons(Reader(line), pos, q, l, rest, links, sep);
    }
  }

  /** The tokens of a first link, then those of the other links. */
  lemma LinksCons(read: nat -> Scan, pos: nat, q: nat, l: Link, rest: seq<Link>, links: seq<Link>, sep: string)
    requires links != [] && l == links[0] && rest == links[1..] && q == pos + |LinkText(l, sep)|
    requires Reads(read, pos, LinkScans(pos, l, sep)) && EndOf(pos, LinkScans(pos, l, sep)) == q
    requires Reads(read, q, LinksScans(q, rest, sep))
    ensures Reads(read, pos, LinksScans(pos, links, sep))
    ensures EndOf(pos, LinksScans(pos, links, sep)) == EndOf(q, LinksScans(q, rest, sep))
  {
    ReadsThen(read, pos, q, LinkScans(pos, l, sep), LinksScans(q, rest, sep), LinksScans(pos, links, sep));
  }

  /** Where the pieces of a chain written after blanks `lead`, and followed
      by `tail`, stand: the head at `p`, the links at `e`, the tail at `k`. */
  lemma ChainAt(line: string, lead: string, chain: string, head: Term, links: seq<Link>, sep: string, tail: string,
                p: nat, e: nat, k: nat)
    requires line == lead + chain + tail && chain == ChainText(head, links, sep)
    requires ValidLine(line) && AllBlank(lead) && AllBlank(sep) && WellFormedLinks(links) && Stops(At(tail, 0))
    requires p == |lead| && e == p + |TermText(head)| && k == e + |LinksText(links, sep)|
    ensures After(line, 0, p, TermText(head)) && Stops(At(line, e))
    ensures HasAt(line, e, LinksText(links, sep)) && Stops(At(line, k))
  {
    assert HasAt(line, 0, lead + chain + tail);
    HasAtSplit(line, 0, lead + chain, tail);
    HasAtSplit(line, 0, lead, chain);
    HasAtSplitAt(line, p, TermText(head), LinksText(links, sep), e);
    BlanksAt(line, 0, lead);
    assert At(line, k) == At(tail, 0) by {
      if tail != [] {
        assert line[k + 0] == tail[0];
      }
    }
    if links != [] {
      LinksAt(line, e, links, sep);
      LinkStops(line, e, links[0], sep);
    }
  }

  /** A chain written after blanks `lead`, and followed by a character that
      ends its last operand, reads to its tokens. */
  lemma ChainRead(line: string, lead: string, head: Term, links: seq<Link>, sep: string, tail: string)
    requires line == lead + ChainText(head, links, sep) + tail && ValidLine(line)
    requires AllBlank(lead) && AllBlank(sep)
    requires WellFormedTerm(head) && WellFormedLinks(links) && Stops(At(tail, 0))
    ensures Tokenizes(line, 0, ChainScans(|lead|, head, links, sep))
  {
    var p := |lead|;
    var e := p + |TermText(head)|;
    var a, b := TermScans(p, head), LinksScans(e, links, sep);
    ChainAt(line, lead, ChainText(head, links, sep), head, links, sep, tail, p, e, e + |LinksText(links, sep)|);
    TermRead(line, 0, p, head);
    LinksRead(line, e, links, sep);
    ReadsThen(Reader(line), 0, e, a, b, ChainScans(p, head, links, sep));
  }

  // ----- Where token lists end -----

  /** A chain written at `p`, after blanks from `pos`, and followed by a
      character that ends its last operand, reads to its tokens and ends
      with its text. */
  lemma ChainReadAt(line: string, pos: nat, p: nat, head: Term, links: seq<Link>, sep: string)
    requires ValidLine(line) && pos <= p && Blanks(line, pos, p) && HasAt(line, p, ChainText(head, links, sep))
    requires AllBlank(sep) && WellFormedTerm(head) && WellFormedLinks(links)
    requires Stops(At(line, p + |ChainText(head, links, sep)|))
    ensures Tokenizes(line, pos, ChainScans(p, head, links, sep))
    ensures EndOf(pos, ChainScans(p, head, links, sep)) == p + |ChainText(head, links, sep)|
  {
    var e := p + |TermText(head)|;
    HasAtSplitAt(line, p, TermText(head), LinksText(links, sep), e);
    if links != [] {
      LinksAt(line, e, links, sep);
      LinkStops(line, e, links[0], sep);
    }
    TermRead(line, pos, p, head);
    LinksRead(line, e, links, sep);
    ReadsThen(Reader(line), pos, e, TermScans(p, head), LinksScans(e, links, sep), ChainScans(p, head, links, sep));
    LinksEnd(e, e, links, sep);
  }

  lemma TermEnd(pos: nat, p: nat, x: Term)
    ensures EndOf(pos, TermScans(p, x)) == p + |TermText(x)|
  {
  }

  lemma LinkEnd(pos: nat, p: nat, l: Link, sep: string)
    ensures EndOf(pos, LinkScans(p, l, sep)) == p + |LinkText(l, sep)|
  {
    var r := TermScans(p + 2 * |sep| + 1, l.term);
    assert LinkScans(p, l, sep)[|LinkScans(p, l, sep)| - 1] == r[|r| - 1];
  }

  lemma {:induction false} LinksEnd(pos: nat, p: nat, links: seq<Link>, sep: string)
    ensures EndOf(pos, LinksScans(p, links, sep)) == if links == [] then pos else p + |LinksText(links, sep)|
    decreases |links|
  {
    if links != [] {
      var l, rest := links[0], links[1..];
      var q := p + |LinkText(l, sep)|;
      var a, b := LinkScans(p, l, sep), LinksScans(q, rest, sep);
      assert LinksScans(p, links, sep) == a + b;
      assert |LinksText(links, sep)| == |LinkText(l, sep)| + |LinksText(rest, sep)|;
      LinkEnd(pos, p, l, sep);
      LinksEnd(q, q, rest, sep);
      EndOfAppend(pos, a, b);
    }
  }

  lemma ChainEnd(pos: nat, p: nat, head: Term, links: seq<Link>, sep: string)
    ensures EndOf(pos, ChainScans(p, head, links, sep)) == p + |ChainText(head, links, sep)|
  {
    var e := p + |TermText(head)|;
    TermEnd(pos, p, head);
    LinksEnd(e, e, links, sep);
    EndOfAppend(pos, TermScans(p, head), LinksScans(e, links, sep));
  }

  // ----- What the tokens of a chain do to the frame -----

  /** Signs where an operand is expected only set the sign flag. */
  lemma {:induction false} SignSteps(p: nat, signs: string, f: Frame, t: VarTable.Table)
    requires Expecting(f) && AllSigns(signs)
    ensures ChainTokens(SignScans(p, signs))
    ensures Steps(SignScans(p, signs), f, t) == Some(f.(neg := SignAfter(signs, f.neg)))
    decreases |signs|
  {
    if signs != [] {
      var c := signs[0];
      var s, r := Scan(Op, [c], p + 1), SignScans(p + 1, signs[1..]);
      var g := f.(neg := if c == '+' then Plus else Minus);
      assert Step(s, f, t) == Some(g);
      assert AllSigns(signs[1..]) by {
        forall i | 0 <= i < |signs| - 1
          ensures IsSign(signs[1..][i])
        {
          assert signs[1..][i] == signs[i + 1];
        }
      }
      SignSteps(p + 1, signs[1..], g, t);
      assert ChainTokens([s]);
      StepsAppend([s], r, f, t);
    }
  }

  /** An operand where one is expected is placed: under the pending
      operation, or as the left value. An unbound variable is an error
      after an operator and leaves the line's value at 0 as its first
      operand. */
  lemma OperandStep(x: Operand, e: nat, f: Frame, t: VarTable.Table)
    requires Expecting(f) && WellFormedOperand(x)
    ensures ChainToken(OperandScan(x, e))
    ensures OperandValue(x, t).Some? ==>
      Step(OperandScan(x, e), f, t).Some? &&
      Settled(Step(OperandScan(x, e), f, t).value, Placed(f, Signed(f.neg, OperandValue(x, t).value)))
    ensures OperandValue(x, t).None? && f.lset ==> Step(OperandScan(x, e), f, t).None?
    ensures OperandValue(x, t).None? && !f.lset ==>
      Step(OperandScan(x, e), f, t).Some? &&
      Step(OperandScan(x, e), f, t).value.lvar == Unbound &&
      Step(OperandScan(x, e), f, t).value.lset && Step(OperandScan(x, e), f, t).value.op.None? &&
      Step(OperandScan(x, e), f, t).value.lvalue == 0 &&
      Step(OperandScan(x, e), f, t).value.result == 0
  {
  }

  /** A term where an operand is expected: its signs, then its operand. */
  lemma TermSteps(p: nat, x: Term, f: Frame, t: VarTable.Table)
    requires Expecting(f) && f.neg == NoSign && WellFormedTerm(x)
    ensures ChainTokens(TermScans(p, x))
    ensures TermValue(x, t).Some? ==>
      Steps(TermScans(p, x), f, t).Some? &&
      Settled(Steps(TermScans(p, x), f, t).value, Placed(f, TermValue(x, t).value))
    ensures TermValue(x, t).None? && f.lset ==> Steps(TermScans(p, x), f, t).None?
    ensures TermValue(x, t).None? && !f.lset ==>
      Steps(TermScans(p, x), f, t).Some? &&
      Steps(TermScans(p, x), f, t).value.lvar == Unbound &&
      Steps(TermScans(p, x), f, t).value.lset && Steps(TermScans(p, x), f, t).value.op.None? &&
      Steps(TermScans(p, x), f, t).value.lvalue == 0 &&
      Steps(TermScans(p, x), f, t).value.result == 0
  {
    var e := p + |TermText(x)|;
    var a, o := SignScans(p, x.signs), OperandScan(x.operand, e);
    var g := f.(neg := SignAfter(x.signs, NoSign));
    SignSteps(p, x.signs, f, t);
    OperandStep(x.operand, e, g, t);
    StepsOne(o, g, t);
    StepsThen(a, [o], TermScans(p, x), f, g, t);
  }

  lemma StepsOne(s: Scan, f: Frame, t: VarTable.Table)
    requires ChainToken(s)
    ensures ChainTokens([s]) && Steps([s], f, t) == Step(s, f, t)
  {
  }

  /** The steps of `a` leave `g`, and the steps of `b` go on from there. */
  lemma StepsThen(a: seq<Scan>, b: seq<Scan>, c: seq<Scan>, f: Frame, g: Frame, t: VarTable.Table)
    requires ChainTokens(a) && ChainTokens(b) && c == a + b && Steps(a, f, t) == Some(g)
    ensures ChainTokens(c) && Steps(c, f, t) == Steps(b, g, t)
  {
    StepsAppend(a, b, f, t);
  }

  /** One link after a placed value: its operator becomes pending and its
      term is combined with the value. */
  lemma LinkSteps(p: nat, l: Link, sep: string, f: Frame, acc: int, t: VarTable.Table)
    requires Settled(f, acc) && IsOp(l.op) && WellFormedTerm(l.term)
    ensures ChainTokens(LinkScans(p, l, sep))
    ensures TermValue(l.term, t).None? ==> Steps(LinkScans(p, l, sep), f, t).None?
    ensures TermValue(l.term, t).Some? ==>
      Steps(LinkScans(p, l, sep), f, t).Some? &&
      Settled(Steps(LinkScans(p, l, sep), f, t).value, DoOperation(acc, TermValue(l.term, t).value, l.op))
  {
    var s := Scan(Op, [l.op], p + |sep| + 1);
    var x := TermScans(p + 2 * |sep| + 1, l.term);
    var g := f.(op := Some(l.op));
    assert Step(s, f, t) == Some(g);
    assert Steps([s], f, t) == Some(g);
    assert ChainTokens([s]);
    TermSteps(p + 2 * |sep| + 1, l.term, g, t);
    StepsAppend([s], x, f, t);
    assert LinkScans(p, l, sep) == [s] + x;
  }

  /** Each link after a placed value applies its operator to the value and
      the link's term: the loop folds the chain from the left. */
  lemma {:induction false} LinksSteps(p: nat, links: seq<Link>, sep: string, f: Frame, acc: int, t: VarTable.Table)
    requires Settled(f, acc) && WellFormedLinks(links)
    ensures ChainTokens(LinksScans(p, links, sep))
    ensures Fold(acc, links, t).None? ==> Steps(LinksScans(p, links, sep), f, t).None?
    ensures Fold(acc, links, t).Some? ==>
      Steps(LinksScans(p, links, sep), f, t).Some? &&
      Settled(Steps(LinksScans(p, links, sep), f, t).value, Fold(acc, links, t).value)
    decreases |links|
  {
    if links != [] {
      var l, rest := links[0], links[1..];
      var q := p + |LinkText(l, sep)|;
      var a, b := LinkScans(p, l, sep), LinksScans(q, rest, sep);
      assert LinksScans(p, links, sep) == a + b;
      assert WellFormedLinks(rest) by {
        forall i | 0 <= i < |rest|
          ensures IsOp(rest[i].op) && WellFormedTerm(rest[i].term)
        {
          assert rest[i] == links[i + 1];
        }
      }
      LinkSteps(p, l, sep, f, acc, t);
      match TermValue(l.term, t)
      case None =>
        LinksSteps(q, rest, sep, f, acc, t);
        StepsAppend(a, b, f, t);
      case Some(v) =>
        var w := DoOperation(acc, v, l.op);
        var h := Steps(a, f, t).value;
        LinksSteps(q, rest, sep, h, w, t);
        StepsAppend(a, b, f, t);
        assert Fold(acc, links, t) == Fold(w, rest, t);
    }
  }
  /** The frame after a chain of value `v` (None: a lone unbound variable):
      the left value is set, to the value or to 0, and is the result so far. */
  predicate LeftAfter(g: Frame, v: Option<int>)
  {
    g.lset && g.op.None? && g.result == g.lvalue && g.lvalue == OrZero(v) && (g.lvar == Unbound <==> v.None?)
  }

  /** An unbound first variable admits no operator: the first link stops
      the loop. */
  lemma UnboundLinks(p: nat, links: seq<Link>, sep: string, f: Frame, t: VarTable.Table)
    requires f.lvar == Unbound && links != [] && WellFormedLinks(links)
    requires ChainTokens(LinksScans(p, links, sep))
    ensures Steps(LinksScans(p, links, sep), f, t).None?
  {
    var toks := LinksScans(p, links, sep);
    assert toks == LinkScans(p, links[0], sep) + LinksScans(p + |LinkText(links[0], sep)|, links[1..], sep);
    assert toks[0] == Scan(Op, [links[0].op], p + |sep| + 1);
    assert Step(toks[0], f, t).None?;
  }

  /** The tokens of a whole chain, from the start of a line: the loop ends
      with the chain's value, or stops, or (for a lone unbound variable)
      holds 0. */
  lemma ChainSteps(p: nat, head: Term, links: seq<Link>, sep: string, t: VarTable.Table)
    requires WellFormedTerm(head) && WellFormedLinks(links)
    ensures ChainTokens(ChainScans(p, head, links, sep))
    ensures Steps(ChainScans(p, head, links, sep), Start, t).None? <==>
      ChainValue(head, links, t).None? && links != []
    ensures Steps(ChainScans(p, head, links, sep), Start, t).Some? ==>
      LeftAfter(Steps(ChainScans(p, head, links, sep), Start, t).value, ChainValue(head, links, t))
    ensures ChainValue(head, links, t).Some? ==>
      Settled(Steps(ChainScans(p, head, links, sep), Start, t).value, ChainValue(head, links, t).value)
  {
    var q := p + |TermText(head)|;
    var a, b := TermScans(p, head), LinksScans(q, links, sep);
    assert ChainScans(p, head, links, sep) == a + b;
    TermSteps(p, head, Start, t);
    var h := Steps(a, Start, t).value;
    match TermValue(head, t)
    case Some(v) =>
      LinksSteps(q, links, sep, h, v, t);
      StepsAppend(a, b, Start, t);
    case None =>
      // only for the links being chain tokens: any placed frame will do
      LinksSteps(q, links, sep, Start.(lset := true), 0, t);
      StepsAppend(a, b, Start, t);
      if links == [] {
        assert Steps(b, h, t) == Some(h);
      } else {
        UnboundLinks(q, links, sep, h, t);
      }
  }

  /** The loop over a line that starts with a chain: it stops with 0 when a
      step fails, and otherwise goes on after the chain with the frame the
      chain's tokens leave. */
  lemma RunChain(line: string, lead: string, head: Term, links: seq<Link>, sep: string, tail: string, e: nat, t: VarTable.Table)
    requires line == lead + ChainText(head, links, sep) + tail && ValidLine(line)
    requires e == |lead| + |ChainText(head, links, sep)|
    requires AllBlank(lead) && AllBlank(sep)
    requires WellFormedTerm(head) && WellFormedLinks(links) && Stops(At(tail, 0))
    ensures ChainTokens(ChainScans(|lead|, head, links, sep))
    ensures e <= |line|
    ensures Steps(ChainScans(|lead|, head, links, sep), Start, t).None? ==> Run(line, 0, Start, t) == Outcome(0, t)
    ensures Steps(ChainScans(|lead|, head, links, sep), Start, t).Some? ==>
      Run(line, 0, Start, t) == Run(line, e, Steps(ChainScans(|lead|, head, links, sep), Start, t).value, t)
  {
    var toks := ChainScans(|lead|, head, links, sep);
    ChainSteps(|lead|, head, links, sep, t);
    ChainEnd(0, |lead|, head, links, sep);
    assert EndOf(0, toks) == e;
    ChainRead(line, lead, head, links, sep, tail);
    RunSteps(line, 0, Start, t, toks);
  }

  /** A line holding a chain after blanks `lead`, with blanks `sep` around
      each operator, evaluates to the left fold of the chain, or to 0 when a
      variable in it is unbound; the variable list is left as it was. */
  lemma EvaluateChain(lead: string, head: Term, links: seq<Link>, sep: string, t: VarTable.Table)
    requires ValidLine(lead + ChainText(head, links, sep)) && AllBlank(lead) && AllBlank(sep)
    requires WellFormedTerm(head) && WellFormedLinks(links)
    ensures Evaluate(lead + ChainText(head, links, sep), t) == Outcome(OrZero(ChainValue(head, links, t)), t)
  {
    var line := lead + ChainText(head, links, sep);
    assert line + [] == line;
    RunChain(line, lead, head, links, sep, [], |line|, t);
    ChainSteps(|lead|, head, links, sep, t);
    match Steps(ChainScans(|lead|, head, links, sep), Start, t)
    case None =>
    case Some(g) =>
      RunEnd(line, g, t);
  }
  /** Blanks after a chain make the line worth 0, and leave the variable
      list as it was: after skipping them readtok finds the end of the line
      and reads it as an unknown character. */
  lemma TrailingBlanks(lead: string, head: Term, links: seq<Link>, sep: string, tail: string, t: VarTable.Table)
    requires ValidLine(lead + ChainText(head, links, sep) + tail) && tail != [] && AllBlank(tail)
    requires AllBlank(lead) && AllBlank(sep) && WellFormedTerm(head) && WellFormedLinks(links)
    ensures Evaluate(lead + ChainText(head, links, sep) + tail, t) == Outcome(0, t)
  {
    var line := lead + ChainText(head, links, sep) + tail;
    var e := |lead| + |ChainText(head, links, sep)|;
    assert tail[0] in " \t";
    assert Evaluate(line, t) == Run(line, 0, Start, t);
    RunChain(line, lead, head, links, sep, tail, e, t);
    ChainSteps(|lead|, head, links, sep, t);
    match Steps(ChainScans(|lead|, head, links, sep), Start, t)
    case None =>
    case Some(g) =>
      HasAtTail(line, lead + ChainText(head, links, sep), tail, e);
      BlanksAt(line, e, tail);
      BlanksToEnd(line, e, g, ChainValue(head, links, t), t);
  }

  /** The loop at blanks that run to the end of the line, after a chain:
      0 either way, as the line's value or as the unbound variable's. */
  lemma BlanksToEnd(line: string, e: nat, g: Frame, v: Option<int>, t: VarTable.Table)
    requires ValidLine(line) && e < |line| && Blanks(line, e, |line|) && LeftAfter(g, v)
    ensures Run(line, e, g, t) == Outcome(0, t)
  {
    ReadsInvalid(line, e, |line|);
  }

  /** A line that starts, after blanks, with an operator other than a sign
      is worth 0: there is no left value. */
  lemma NoLeftValue(lead: string, c: char, rest: string, t: VarTable.Table)
    requires ValidLine(lead + [c] + rest) && AllBlank(lead) && IsOp(c) && !IsSign(c)
    ensures Evaluate(lead + [c] + rest, t) == Outcome(0, t)
  {
    var line := lead + [c] + rest;
    var p := |lead|;
    assert line[p] == c;
    BlanksAt(line, 0, lead) by {
      assert HasAt(line, 0, lead + [c] + rest);
      HasAtSplit(line, 0, lead + [c], rest);
      HasAtSplit(line, 0, lead, [c]);
    }
    ReadsOperator(line, 0, p);
    StepRun(line, 0, Start, t);
    assert OperatorFrame(Start, c).None?;
  }

  // ----- Comparison and assignment -----

  /** What follows a position of a line is again a line. */
  lemma SuffixLine(line: string, k: nat)
    requires ValidLine(line) && k <= |line|
    ensures ValidLine(line[k..])
  {
    assert forall i | 0 <= i < |line| - k :: line[k..][i] == line[k + i];
  }

  /** The last pieces of a line: `x` at `k`, then the rest of the line. */
  lemma Behind(line: string, k: nat, x: string, rest: string)
    requires HasAt(line, k, x + rest) && k + |x| + |rest| == |line|
    ensures HasAt(line, k, x) && line[k + |x|..] == rest && At(line, k + |x|) == At(rest, 0)
  {
    HasAtSplit(line, k, x, rest);
    HasAtSlice(line, k + |x|, rest);
    if rest != [] {
      assert line[k + |x| + 0] == rest[0];
    }
  }

  /** The loop at a comparison token, once a left value is set, compares it
      with the value of the rest of the line. */
  lemma RunCompare(line: string, e: nat, sep: string, spelling: string, rest: string, f: Frame, t: VarTable.Table)
    requires ValidLine(line) && HasAt(line, e, sep + (spelling + rest)) && e + |sep| + |spelling| + |rest| == |line|
    requires AllBlank(sep) && f.lset
    requires IsCompareSpelling(spelling) && (|spelling| == 1 ==> At(rest, 0) !in {'=', '<', '>'})
    ensures ValidLine(rest)
    ensures Run(line, e, f, t) ==
      Outcome(CompareValue(spelling, f.lvalue, Evaluate(rest, t).value), Evaluate(rest, t).table)
  {
    var n := e + |sep| + |spelling|;
    ComparePartsRead(line, e, n, sep, spelling, rest);
    RunCompareAt(line, e, n, spelling, rest, f, t);
  }

  /** The pieces of `sep spelling rest` written at `e`, the spelling at `q`
      and the rest at `n`. */
  lemma CompareParts(line: string, e: nat, q: nat, n: nat, sep: string, spelling: string, rest: string)
    requires ValidLine(line) && HasAt(line, e, sep + (spelling + rest)) && e + |sep| + |spelling| + |rest| == |line|
    requires AllBlank(sep) && q == e + |sep| && n == q + |spelling|
    ensures e <= q && Blanks(line, e, q) && HasAt(line, q, spelling)
    ensures n <= |line| && line[n..] == rest && ValidLine(rest) && At(line, n) == At(rest, 0)
  {
    Behind(line, e, sep, spelling + rest);
    Behind(line, q, spelling, rest);
    BlanksAt(line, e, sep);
    SuffixLine(line, n);
  }

  /** The comparison token read at `e`, and the rest of the line after it. */
  lemma ComparePartsRead(line: string, e: nat, n: nat, sep: string, spelling: string, rest: string)
    requires ValidLine(line) && HasAt(line, e, sep + (spelling + rest)) && e + |sep| + |spelling| + |rest| == |line|
    requires AllBlank(sep) && n == e + |sep| + |spelling|
    requires IsCompareSpelling(spelling) && (|spelling| == 1 ==> At(rest, 0) !in {'=', '<', '>'})
    ensures e < |line| && ReadTok(line, e) == Scan(Compare, spelling, n)
    ensures n <= |line| && line[n..] == rest && ValidLine(rest)
  {
    var q := e + |sep|;
    CompareParts(line, e, q, n, sep, spelling, rest);
    ReadsCompare(line, e, q, spelling);
  }

  /** RunCompare once the comparison token is read. */
  lemma RunCompareAt(line: string, e: nat, n: nat, spelling: string, rest: string, f: Frame, t: VarTable.Table)
    requires ValidLine(line) && e < |line| && ReadTok(line, e) == Scan(Compare, spelling, n)
    requires n <= |line| && line[n..] == rest && f.lset
    ensures Run(line, e, f, t) ==
      Outcome(CompareValue(spelling, f.lvalue, Evaluate(rest, t).value), Evaluate(rest, t).table)
  {
    RelationalRun(line, e, f, t);
  }

  /** At a comparison or `=` token the loop hands over to Relational. */
  lemma RelationalRun(line: string, pos: nat, f: Frame, t: VarTable.Table)
    requires ValidLine(line) && pos < |line|
    requires ReadTok(line, pos).kind == Compare || ReadTok(line, pos).kind == Equal
    ensures Run(line, pos, f, t) == Relational(line, pos, ReadTok(line, pos), f, t)
  {
    assert Run(line, pos, f, t) == Dispatch(line, pos, ReadTok(line, pos), f, t);
  }

  /** A token `x` written after a chain, with blanks `sep` before it, and
      the rest of the line after it. */
  lemma TailAt(prefix: string, sep: string, x: string, rest: string)
    requires ValidLine(prefix + (sep + x + rest)) && x != []
    ensures var line := prefix + (sep + x + rest);
      HasAt(line, |prefix|, sep + (x + rest)) && |prefix| + |sep| + |x| + |rest| == |line| &&
      ValidLine(rest) && At(sep + x + rest, 0) == (if sep != [] then sep[0] else x[0])
  {
    var line := prefix + (sep + x + rest);
    assert sep + x + rest == sep + (x + rest);
    HasAtAppend(prefix, sep + x + rest);
    Behind(line, |prefix|, sep + x, rest);
    SuffixLine(line, |prefix| + |sep| + |x|);
  }

  /** A comparison after a chain compares the chain's value with the value
      of the rest of the line, which is evaluated on its own and may change
      the variable list. A lone unbound variable on the left compares as 0;
      an unbound variable in a longer chain makes the line worth 0. */
  lemma CompareChain(line: string, lead: string, head: Term, links: seq<Link>, sep: string,
                     spelling: string, rest: string, t: VarTable.Table)
    requires line == lead + ChainText(head, links, sep) + (sep + spelling + rest) && ValidLine(line)
    requires AllBlank(lead) && AllBlank(sep) && WellFormedTerm(head) && WellFormedLinks(links)
    requires IsCompareSpelling(spelling) && (|spelling| == 1 ==> At(rest, 0) !in {'=', '<', '>'})
    ensures ValidLine(rest)
    ensures ChainValue(head, links, t).None? && links != [] ==> Evaluate(line, t) == Outcome(0, t)
    ensures ChainValue(head, links, t).Some? || links == [] ==>
      Evaluate(line, t) ==
      Outcome(CompareValue(spelling, OrZero(ChainValue(head, links, t)), Evaluate(rest, t).value), Evaluate(rest, t).table)
  {
    var chain, tail := ChainText(head, links, sep), sep + spelling + rest;
    var e := |lead| + |chain|;
    HasAtTail(line, lead + chain, tail, e);
    CompareAt(line, e, sep, spelling, rest);
    assert Evaluate(line, t) == Run(line, 0, Start, t);
    RunChain(line, lead, head, links, sep, tail, e, t);
    ChainSteps(|lead|, head, links, sep, t);
    var g := Steps(ChainScans(|lead|, head, links, sep), Start, t);
    if g.Some? {
      RunCompare(line, e, sep, spelling, rest, g.value, t);
    }
  }

  /** The pieces of a comparison that ends a line. */
  lemma CompareAt(line: string, e: nat, sep: string, spelling: string, rest: string)
    requires HasAt(line, e, sep + spelling + rest) && e + |sep + spelling + rest| == |line|
    requires ValidLine(line) && AllBlank(sep) && IsCompareSpelling(spelling)
    ensures HasAt(line, e, sep + (spelling + rest)) && e + |sep| + |spelling| + |rest| == |line|
    ensures ValidLine(rest) && Stops(At(sep + spelling + rest, 0))
  {
    assert sep + spelling + rest == sep + (spelling + rest);
    assert spelling[0] in "=!<>";
    Behind(line, e, sep + spelling, rest);
    SuffixLine(line, e + |sep| + |spelling|);
    if sep != [] {
      assert (sep + spelling + rest)[0] == sep[0];
    } else {
      assert (sep + spelling + rest)[0] == spelling[0];
    }
  }

  /** The loop at an `=` token, once the line started with a variable,
      stores the value of the rest of the line in that variable. */
  lemma RunAssign(line: string, e: nat, sep: string, rest: string, f: Frame, t: VarTable.Table)
    requires ValidLine(line) && HasAt(line, e, sep + ("=" + rest)) && e + |sep| + 1 + |rest| == |line|
    requires AllBlank(sep) && f.lvar != NotVar && At(rest, 0) !in {'=', '<', '>'}
    ensures ValidLine(rest)
    ensures Run(line, e, f, t) ==
      Outcome(Evaluate(rest, t).value, VarTable.Set(Evaluate(rest, t).table, f.lvname, Evaluate(rest, t).value))
  {
    var q := e + |sep|;
    Behind(line, e, sep, "=" + rest);
    Behind(line, q, "=", rest);
    BlanksAt(line, e, sep);
    assert line[q + 0] == "="[0];
    ReadsEqual(line, e, q);
    var s := ReadTok(line, e);
    assert line[s.next..] == rest;
    SuffixLine(line, s.next);
    assert Run(line, e, f, t) == Relational(line, e, s, f, t);
  }

  /** A line that starts, after blanks, with a variable name reads the
      name first. */
  lemma ReadsFirstName(line: string, lead: string, name: string, tail: string, e: nat)
    requires line == lead + name + tail && ValidLine(line) && e == |lead| + |name|
    requires AllBlank(lead) && name != [] && AllLower(name) && !IsLower(At(tail, 0))
    ensures ReadTok(line, 0) == Scan(Var, name, e)
  {
    var p := |lead|;
    assert HasAt(line, 0, lead + name + tail);
    HasAtSplit(line, 0, lead + name, tail);
    HasAtSplit(line, 0, lead, name);
    BlanksAt(line, 0, lead);
    HasAtClass(line, p, name, IsLower);
    HasAtSlice(line, p, name);
    assert At(line, e) == At(tail, 0) by {
      if tail != [] {
        assert line[e + 0] == tail[0];
      }
    }
    ReadsName(line, 0, p, e);
  }

  /** The first variable of a line names the target of a later `=`, bound
      or not. */
  lemma FirstName(name: string, t: VarTable.Table)
    ensures VariableFrame(Start, name, t).Some?
    ensures VariableFrame(Start, name, t).value.lvar != NotVar
    ensures VariableFrame(Start, name, t).value.lvname == VarTable.Key(name)
  {
  }

  /** The first token of a line that starts with a variable name. */
  lemma RunFirstName(line: string, lead: string, name: string, tail: string, e: nat, t: VarTable.Table)
    requires line == lead + name + tail && ValidLine(line) && e == |lead| + |name|
    requires AllBlank(lead) && name != [] && AllLower(name) && !IsLower(At(tail, 0))
    ensures VariableFrame(Start, name, t).Some?
    ensures Run(line, 0, Start, t) == Run(line, e, VariableFrame(Start, name, t).value, t)
  {
    FirstName(name, t);
    ReadsFirstName(line, lead, name, tail, e);
    StepRun(line, 0, Start, t);
    var g := Step(Scan(Var, name, e), Start, t);
    assert g == VariableFrame(Start, name, t);
    assert Continue(line, e, g, t) == Run(line, e, g.value, t);
  }

  /** `name = rest` stores the value of the rest of the line in the
      variable, overwriting it or appending it to the list, and that value
      is the value of the line. */
  lemma AssignVariable(line: string, lead: string, name: string, sep: string, rest: string, t: VarTable.Table)
    requires line == lead + name + (sep + "=" + rest) && ValidLine(line)
    requires AllBlank(lead) && AllBlank(sep) && name != [] && AllLower(name)
    requires At(rest, 0) !in {'=', '<', '>'}
    ensures ValidLine(rest)
    ensures Evaluate(line, t) ==
      Outcome(Evaluate(rest, t).value, VarTable.Set(Evaluate(rest, t).table, name, Evaluate(rest, t).value))
  {
    var e := |lead| + |name|;
    TailAt(lead + name, sep, "=", rest);
    assert sep + "=" + rest == sep + ("=" + rest);
    FirstName(name, t);
    RunFirstName(line, lead, name, sep + "=" + rest, e, t);
    var g := VariableFrame(Start, name, t).value;
    RunAssign(line, e, sep, rest, g, t);
    var r := Evaluate(rest, t);
    VarTable.KeyKey(name);
    VarTable.SameKey(r.table, VarTable.Key(name), name, r.value);
    assert Evaluate(line, t) == Run(line, 0, Start, t);
    assert Run(line, 0, Start, t) == Run(line, e, g, t);
    assert Run(line, e, g, t) == Outcome(r.value, VarTable.Set(r.table, g.lvname, r.value));
    assert VarTable.Set(r.table, g.lvname, r.value) == VarTable.Set(r.table, name, r.value);
  }
}

=== FILE: vartable.dfy ===
/** The variable list of jodycalc.c: a singly linked, append-only list of
    named `long` values, modelled as a sequence in list order. Names are
    copied and compared with `strncpy`/`strncmp` bounded by MAX_VAR_NAME, so
    two names that agree on their first 16 characters are the same variable. */
module VarTable {
  import opened Common

  const MAX_VAR_NAME: nat := 16

  datatype Var = Var(name: string, value: int)

  type Table = seq<Var>

  /** The part of a name that `strncpy`/`strncmp` with MAX_VAR_NAME see. */
  function Key(name: string): (k: string)
    ensures |k| <= MAX_VAR_NAME
    ensures k <= name
    ensures |name| <= MAX_VAR_NAME ==> k == name
    ensures |name| > MAX_VAR_NAME ==> |k| == MAX_VAR_NAME
  {
    if |name| <= MAX_VAR_NAME then name else name[..MAX_VAR_NAME]
  }

  /** No two nodes of the list carry the same name. */
  predicate Unique(t: Table)
  {
    forall i, j | 0 <= i < j < |t| :: t[i].name != t[j].name
  }

  /** `u` is `t` after some assignments: every node of `t` is still there,
      in place and under the same name. */
  predicate Extends(t: Table, u: Table)
  {
    |t| <= |u| && forall i | 0 <= i < |t| :: u[i].name == t[i].name
  }

  /** find_var: the first node, from `from` on, whose name matches. */
  function FindFrom(t: Table, name: string, from: nat): (r: Option<nat>)
    requires from <= |t|
    ensures r.Some? ==> from <= r.value < |t| && t[r.value].name == Key(name)
    ensures r.Some? ==> forall j | from <= j < r.value :: t[j].name != Key(name)
    ensures r.None? ==> forall j | from <= j < |t| :: t[j].name != Key(name)
    decreases |t| - from
  {
    if from == |t| then None
    else if t[from].name == Key(name) then Some(from)
    else FindFrom(t, name, from + 1)
  }

  function Find(t: Table, name: string): (r: Option<nat>)
    ensures r.Some? ==> r.value < |t| && t[r.value].name == Key(name)
    ensures r.Some? ==> forall j | 0 <= j < r.value :: t[j].name != Key(name)
    ensures r.None? ==> forall j | 0 <= j < |t| :: t[j].name != Key(name)
  {
    FindFrom(t, name, 0)
  }

  /** get_var: the value of the named variable, if it is bound. */
  function Get(t: Table, name: string): (r: Option<int>)
    ensures r.None? <==> forall j | 0 <= j < |t| :: t[j].name != Key(name)
    ensures r.Some? ==> exists j | 0 <= j < |t| :: t[j] == Var(Key(name), r.value)
  {
    match Find(t, name)
    case Some(i) => Some(t[i].value)
    case None => None
  }

  /** set_var: overwrite the value of an existing variable in place, or
      append a new node at the tail of the list. */
  function Set(t: Table, name: string, v: int): (u: Table)
    ensures Get(u, name) == Some(v)
    ensures Extends(t, u)
    ensures Unique(t) ==> Unique(u)
    ensures Find(t, name).Some? ==>
      |u| == |t| && u[Find(t, name).value] == Var(Key(name), v) &&
      forall i | 0 <= i < |t| && i != Find(t, name).value :: u[i] == t[i]
    ensures Find(t, name).None? ==> u == t + [Var(Key(name), v)]
  {
    match Find(t, name)
    case Some(i) =>
      var u := t[i := Var(Key(name), v)];
      assert Find(u, name) == Some(i) by {
        FirstMatch(u, name, i);
      }
      u
    case None =>
      var u := t + [Var(Key(name), v)];
      assert Find(u, name) == Some(|t|) by {
        FirstMatch(u, name, |t|);
      }
      u
  }

  lemma FirstMatch(t: Table, name: string, i: nat)
    requires i < |t| && t[i].name == Key(name)
    requires forall j | 0 <= j < i :: t[j].name != Key(name)
    ensures Find(t, name) == Some(i)
  {
  }

  /** Assigning leaves every other variable as it was. */
  lemma SetOther(t: Table, name: string, v: int, other: string)
    requires Key(other) != Key(name)
    ensures Get(Set(t, name, v), other) == Get(t, other)
  {
    var u := Set(t, name, v);
    match Find(t, other)
    case Some(i) =>
      FirstMatch(u, other, i);
    case None =>
      assert Find(u, other).None?;
  }

  /** Reassignment overwrites: a second assignment to the same name leaves
      the table as if only the second had happened. */
  lemma SetTwice(t: Table, name: string, a: int, b: int)
    ensures Set(Set(t, name, a), name, b) == Set(t, name, b)
  {
    var u := Set(t, name, a);
    match Find(t, name)
    case Some(i) =>
      FirstMatch(u, name, i);
    case None =>
      FirstMatch(u, name, |t|);
  }
  /** Names that agree on their first MAX_VAR_NAME characters are one
      variable: looking either up, or assigning to either, is the same. */
  lemma SameKey(t: Table, a: string, b: string, v: int)
    requires Key(a) == Key(b)
    ensures Get(t, a) == Get(t, b)
    ensures Set(t, a, v) == Set(t, b, v)
  {
    SameKeyFrom(t, a, b, 0);
  }

  lemma {:induction false} SameKeyFrom(t: Table, a: string, b: string, from: nat)
    requires Key(a) == Key(b) && from <= |t|
    ensures FindFrom(t, a, from) == FindFrom(t, b, from)
    decreases |t| - from
  {
    if from < |t| {
      SameKeyFrom(t, a, b, from + 1);
    }
  }

  /** A key is its own key. */
  lemma KeyKey(name: string)
    ensures Key(Key(name)) == Key(name)
  {
  }
}
